=== FILE: README.md ===
# tukio workflow engine — a verified model

This project models the core of `tukio`, a Python engine that runs workflows
of asyncio tasks. It has three parts:

- **The DAG** (`tukio/dag.py`): an adjacency list from node to successor set.
  - Nodes and edges can be added and deleted. Adding an edge is rolled back when it would invalidate the graph.
  - Validation finds the root nodes and runs Kahn's topological sort.
  - The model is `Dag` (a `map<N, set<N>>` with pure operations), `Toposort` (`_toposort`) and `DagEdit` (`validate`, `add_edge`, `from_dict`).
- **Workflow templates and executions** (`tukio/workflow.py`).
  - `Policy` models the overrun policy and its handler. The handler decides whether a new execution may start, given the running ones.
  - `Template` models a template's task DAG: add, delete, link and unlink, its single root, and validation.
  - `TemplateDicts` models conversion from and to the dictionary form, where the graph is written with task ids.
  - `Execution` models one run of a template as a state record:
    - the tasks started and the tasks done;
    - the runtime override of a task's downstream tasks;
    - the `_internal_exc` and `_must_cancel` flags;
    - the lock;
    - the state of the workflow's own future.
- **The engine** (`tukio/engine.py`), modelled in `Engines`:
  - the table of loaded templates, with its duplicate rule;
  - the running executions, grouped by template id and indexed by execution id;
  - the stop-then-drain rule;
  - how received data starts new executions under each template's overrun policy.

The main results:

- Every graph built from the empty DAG through the DAG's mutators is acyclic (`DagEdit.ReplayIsAcyclic`).
- Kahn's sort succeeds exactly on acyclic graphs that have a root, and then returns a topological order (`Toposort.Kahn`).
- `from_dict` followed by `as_dict` gives back the dictionary's id, policy, topics, tasks and graph rows (`TemplateDicts.DictRoundTrip`).
- The engine's two running-workflow tables always describe the same executions, and no empty list is ever stored (`Engines.Inv`).

Python's sets and dicts are iterated in an order the model does not fix.
- Methods choose the next element with `:|`.
- Functions that build lists are stated up to order: the list has the right length and the right elements.

Outside inputs become parameters:
- the uid `uuid4()` would generate (`freshUid`);
- the template version;
- the set of task names the task registry knows (`registry`);
- the set of task templates whose creation fails (`broken`). The outcome depends on the whole template, config included, so two templates sharing a task name may differ.

## Model

| member | source | states |
|---|---|---|
| Dag.Predecessors | tukio/dag.py:63-70 | KeyError exactly for a node that is not in the DAG; otherwise exactly the nodes with an edge to it |
| Dag.Successors | tukio/dag.py:72-79 | KeyError exactly for a node that is not in the DAG; otherwise the node's own successor set, that is, exactly the nodes it has an edge to |
| Dag.PredecessorsMirrorSuccessors | tukio/dag.py:63-79 | `m` is a predecessor of `n` iff `n` is a successor of `m` |
| Dag.Leaves | tukio/dag.py:81-85 | leaves are nodes of the DAG |
| Dag.LeavesArePredecessorOfNone | tukio/dag.py:63-85 | a node is a leaf iff it is the predecessor of no node |
| Dag.RootNodes | tukio/dag.py:105-116 | the roots are exactly the nodes that are no node's successor; DAGValidationError iff there is none, so an empty DAG has no root |
| Dag.Edges | tukio/dag.py:160-169 | `(a, b)` is listed iff `b` is a successor of `a` |
| Dag.AddNode | tukio/dag.py:19-25 | ValueError iff the node exists; otherwise one new key with no successors, every other row and every edge unchanged |
| Dag.DeleteNode | tukio/dag.py:27-37 | KeyError iff the node is absent; otherwise its key and every edge from or to it go, and every other edge stays |
| Dag.DeleteEdge | tukio/dag.py:54-61 | KeyError iff the edge is absent; otherwise exactly that edge goes and the nodes stay |
| Dag.SubgraphOfAcyclic | tukio/dag.py:27-61 | removing nodes or edges cannot create a cycle |
| Dag.AddNodePreservesAcyclic | tukio/dag.py:19-25 | adding a node keeps the DAG acyclic |
| Dag.DeleteNodePreservesAcyclic | tukio/dag.py:27-37 | deleting a node keeps the DAG acyclic |
| Dag.DeleteEdgePreservesAcyclic | tukio/dag.py:54-61 | deleting an edge keeps the DAG acyclic |
| Dag.MutationsPreserveClosed | tukio/dag.py:19-61 | after the mutators every successor is still a node |
| Toposort.TopologicalOrderIsAcyclic | tukio/dag.py:138-158 | a graph with a topological order has no cycle |
| Toposort.NoRootMeansCycle | tukio/dag.py:105-116 | a non-empty graph without a root has a cycle |
| Toposort.CutOutgoing | tukio/dag.py:151-154 | the inner loop removes all of the root's outgoing edges, and adds to the roots exactly those successors that have no predecessor left |
| Toposort.KahnExitCyclic | tukio/dag.py:155-157 | if edges remain when no root is left, the graph has a cycle |
| Toposort.KahnExitSorted | tukio/dag.py:145-158 | if no edge remains, the emitted list is a topological order of every node |
| Toposort.Kahn | tukio/dag.py:138-158 | "no root" iff `root_nodes` raises; success iff the graph has a root and is acyclic; success lists every node exactly once, `u` before `v` for each edge `u -> v` |
| DagEdit.VerdictOfAcyclic | tukio/dag.py:118-126 | an acyclic graph is judged invalid only when it is empty |
| DagEdit.Validate | tukio/dag.py:118-126 | raises nothing iff the graph is non-empty and acyclic |
| DagEdit.IsValid | tukio/dag.py:128-136 | True iff the graph is non-empty and acyclic |
| DagEdit.AddEdge | tukio/dag.py:39-52 | KeyError iff an endpoint is missing; otherwise one edge is added, or the error is a validation error and the graph with the edge has a cycle |
| DagEdit.AddEdgeRollbackRestores | tukio/dag.py:46-52 | when `add_edge` fails, the graph is exactly the one before the call |
| DagEdit.AddEdgePreservesAcyclic | tukio/dag.py:39-52 | an acyclic graph stays acyclic through `add_edge`, whether it succeeds or rolls back |
| DagEdit.MutationsPreserveValidity | tukio/dag.py:19-61 | add node, delete node and delete edge keep the graph closed and acyclic |
| DagEdit.ReplayIsAcyclic | tukio/dag.py:19-61 | any sequence of `add_node`/`add_edge`/`delete_edge`/`delete_node` calls from the empty DAG leaves an acyclic DAG |
| DagEdit.FromDict | tukio/dag.py:87-103 | succeeds iff every successor is a key and the described graph is acyclic, and then yields exactly the described graph; KeyError only for an unknown successor |
| Policy.FromValue | tukio/workflow.py:51-70 | a policy's value string maps back to that policy; no other string maps to any policy |
| Policy.ValueRoundTrip | tukio/workflow.py:51-84 | `OverrunPolicy(p.value) == p` for every policy |
| Policy.Get | tukio/workflow.py:71-84 | None gives skip-until-unlock, a policy is returned unchanged, and a string maps by value; ValueError for an unknown string |
| Policy.FirstMismatch | tukio/workflow.py:105-108 | finds the first running instance whose template uid differs, or reports that there is none |
| Policy.SkipHandler | tukio/workflow.py:113-123 | starts iff nothing is running; ValueError iff a running instance has another template |
| Policy.StartNewHandler | tukio/workflow.py:125-129 | always starts and checks nothing |
| Policy.SkipUntilUnlockHandler | tukio/workflow.py:131-147 | starts iff every running instance is of the template and unlocked; declines only when some instance is locked; raises ValueError iff an instance of another template comes no later than the first locked one |
| Policy.AbortRunningHandler | tukio/workflow.py:149-157 | starts iff every running instance is of the template, and then cancels all of them; on a foreign instance it has cancelled only the ones before it |
| Policy.PolicyRules | tukio/workflow.py:101-157 | on a running list of the template: skip starts iff the list is empty, start-new always starts, skip-until-unlock starts iff none is locked, abort-running cancels all and starts |
| Policy.EmptyRunningStarts | tukio/workflow.py:101-157 | with nothing running, every policy starts a new workflow |
| Policy.MismatchRaises | tukio/workflow.py:105-157 | skip and abort-running raise ValueError iff a running instance has another template; skip-until-unlock raises exactly when such an instance comes no later than the first locked one; start-new never raises |
| Policy.Decide | tukio/workflow.py:101-103 | `new_workflow` dispatches on the policy: only abort-running cancels anything; no start only under skip or skip-until-unlock with something running, and under skip-until-unlock only when some instance is locked; ValueError only from a policy that checks, on a list holding another template; nothing running always starts |
| Policy.SkipUntilUnlockStopsAtLock | tukio/workflow.py:137-145 | for any running list whose instances up to a locked one are of the template, skip-until-unlock starts nothing and raises nothing, whatever follows that locked one |
| Policy.LockHidesForeignInstance | tukio/workflow.py:131-147 | an instance of another template after a locked one raises nothing under skip-until-unlock, while skip raises ValueError for the same list |
| Template.New | tukio/workflow.py:169-173 | a missing or empty uid is replaced by a generated one; the policy goes through `OverrunPolicy.get`; the DAG starts empty |
| Template.Add | tukio/workflow.py:183-191 | ValueError iff the task is already in; otherwise one new task with no links, and everything else kept |
| Template.Delete | tukio/workflow.py:193-198 | KeyError iff the task is absent; otherwise the task and every link to or from it are removed |
| Template.RootAsWritten | tukio/workflow.py:200-209 | with no root the DAG's exception escapes, not WorkflowRootTaskError(0) |
| Template.RootOfEmptyTemplate | tukio/workflow.py:200-209 | an empty template shows the difference between `root()` as written and as intended |
| Template.Root | tukio/workflow.py:200-209 | returns the unique task nothing links to, or WorkflowRootTaskError carrying the number of such tasks |
| Template.Link | tukio/workflow.py:211-215 | adds the edge, or leaves the template unchanged with KeyError (unknown task) or a validation error (the edge would make a cycle) |
| Template.Unlink | tukio/workflow.py:217-224 | removes `a -> b`, or failing that `b -> a`; KeyError iff neither edge exists |
| Template.Validate | tukio/workflow.py:311-324 | passes iff there is exactly one root and every task name is registered; otherwise reports the DAG's error, the root count or an unknown name |
| TemplateDicts.TaskIndex | tukio/workflow.py:265-270 | maps each task id to a task read from the dictionary under that id |
| TemplateDicts.TaskIndexKeepsLast | tukio/workflow.py:265-270 | for a repeated id, the last task dict with that id wins |
| TemplateDicts.LinkItem | tukio/workflow.py:272-280 | links one graph row, or raises TemplateGraphError with an id absent from the tasks, or a validation error when the graph has a cycle |
| TemplateDicts.AddTasks | tukio/workflow.py:265-270 | adds one unlinked task per task dict |
| TemplateDicts.FromDict | tukio/workflow.py:226-282 | succeeds iff the policy is known, every id in the graph is a task id and the described graph is acyclic; the result carries the given (or generated) uid, the policy, the topics and exactly that graph |
| TemplateDicts.LinkAll | tukio/workflow.py:272-280 | links every row in turn; TemplateGraphError carries an id the graph mentions and the tasks lack |
| TemplateDicts.AsDict | tukio/workflow.py:284-301 | writes out uid, policy value and topics, one dict per task, and one row of successor ids per task id |
| TemplateDicts.DictRoundTrip | tukio/workflow.py:226-301 | `as_dict(from_dict(d))` gives back the id, policy, topics, task dicts and each graph row of `d` |
| TemplateDicts.RowRoundTrip | tukio/workflow.py:272-300 | a written-out row lists exactly the ids of the row it was read from |
| Execution.Init | tukio/workflow.py:407-434 | a new workflow has no task and an unresolved future; it is locked iff its policy is skip-until-unlock |
| Execution.Unlock | tukio/workflow.py:444-452 | the lock is released, and nothing else changes |
| Execution.TryMarkDone | tukio/workflow.py:652-685 | the future is resolved only when every task is done, and at most once; internal exception first, then cancellation, then the result is the set of tasks |
| Execution.CancelEach | tukio/workflow.py:693-698 | calls `cancel()` on every task not through its callback and counts exactly those that have not ended; they stay pending, with the cancellation requested |
| Execution.CancelAllTasks | tukio/workflow.py:687-698 | sets `_must_cancel` and counts the tasks not through their callback that have not ended; they stay cancellable, so a second call counts them again |
| Execution.EndTask | tukio/workflow.py:714-722 | a pending task ends with a value, an exception or its cancellation; it then leaves the cancellable tasks, and nothing else changes |
| Execution.NewTask | tukio/workflow.py:540-562 | a task is created and indexed under its template's uid, or the creation error is stored and cancellation is requested for every pending task, which stays pending |
| Execution.FirstWithUid | tukio/workflow.py:584-587 | the successor carrying the uid that no earlier successor carries, or none when no successor carries it |
| Execution.Filter | tukio/workflow.py:582-593 | keeps, for each listed id, the first successor with that uid, and nothing a later successor with that uid; unknown ids are skipped |
| Execution.FilterUnique | tukio/workflow.py:582-593 | with distinct uids, the filter keeps exactly the successors whose uid is listed |
| Execution.NextTemplates | tukio/workflow.py:572-593 | without an override all successors are returned; with one, only successors whose uid is listed, each the first successor with its uid, and for every listed id that some successor carries, that first successor |
| Execution.NextAreSuccessors | tukio/workflow.py:572-593 | every next template is a DAG successor of the task's template |
| Execution.StartDownstream | tukio/workflow.py:636-648 | starts the next templates not yet started and joins or skips the others; at the first creation failure, at `next[k]`, the loop stops: every template before it has a task, every new task runs a template before it, and the templates after it get none |
| Execution.FollowTask | tukio/workflow.py:609-648 | marks the task done; only a task that returned a value, in a workflow not being cancelled, starts downstream tasks, and only successors of its template |
| Execution.RunNextTasks | tukio/workflow.py:603-650 | as FollowTask, then the future is resolved iff every task is now done |
| Execution.Run | tukio/workflow.py:510-538 | RuntimeError iff tasks exist, and no other error; a template without a single root fails the workflow with WorkflowRootTaskError; otherwise exactly the root task is started, unless its creation fails |
| Execution.RunAsWritten | tukio/workflow.py:518-525 | on top of `root()` as written, a template with no root makes the DAG's exception escape `run`, leaving the workflow unchanged; with a root it behaves as Execution.Run |
| Execution.SetNextTasks | tukio/workflow.py:700-712 | RuntimeError iff the task was not started by this workflow; otherwise records the task's list of next ids |
| Execution.Cancel | tukio/workflow.py:714-723 | always True; requests cancellation of every task that has not ended, and those stay pending; the future is cancelled at once iff there was none, otherwise it waits for them; the stored exception is kept |
| Engines.Init | tukio/engine.py:21-30 | no template, nothing running, not stopped |
| Engines.AddWflow | tukio/engine.py:36-46 | appends the workflow to its template's list, creating the list if absent, and indexes it by its uid; other lists unchanged |
| Engines.AddWflowAsWritten | tukio/engine.py:36-46 | as written, AttributeError on `template_id` before either table changes |
| Engines.AddWflowAsWrittenLosesWorkflow | tukio/engine.py:36-46 | after the as-written `_add_wflow` the workflow is neither listed nor indexed, while AddWflow lists and indexes it |
| Engines.AddKeepsInv | tukio/engine.py:36-46 | the two running tables keep describing the same executions |
| Engines.RemoveWflow | tukio/engine.py:48-60 | error iff the workflow is not in its template's list; otherwise it is removed from both tables, an emptied list is deleted, and the result is set once a stop is pending and nothing runs |
| Engines.UnindexKeepsInv | tukio/engine.py:48-56 | after removal no empty list is stored and both tables still agree |
| Engines.AddThenRemove | tukio/engine.py:36-56 | removing a workflow just added restores the running tables |
| Engines.StopAsWritten | tukio/engine.py:62-69 | `stop()` only raises the stop flag |
| Engines.StopWithNothingRunning | tukio/engine.py:58-69 | with nothing running, `stop()` as written leaves the result unset and `_remove_wflow` cannot set it for any workflow; only a workflow started after the stop (which `run()` still does) resolves the engine when it ends |
| Engines.Stop | tukio/engine.py:58-69 | once a stop is requested and nothing runs, the result is set |
| Engines.SlotsAreIndexed | tukio/engine.py:209-220 | the running lists together hold exactly as many workflows as the execution-id index |
| Engines.CancelAll | tukio/engine.py:209-220 | returns the number of running workflows, as every `cancel()` returns True |
| Engines.Cancel | tukio/engine.py:197-207 | finds the running workflow with that execution id, or None |
| Engines.ReleaseLock | tukio/workflow.py:444-452 | releases the lock of that one execution and keeps both tables consistent |
| Engines.Register | tukio/engine.py:90-101 | DuplicateWorkflowError iff the uid is loaded with the same version, and the table is then unchanged; otherwise the template is stored under its uid and the rest kept |
| Engines.Unload | tukio/engine.py:124-134 | removes and returns the template, or returns None and leaves the table unchanged |
| Engines.UnloadUndoesRegister | tukio/engine.py:124-134 | unloading a template just loaded under a new uid restores the table |
| Engines.RegisterTwice | tukio/engine.py:98-99 | loading the same template twice raises DuplicateWorkflowError |
| Engines.Build | tukio/engine.py:88-89 | `from_dict` then `validate` succeed iff the dictionary describes a valid template with a single root and known task names |
| Engines.Load | tukio/engine.py:81-103 | inserts a new uid, replaces an entry of another version, raises DuplicateWorkflowError for the same uid and version; on failure the table is unchanged |
| Engines.LoadAsWritten | tukio/engine.py:81-103 | as written, every dictionary that passes `validate()` raises AttributeError: on `version` for a loaded uid, with the table unchanged; on `title` for a new uid, after storing it |
| Engines.ReloadAsWritten | tukio/engine.py:114-122 | as written, no error iff the list is empty; otherwise the loop ends at the first dictionary, leaving at most its template loaded |
| Engines.Reload | tukio/engine.py:114-122 | the table is cleared, then each dictionary is loaded; every entry comes from one of them; no error iff every dictionary is valid and none repeats the uid and version of the latest earlier one with its uid; otherwise the error is the one `_load` raises for the first rejected dictionary |
| Engines.DuplicateIsEarlier | tukio/engine.py:93-101 | during a reload, `_load` finds a template of the same uid and version exactly when the latest earlier dictionary with that uid has that version |
| Engines.NewInstance | tukio/workflow.py:407-428 | a new execution belongs to its template and starts locked iff the policy is skip-until-unlock |
| Engines.TryRun | tukio/engine.py:152-183 | nothing for an id no longer loaded; otherwise starts a workflow exactly when the template's overrun policy allows it, and records it; under abort-running with instances listed, `run` waits for exactly those, never for the new workflow |
| Engines.AbortWaitsOnItself | tukio/engine.py:166-183 | the live list handed to `_wait_abort` holds the new workflow once `_add_wflow` has run, though the list before did not |
| Engines.DataReceived | tukio/engine.py:136-150 | after `stop()` nothing starts; otherwise the loaded templates are tried in turn, each starting a workflow of its own exactly when its overrun policy allows it given what ran before the call; a policy ValueError ends the loop and is raised, and the templates after it start nothing |
| Engines.Run | tukio/engine.py:185-195 | KeyError iff the template is not loaded; otherwise starts and records a workflow whatever its policy |

## Left out

- asyncio is not modelled: futures, tasks, the event loop and scheduling. The order of callbacks becomes the order in which the model's operations are called. The engine's `asyncio.Lock` and `_run_in_task` are left out, as is `load()`, which only wraps `_load` in that lock. `_wait_abort` is reduced to the list `TryRun` returns as `awaited`; the later call to `run` is not modelled.
- The event broker and event objects are not modelled: `_register_to_broker`, `_unregister_from_broker`, `_dispatch_exec_event`, `Event`/`EventSource`, `_join_task`'s event push and `listen`. They belong to modules that are not part of this model. A downstream task already started is joined, which in the model changes nothing.
- `TaskTemplate`, the task registry and `TukioTask` are modelled by a task's uid, name and identity only. Whether a task can be created is the parameter `broken`, a set of task templates; the config that decides it is folded into the template's identity. Which names the registry knows is the parameter `registry`.
- `uuid4()`, `datetime.utcnow()` and logging are not modelled. Generated uids are parameters; times are dropped.
- The engine reads `template_id` from a `Workflow` and `version` and `title` from a `WorkflowTemplate`, and neither class sets them (tukio/workflow.py:160-182, 407-434), so as written these reads raise AttributeError (see Findings). The corrected members read the template id as the template's uid and the version as an opaque value supplied by the caller, and drop `title`, which only feeds logging.
- `report()`, `copy()`, `unlock_when_task_done`, `_current_workflow`, `_get_workflow_from_task` and the `__main__` demo blocks of `tukio/dag.py` and `tukio/engine.py` are not modelled.
- The `TypeError` checks on argument types are not modelled, because the types make them impossible.
- `_running_by_id` is a weak-value dictionary; the model treats it as a plain map, kept in step with `_running`.
- Timeouts and schemas are exercised by the tests but not implemented by the code.
- Dag.Predecessors: the result is a set; the order of the Python list is not modelled.
- Dag.Leaves: states only that leaves are nodes; which nodes are leaves is the lemma Dag.LeavesArePredecessorOfNone.
- Policy.Decide: its contract states what every policy shares; the exact rule of each policy is the lemmas Policy.PolicyRules and Policy.MismatchRaises.
- Execution.Filter: the contract states which templates are kept but not their order. The body does keep the order of the id list, as the source does. That order matters, because StartDownstream stops at the first failing template and consumes the filtered sequence as computed. Stating the order would only repeat the body.
- TemplateDicts.AsDict: task lists and graph rows are stated as the right elements and the right length, not in a fixed order, because Python's dict and set order is not modelled.
- Template.Validate: which unknown task name is reported depends on the set's iteration order; the model reports some unknown name.
- Engines.DataReceived: the new workflows of one call are stated per template only when every template is loaded and validated; otherwise only that a ValueError stops the loop and that every new workflow has a fresh uid.

## Findings

| source | as written | input that shows it | evidently intended | confidence | as-written member | corrected member |
|---|---|---|---|---|---|---|
| tukio/workflow.py:200-209 | `root()` calls `root_nodes()`, which raises DAGValidationError when there is no root; `run` (lines 520-525) catches only WorkflowRootTaskError, so this exception escapes `run` | a template with no task | `root()` raises WorkflowRootTaskError(0), which `run` turns into a failed workflow | not executed | Template.RootAsWritten, Template.RootOfEmptyTemplate, Execution.RunAsWritten | Template.Root, Execution.Run |
| tukio/engine.py:36-103 | `Workflow` sets no `template_id` and `WorkflowTemplate` sets neither `version` nor `title`, yet `_add_wflow` (line 42), `_remove_wflow` (line 52) and `_load` (lines 98 and 102) read them, and each raises AttributeError. `_load` stores a new template before raising, so `reload` stops after its first dictionary; `run()` and `_try_run` raise after starting a workflow that is never recorded | `reload` of any non-empty list; any `run()` | the template id is the template's uid, templates carry a version, and `title` is a label for logging | not executed | Engines.AddWflowAsWritten, Engines.AddWflowAsWrittenLosesWorkflow, Engines.LoadAsWritten, Engines.ReloadAsWritten | Engines.AddWflow, Engines.Load, Engines.Reload |
| tukio/engine.py:166-183 | `_try_run` passes the live list `_running[tmpl_id]` to `_wait_abort`, and `_add_wflow` appends the new workflow to it before `asyncio.wait` reads it, so the workflow awaits its own end and `run` is never called on it. This holds once `_add_wflow` reads the template's uid as intended; as written it raises first (row above) | data for an abort-running template with one instance running | wait for the instances running before the new one, then run it | not executed | Engines.AbortWaitsOnItself | Engines.TryRun |
| tukio/engine.py:62-69 | `stop()` only raises `_must_stop`; the result is set only in `_remove_wflow` (lines 58-59), so an engine stopped with nothing running stays unresolved unless a workflow started later by `run()` ends; `data_received` starts none | `stop()` on an engine with no running workflow | the engine resolves as soon as a stop is requested and nothing runs | not executed | Engines.StopAsWritten, Engines.StopWithNothingRunning | Engines.Stop |

Unlike `_skip` and `_abort_running`, `_skip_until_unlock` (tukio/workflow.py:131-147) checks the template uids of the running instances only up to the first locked one. An instance of another template after it raises nothing (Policy.SkipUntilUnlockStopsAtLock, Policy.LockHidesForeignInstance).

=== FILE: dag.dfy ===
/** The adjacency-list graph of `tukio/dag.py`: each node is a key whose value
    is the set of its successors. This module holds the queries and the
    mutations that need no validation, and the notions of path, cycle and
    acyclicity the rest of the model is stated in. */
module Dag {
  import opened Wrappers

  /** `DAG.graph`: node -> set of successors. */
  type Graph<N> = map<N, set<N>>

  /** The exceptions raised by the DAG operations. */
  datatype DagError =
    | DuplicateNode  // ValueError: node already exists
    | UnknownNode    // KeyError: node(s) not in graph
    | UnknownEdge    // KeyError: this edge does not exist in graph
    | NoRootNode     // DAGValidationError: no root node found
    | NotAcyclic     // DAGValidationError: graph is not acyclic

  /** `DAGValidationError`, the exception `add_edge` rolls back on. */
  predicate IsValidationError(e: DagError) {
    e.NoRootNode? || e.NotAcyclic?
  }

  /** Every successor is itself a node of the graph; every mutation keeps this. */
  ghost predicate Closed<N(!new)>(g: Graph<N>) {
    forall n, m :: n in g && m in g[n] ==> m in g
  }

  /** `n` is a node that no node points to. */
  ghost predicate NoPredecessor<N(!new)>(g: Graph<N>, n: N) {
    forall k :: k in g ==> n !in g[k]
  }

  /** The elements of a Python list, as a set. */
  function Elems<T(!new)>(s: seq<T>): (r: set<T>)
    ensures forall x :: x in r <==> x in s
  {
    set x | x in s
  }

  // ---------------------------------------------------------------------
  // Queries

  /** `predecessors(node)`: the nodes with an edge to `n`; KeyError for an
      unknown node. The list's order is not modelled. */
  function Predecessors<N(!new)>(g: Graph<N>, n: N): (r: Result<set<N>, DagError>)
    ensures r.Failure? <==> n !in g
    ensures r.Failure? ==> r.error == UnknownNode
    ensures r.Success? ==> forall m :: m in r.value <==> (m, n) in Edges(g)
  {
    if n !in g then Failure(UnknownNode) else Success(set m | m in g && n in g[m])
  }

  /** `successors(node)`: the successor set of `n`; KeyError for an unknown node. */
  function Successors<N(!new)>(g: Graph<N>, n: N): (r: Result<set<N>, DagError>)
    ensures r.Failure? <==> n !in g
    ensures r.Failure? ==> r.error == UnknownNode
    ensures r.Success? ==> r.value == g[n]
    ensures r.Success? ==> forall s :: s in r.value <==> (n, s) in Edges(g)
  {
    if n !in g then Failure(UnknownNode) else Success(g[n])
  }

  /** `m` precedes `n` exactly when `n` succeeds `m`. */
  lemma PredecessorsMirrorSuccessors<N(!new)>(g: Graph<N>, m: N, n: N)
    requires m in g && n in g
    ensures m in Predecessors(g, n).value <==> n in Successors(g, m).value
  {
  }

  /** `leaves()`: the nodes with no successor. */
  function Leaves<N(!new)>(g: Graph<N>): (r: set<N>)
    ensures r <= g.Keys
  {
    set n | n in g && g[n] == {}
  }

  /** A leaf is exactly a node that is nobody's predecessor. */
  lemma LeavesArePredecessorOfNone<N(!new)>(g: Graph<N>, n: N)
    requires Closed(g)
    ensures n in Leaves(g) <==> n in g && forall m :: m in g ==> n !in Predecessors(g, m).value
  {
    if n in g && n !in Leaves(g) {
      var m :| m in g[n];
      assert n in Predecessors(g, m).value;
    }
  }

  /** Every node that appears as somebody's successor. */
  function AllSuccessors<N(!new)>(g: Graph<N>): set<N> {
    set n, m | n in g && m in g[n] :: m
  }

  /** `root_nodes()`: the nodes minus every successor set; DAGValidationError
      when nothing is left. */
  function RootNodes<N(!new)>(g: Graph<N>): (r: Result<set<N>, DagError>)
    ensures r.Failure? ==> r.error == NoRootNode
    ensures r.Success? ==> r.value != {}
    ensures r.Failure? <==> forall n {:trigger NoPredecessor(g, n)} :: n in g ==> !NoPredecessor(g, n)
    ensures r.Success? ==> forall n {:trigger n in r.value} :: n in r.value <==> n in g && NoPredecessor(g, n)
  {
    var roots := g.Keys - AllSuccessors(g);
    assert forall n {:trigger n in roots} {:trigger NoPredecessor(g, n)} :: n in roots <==> n in g && NoPredecessor(g, n) by {
      forall n | n in g && !NoPredecessor(g, n)
        ensures n in AllSuccessors(g)
      {
        var k :| k in g && n in g[k];
      }
    }
    if roots == {} then Failure(NoRootNode) else Success(roots)
  }

  /** `edges()`: every (predecessor, successor) pair. */
  function Edges<N(!new)>(g: Graph<N>): (r: set<(N, N)>)
    ensures forall a, b :: (a, b) in r <==> a in g && b in g[a]
  {
    set n, m | n in g && m in g[n] :: (n, m)
  }

  // ---------------------------------------------------------------------
  // Mutations that need no validation

  /** `add_node`: ValueError if the node exists; otherwise a fresh node with no
      successor, every other entry untouched. */
  function AddNode<N(!new)>(g: Graph<N>, n: N): (r: Result<Graph<N>, DagError>)
    ensures r.Failure? <==> n in g
    ensures r.Failure? ==> r.error == DuplicateNode
    ensures r.Success? ==> r.value.Keys == g.Keys + {n} && r.value[n] == {}
    ensures r.Success? ==> forall k :: k in g ==> r.value[k] == g[k]
    ensures r.Success? ==> Edges(r.value) == Edges(g)
  {
    if n in g then Failure(DuplicateNode) else Success(g[n := {}])
  }

  /** `delete_node`: KeyError if absent; otherwise the key goes away together
      with every edge pointing to it. */
  function DeleteNode<N(!new)>(g: Graph<N>, n: N): (r: Result<Graph<N>, DagError>)
    ensures r.Failure? <==> n !in g
    ensures r.Failure? ==> r.error == UnknownNode
    ensures r.Success? ==> r.value.Keys == g.Keys - {n}
    ensures r.Success? ==> forall a, b :: (a, b) in Edges(r.value) <==> (a, b) in Edges(g) && a != n && b != n
  {
    if n !in g then Failure(UnknownNode) else Success(map k | k in g && k != n :: g[k] - {n})
  }

  /** `delete_edge`: KeyError if the edge is absent (an unknown predecessor
      counts as absent); otherwise exactly that one edge is removed. */
  function DeleteEdge<N(!new)>(g: Graph<N>, p: N, s: N): (r: Result<Graph<N>, DagError>)
    ensures r.Failure? <==> !(p in g && s in g[p])
    ensures r.Failure? ==> r.error == UnknownEdge
    ensures r.Success? ==> r.value.Keys == g.Keys
    ensures r.Success? ==> Edges(r.value) == Edges(g) - {(p, s)}
  {
    if p !in g || s !in g[p] then Failure(UnknownEdge) else Success(g[p := g[p] - {s}])
  }

  // ---------------------------------------------------------------------
  // Paths and cycles

  /** `p` follows edges of `g` from its first to its last element. */
  ghost predicate IsPath<N(!new)>(g: Graph<N>, p: seq<N>) {
    && |p| >= 1
    && forall i :: 0 <= i < |p| - 1 ==> p[i] in g && p[i + 1] in g[p[i]]
  }

  /** A path of at least one edge that comes back to where it started. */
  ghost predicate IsCycle<N(!new)>(g: Graph<N>, p: seq<N>) {
    IsPath(g, p) && |p| >= 2 && p[0] == p[|p| - 1]
  }

  ghost predicate Acyclic<N(!new)>(g: Graph<N>) {
    forall p :: !IsCycle(g, p)
  }

  /** `h` has no node or edge that `g` lacks. */
  ghost predicate Subgraph<N(!new)>(h: Graph<N>, g: Graph<N>) {
    forall k :: k in h ==> k in g && h[k] <= g[k]
  }

  /** Removing nodes or edges cannot create a cycle. */
  lemma SubgraphOfAcyclic<N(!new)>(h: Graph<N>, g: Graph<N>)
    requires Subgraph(h, g) && Acyclic(g)
    ensures Acyclic(h)
  {
    forall p | IsCycle(h, p)
      ensures false
    {
      assert IsCycle(g, p);
    }
  }

  /** A node without successors lies on no cycle, so adding one is harmless. */
  lemma AddNodePreservesAcyclic<N(!new)>(g: Graph<N>, n: N)
    requires n !in g && Acyclic(g)
    ensures Acyclic(AddNode(g, n).value)
  {
    var g' := AddNode(g, n).value;
    forall p | IsCycle(g', p)
      ensures false
    {
      forall i | 0 <= i < |p| - 1
        ensures p[i] != n
      {
        assert p[i + 1] in g'[p[i]];
      }
      assert IsCycle(g, p);
    }
  }

  lemma DeleteNodePreservesAcyclic<N(!new)>(g: Graph<N>, n: N)
    requires n in g && Acyclic(g)
    ensures Acyclic(DeleteNode(g, n).value)
  {
    SubgraphOfAcyclic(DeleteNode(g, n).value, g);
  }

  lemma DeleteEdgePreservesAcyclic<N(!new)>(g: Graph<N>, p: N, s: N)
    requires p in g && s in g[p] && Acyclic(g)
    ensures Acyclic(DeleteEdge(g, p, s).value)
  {
    SubgraphOfAcyclic(DeleteEdge(g, p, s).value, g);
  }

  /** The mutations keep every successor a node. */
  lemma MutationsPreserveClosed<N(!new)>(g: Graph<N>, n: N, p: N, s: N)
    requires Closed(g)
    ensures AddNode(g, n).Success? ==> Closed(AddNode(g, n).value)
    ensures DeleteNode(g, n).Success? ==> Closed(DeleteNode(g, n).value)
    ensures DeleteEdge(g, p, s).Success? ==> Closed(DeleteEdge(g, p, s).value)
  {
  }
}

=== FILE: dag_edit.dfy ===
/** The validating side of `tukio/dag.py`: `validate`/`is_valid`, `add_edge`
    with its rollback, `from_dict`, and the invariant that every graph built
    through the DAG's own operations is acyclic. */
module DagEdit {
  import opened Wrappers
  import opened Dag
  import opened Toposort

  /** What `validate()` reports: DAGValidationError "no root node found" when
      `root_nodes` fails, "graph is not acyclic" when there is a cycle, nothing
      otherwise. */
  ghost function Verdict<N(!new)>(g: Graph<N>): Option<DagError> {
    if RootNodes(g).Failure? then Some(NoRootNode)
    else if !Acyclic(g) then Some(NotAcyclic)
    else None
  }

  /** An acyclic graph fails validation only for having no node at all. */
  lemma VerdictOfAcyclic<N(!new)>(g: Graph<N>)
    requires Closed(g) && Acyclic(g)
    ensures Verdict(g) == None <==> g != map[]
  {
    if g != map[] && RootNodes(g).Failure? {
      NoRootMeansCycle(g);
    }
  }

  /** `validate()`: `root_nodes()` then `_toposort()`. The graph is valid exactly
      when it is non-empty and acyclic; in particular an empty DAG is not. */
  method Validate<N(!new)>(g: Graph<N>) returns (r: Option<DagError>)
    requires Closed(g)
    ensures r == Verdict(g)
    ensures r == None <==> g != map[] && Acyclic(g)
  {
    var roots := RootNodes(g);
    if roots.Failure? {
      if g != map[] {
        NoRootMeansCycle(g);
      }
      return Some(roots.error);
    }
    var order := Kahn(g);
    if order.Failure? {
      return Some(order.error);
    }
    return None;
  }

  /** `is_valid()`: True iff `validate()` raises no DAGValidationError. */
  method IsValid<N(!new)>(g: Graph<N>) returns (b: bool)
    requires Closed(g)
    ensures b <==> g != map[] && Acyclic(g)
  {
    var r := Validate(g);
    b := r.None?;
  }

  /** The graph and outcome `add_edge` leaves behind: KeyError when an endpoint
      is missing; otherwise the edge is inserted and, if validation then fails,
      removed again before the error propagates. */
  ghost function AddEdgeOutcome<N(!new)>(g: Graph<N>, p: N, s: N): (Graph<N>, Option<DagError>) {
    if p !in g || s !in g then (g, Some(UnknownNode))
    else
      var linked := g[p := g[p] + {s}];
      match Verdict(linked)
      case None => (linked, None)
      case Some(e) => (linked[p := linked[p] - {s}], Some(e))
  }

  /** `add_edge`. */
  method AddEdge<N(!new)>(g: Graph<N>, p: N, s: N) returns (g': Graph<N>, err: Option<DagError>)
    requires Closed(g)
    ensures (g', err) == AddEdgeOutcome(g, p, s)
    ensures err == Some(UnknownNode) <==> p !in g || s !in g
    ensures err.Some? ==> err.value == UnknownNode || IsValidationError(err.value)
    ensures err == None ==> Closed(g') && Acyclic(g') && g'.Keys == g.Keys && Edges(g') == Edges(g) + {(p, s)}
    ensures err == None ==> g' == g[p := g[p] + {s}]
    ensures err.Some? && IsValidationError(err.value) ==> !Acyclic(g[p := g[p] + {s}])
  {
    if p !in g || s !in g {
      return g, Some(UnknownNode);
    }
    g' := g[p := g[p] + {s}];
    var v := Validate(g');
    if v.Some? {
      g' := g'[p := g'[p] - {s}];
      return g', v;
    }
    err := None;
  }

  /** The rollback restores the graph exactly whenever the edge was new, and an
      edge that was already there is never rolled back out of an acyclic graph. */
  lemma AddEdgeRollbackRestores<N(!new)>(g: Graph<N>, p: N, s: N)
    requires Closed(g) && p in g && s in g
    requires s !in g[p] || Acyclic(g)
    ensures AddEdgeOutcome(g, p, s).1.Some? ==> AddEdgeOutcome(g, p, s).0 == g
  {
    if s in g[p] {
      assert g[p] + {s} == g[p];
      assert g[p := g[p] + {s}] == g;
      VerdictOfAcyclic(g);
    } else {
      assert g[p := g[p] + {s}][p := g[p] + {s} - {s}] == g;
    }
  }

  /** Whatever happens, `add_edge` keeps an acyclic graph acyclic: on success
      the graph was validated, on rollback it lost at most one edge. */
  lemma AddEdgePreservesAcyclic<N(!new)>(g: Graph<N>, p: N, s: N)
    requires Closed(g) && Acyclic(g)
    ensures Closed(AddEdgeOutcome(g, p, s).0) && Acyclic(AddEdgeOutcome(g, p, s).0)
  {
    if p in g && s in g {
      var linked := g[p := g[p] + {s}];
      if Verdict(linked).Some? {
        SubgraphOfAcyclic(linked[p := linked[p] - {s}], g);
      }
    }
  }

  /** The mutations that need no validation keep a well-formed graph well
      formed (stated with the hypothesis inside, so callers need not branch). */
  lemma MutationsPreserveValidity<N(!new)>(g: Graph<N>, n: N, p: N, s: N)
    ensures Closed(g) && Acyclic(g) && n !in g ==> Closed(AddNode(g, n).value) && Acyclic(AddNode(g, n).value)
    ensures Closed(g) && Acyclic(g) && n in g ==> Closed(DeleteNode(g, n).value) && Acyclic(DeleteNode(g, n).value)
    ensures Closed(g) && Acyclic(g) && DeleteEdge(g, p, s).Success? ==>
      Closed(DeleteEdge(g, p, s).value) && Acyclic(DeleteEdge(g, p, s).value)
  {
    if Closed(g) && Acyclic(g) {
      MutationsPreserveClosed(g, n, p, s);
      if n !in g {
        AddNodePreservesAcyclic(g, n);
      } else {
        DeleteNodePreservesAcyclic(g, n);
      }
      if DeleteEdge(g, p, s).Success? {
        DeleteEdgePreservesAcyclic(g, p, s);
      }
    }
  }

  // ---------------------------------------------------------------------
  // Every graph built through the DAG API is acyclic

  /** One call on the DAG object. */
  datatype Mutation<N> =
    | AddNodeCall(node: N)
    | DeleteNodeCall(node: N)
    | AddEdgeCall(pred: N, succ: N)
    | DeleteEdgeCall(pred: N, succ: N)

  /** The graph after one call; a call that raises leaves the graph as it
      found it, except for `add_edge`, which leaves it rolled back. */
  ghost function Apply<N(!new)>(g: Graph<N>, m: Mutation<N>): Graph<N> {
    match m
    case AddNodeCall(n) => if n in g then g else AddNode(g, n).value
    case DeleteNodeCall(n) => if n !in g then g else DeleteNode(g, n).value
    case AddEdgeCall(p, s) => AddEdgeOutcome(g, p, s).0
    case DeleteEdgeCall(p, s) => if DeleteEdge(g, p, s).Failure? then g else DeleteEdge(g, p, s).value
  }

  /** The graph of a fresh `DAG()` after a sequence of calls. */
  ghost function Replay<N(!new)>(ms: seq<Mutation<N>>): Graph<N> {
    if ms == [] then map[] else Apply(Replay(ms[..|ms| - 1]), ms[|ms| - 1])
  }

  /** Invariant: no sequence of calls on a fresh DAG produces a cycle or an
      edge to a missing node. */
  lemma {:induction false} ReplayIsAcyclic<N(!new)>(ms: seq<Mutation<N>>)
    ensures Closed(Replay(ms)) && Acyclic(Replay(ms))
  {
    if ms == [] {
      assert Replay(ms) == map[];
    } else {
      var g := Replay(ms[..|ms| - 1]);
      ReplayIsAcyclic(ms[..|ms| - 1]);
      var m := ms[|ms| - 1];
      match m
      case AddNodeCall(n) =>
        if n !in g {
          AddNodePreservesAcyclic(g, n);
          MutationsPreserveClosed(g, n, n, n);
        }
      case DeleteNodeCall(n) =>
        if n in g {
          DeleteNodePreservesAcyclic(g, n);
          MutationsPreserveClosed(g, n, n, n);
        }
      case AddEdgeCall(p, s) =>
        AddEdgePreservesAcyclic(g, p, s);
      case DeleteEdgeCall(p, s) =>
        if DeleteEdge(g, p, s).Success? {
          DeleteEdgePreservesAcyclic(g, p, s);
          MutationsPreserveClosed(g, p, p, s);
        }
    }
  }

  // ---------------------------------------------------------------------
  // from_dict

  /** A Python dict given as its items in iteration order: keys are unique. */
  ghost predicate DistinctKeys<K, V>(d: seq<(K, V)>) {
    forall i, j :: 0 <= i < j < |d| ==> d[i].0 != d[j].0
  }

  function DictKeys<K(!new), V>(d: seq<(K, V)>): (r: set<K>)
    ensures forall k :: k in r <==> exists i :: 0 <= i < |d| && d[i].0 == k
  {
    set i | 0 <= i < |d| :: d[i].0
  }

  /** The value a dict holds for key `k`. */
  ghost function DictValue<K(!new), V>(d: seq<(K, V)>, k: K): V
    requires k in DictKeys(d)
  {
    var i :| 0 <= i < |d| && d[i].0 == k; d[i].1
  }

  lemma DictValueAt<K(!new), V>(d: seq<(K, V)>, i: int)
    requires DistinctKeys(d) && 0 <= i < |d|
    ensures d[i].0 in DictKeys(d) && DictValue(d, d[i].0) == d[i].1
  {
  }

  /** The graph a `{node: [successors]}` dict describes. */
  ghost function DictGraph<N(!new)>(d: seq<(N, seq<N>)>): Graph<N> {
    map k | k in DictKeys(d) :: Elems(DictValue(d, k))
  }

  /** Every successor named in the dict is one of its keys. */
  ghost predicate TargetsKnown<N(!new)>(d: seq<(N, seq<N>)>) {
    forall i, j :: 0 <= i < |d| && 0 <= j < |d[i].1| ==> d[i].1[j] in DictKeys(d)
  }

  /** A graph without edges is acyclic. */
  lemma EdgelessIsAcyclic<N(!new)>(g: Graph<N>)
    requires forall k :: k in g ==> g[k] == {}
    ensures Closed(g) && Acyclic(g)
  {
    forall p | IsCycle(g, p)
      ensures false
    {
      CycleLeavesItsStart(g, p);
    }
  }

  lemma CycleLeavesItsStart<N(!new)>(g: Graph<N>, p: seq<N>)
    requires IsCycle(g, p)
    ensures p[0] in g && p[1] in g[p[0]]
  {
  }

  /** A graph on the dict's keys whose successor sets are contained in the
      listed ones is a subgraph of the dict's graph; with equal sets it is
      that graph. */
  lemma BoundedByDict<N(!new)>(d: seq<(N, seq<N>)>, h: Graph<N>)
    requires DistinctKeys(d) && h.Keys == DictKeys(d)
    requires forall j :: 0 <= j < |d| ==> h[d[j].0] <= Elems(d[j].1)
    ensures Subgraph(h, DictGraph(d))
    ensures (forall j :: 0 <= j < |d| ==> h[d[j].0] == Elems(d[j].1)) ==> h == DictGraph(d)
  {
    forall k | k in h
      ensures h[k] <= DictGraph(d)[k]
      ensures (forall j :: 0 <= j < |d| ==> h[d[j].0] == Elems(d[j].1)) ==> h[k] == DictGraph(d)[k]
    {
      var j :| 0 <= j < |d| && d[j].0 == k;
      DictValueAt(d, j);
    }
  }

  /** The state of `from_dict` once the first `i` dict entries have had their
      edges added: every key is a node, the first `i` rows are in place, the
      others have no successor yet, and the graph is still acyclic. */
  ghost predicate RowsAdded<N(!new)>(d: seq<(N, seq<N>)>, g: Graph<N>, i: int) {
    && DistinctKeys(d)
    && 0 <= i <= |d|
    && g.Keys == DictKeys(d)
    && Closed(g) && Acyclic(g)
    && (forall j :: 0 <= j < i ==> g[d[j].0] == Elems(d[j].1))
    && (forall j :: i <= j < |d| ==> g[d[j].0] == {})
    && (forall j, k :: 0 <= j < i && 0 <= k < |d[j].1| ==> d[j].1[k] in DictKeys(d))
  }

  /** A cycle found while adding row `i` is a cycle of the dict's graph. */
  lemma PartialRowCycle<N(!new)>(d: seq<(N, seq<N>)>, g0: Graph<N>, i: int, k: int)
    requires RowsAdded(d, g0, i) && i < |d| && 0 <= k < |d[i].1|
    requires !Acyclic(g0[d[i].0 := Elems(d[i].1[..k + 1])])
    ensures !Acyclic(DictGraph(d))
  {
    var h := g0[d[i].0 := Elems(d[i].1[..k + 1])];
    forall j | 0 <= j < |d|
      ensures h[d[j].0] <= Elems(d[j].1)
    {
      if j != i {
        assert d[j].0 != d[i].0;
      }
    }
    BoundedByDict(d, h);
    if Acyclic(DictGraph(d)) {
      SubgraphOfAcyclic(h, DictGraph(d));
    }
  }

  /** Completing row `i` moves the state on to `i + 1`. */
  lemma RowComplete<N(!new)>(d: seq<(N, seq<N>)>, g0: Graph<N>, i: int, g: Graph<N>)
    requires RowsAdded(d, g0, i) && i < |d|
    requires g == g0[d[i].0 := Elems(d[i].1)] && Closed(g) && Acyclic(g)
    requires forall k :: 0 <= k < |d[i].1| ==> d[i].1[k] in DictKeys(d)
    ensures RowsAdded(d, g, i + 1)
  {
    forall j | 0 <= j < |d| && j != i
      ensures g[d[j].0] == g0[d[j].0]
    {
      assert d[j].0 != d[i].0 by {
        if j < i { assert d[j].0 != d[i].0; } else { assert d[i].0 != d[j].0; }
      }
    }
  }

  /** Adding the next listed successor to a row built from a prefix. */
  lemma ExtendRow<N(!new)>(g0: Graph<N>, node: N, succs: seq<N>, k: nat)
    requires k < |succs|
    ensures g0[node := Elems(succs[..k])][node := Elems(succs[..k]) + {succs[k]}] == g0[node := Elems(succs[..k + 1])]
  {
    assert succs[..k + 1] == succs[..k] + [succs[k]];
    assert Elems(succs[..k]) + {succs[k]} == Elems(succs[..k + 1]);
  }

  /** The inner loop of `from_dict`: `add_edge(node, succ)` for each listed
      successor of row `i`. */
  method AddRow<N(!new)>(d: seq<(N, seq<N>)>, g0: Graph<N>, i: int) returns (r: Result<Graph<N>, DagError>)
    requires RowsAdded(d, g0, i) && i < |d|
    ensures r.Success? ==> RowsAdded(d, r.value, i + 1)
    ensures r.Failure? && r.error == UnknownNode ==> !TargetsKnown(d)
    ensures r.Failure? && r.error != UnknownNode ==> IsValidationError(r.error) && !Acyclic(DictGraph(d))
  {
    var node := d[i].0;
    var succs := d[i].1;
    var g := g0;
    var k := 0;
    assert g0[node := Elems(succs[..0])] == g0 by {
      DictValueAt(d, i);
      assert succs[..0] == [];
      assert Elems(succs[..0]) == {};
      assert g0[node] == {};
    }
    while k < |succs|
      invariant 0 <= k <= |succs|
      invariant g == g0[node := Elems(succs[..k])]
      invariant Closed(g) && Acyclic(g)
      invariant forall j :: 0 <= j < k ==> succs[j] in DictKeys(d)
    {
      var g', err := AddEdge(g, node, succs[k]);
      ExtendRow(g0, node, succs, k);
      if err.Some? {
        if err.value != UnknownNode {
          PartialRowCycle(d, g0, i, k);
        }
        return Failure(err.value);
      }
      g := g';
      k := k + 1;
    }
    assert succs[..|succs|] == succs;
    RowComplete(d, g0, i, g);
    return Success(g);
  }

  /** `DAG.from_dict`: add every key as a node, then every listed edge with
      `add_edge`; the first failing `add_edge` propagates its exception. It
      succeeds exactly when every successor is a key and the described graph is
      acyclic, and then builds exactly that graph. */
  method FromDict<N(!new)>(d: seq<(N, seq<N>)>) returns (r: Result<Graph<N>, DagError>)
    requires DistinctKeys(d)
    ensures r.Success? <==> TargetsKnown(d) && Acyclic(DictGraph(d))
    ensures r.Success? ==> r.value == DictGraph(d)
    ensures r.Failure? && r.error == UnknownNode ==> !TargetsKnown(d)
    ensures r.Failure? && r.error != UnknownNode ==> IsValidationError(r.error) && !Acyclic(DictGraph(d))
  {
    var g: Graph<N> := map[];
    var i := 0;
    while i < |d|
      invariant 0 <= i <= |d|
      invariant g.Keys == DictKeys(d[..i])
      invariant forall k :: k in g ==> g[k] == {}
    {
      assert d[i].0 !in g by {
        forall j | 0 <= j < i
          ensures d[..i][j].0 != d[i].0
        {
        }
      }
      assert DictKeys(d[..i + 1]) == DictKeys(d[..i]) + {d[i].0} by {
        assert forall j :: 0 <= j < i ==> d[..i + 1][j] == d[..i][j];
      }
      g := AddNode(g, d[i].0).value;
      i := i + 1;
    }
    assert d[..|d|] == d;
    EdgelessIsAcyclic(g);
    i := 0;
    while i < |d|
      invariant RowsAdded(d, g, i)
      decreases |d| - i
    {
      var row := AddRow(d, g, i);
      if row.Failure? {
        return row;
      }
      g := row.value;
      i := i + 1;
    }
    BoundedByDict(d, g);
    return Success(g);
  }
}

=== FILE: engine.dfy ===
/** `Engine` of `tukio/engine.py`: the table of loaded workflow templates,
    the running workflow instances grouped by template id and indexed by
    execution id, and the stop-then-drain rule.

    The engine sees a running workflow as a `Policy.Instance`: its execution
    uid, the uid of its template and whether its lock is held. What happens
    inside a workflow is the `Execution` module's; `Workflow.cancel` always
    returns True there, which is all the engine relies on. The engine's own
    future is reduced to whether its result has been set. */
module Engines {
  import opened Wrappers
  import opened Dag
  import opened DagEdit
  import opened Policy
  import opened Template
  import opened TemplateDicts

  datatype EngineError =
    | Duplicate                         // DuplicateWorkflowError
    | LoadFailure(error: TemplateError) // raised by from_dict or validate
    | UnknownTemplate(id: Uid)          // KeyError from `_templates[tmpl_id]`
    | NotRunning(uid: Uid)              // KeyError or ValueError in `_remove_wflow`
    | WrongTemplate(expected: Uid, found: Uid) // ValueError from a policy handler
    | AlreadyResolved                   // InvalidStateError from `set_result`
    | MissingAttribute(name: string)    // AttributeError: an attribute no class sets

  datatype Engine = Engine(
    templates: map<Uid, WorkflowTemplate>, // `_templates`
    running: map<Uid, seq<Instance>>,      // `_running`, keyed by template id
    byId: map<Uid, Uid>,                   // `_running_by_id`: execution uid to template id
    mustStop: bool,                        // `_must_stop`
    resolved: bool)                        // `set_result` was called

  // ---------------------------------------------------------------------
  // Running workflows

  /** The running list of template `k`; `_running.get(k)`, with the missing
      list read as the empty one. */
  function Listed(running: map<Uid, seq<Instance>>, k: Uid): seq<Instance> {
    if k in running then running[k] else []
  }

  /** The execution uids of a list of instances. */
  ghost function Uids(l: seq<Instance>): set<Uid> {
    set i | 0 <= i < |l| :: l[i].uid
  }

  /** No execution uid twice in a list. */
  ghost predicate Distinct(l: seq<Instance>) {
    forall i, j :: 0 <= i < j < |l| ==> l[i].uid != l[j].uid
  }

  /** A list as `_running` stores it under key `k`: never empty, only
      instances of template `k`, each once and indexed under its uid. */
  ghost predicate Group(k: Uid, l: seq<Instance>, byId: map<Uid, Uid>) {
    && l != []
    && Distinct(l)
    && forall i :: 0 <= i < |l| ==> l[i].templateUid == k && l[i].uid in byId && byId[l[i].uid] == k
  }

  /** `_running` and `_running_by_id` describe the same instances. */
  ghost predicate Inv(e: Engine) {
    && (forall k :: k in e.running ==> Group(k, e.running[k], e.byId))
    && (forall u :: u in e.byId ==> e.byId[u] in e.running && u in Uids(e.running[e.byId[u]]))
  }

  /** Every loaded template is stored under its own uid and passed
      `validate()`. */
  ghost predicate Loaded(templates: map<Uid, WorkflowTemplate>) {
    forall u :: u in templates ==> templates[u].uid == u && Valid(templates[u]) && RootCount(templates[u].dag) == 1
  }

  /** Once a stop is requested and nothing runs any more, the engine's
      result is set. */
  ghost predicate Drained(e: Engine) {
    e.mustStop && e.running == map[] ==> e.resolved
  }

  /** `Engine.__init__`. */
  function Init(): (e: Engine)
    ensures Inv(e) && Loaded(e.templates) && Drained(e)
    ensures e.templates == map[] && e.byId == map[] && !e.mustStop && !e.resolved
  {
    Engine(map[], map[], map[], false, false)
  }

  /** `_add_wflow`: append to the template's list, created when absent, and
      index by execution uid. */
  function AddWflow(e: Engine, wf: Instance): (e': Engine)
    requires Inv(e) && wf.uid !in e.byId
    ensures Inv(e') && e' == e.(running := e'.running, byId := e'.byId)
    ensures Listed(e'.running, wf.templateUid) == Listed(e.running, wf.templateUid) + [wf]
    ensures forall k :: k != wf.templateUid ==> Listed(e'.running, k) == Listed(e.running, k)
    ensures e'.byId.Keys == e.byId.Keys + {wf.uid} && e'.byId[wf.uid] == wf.templateUid
    ensures forall u :: u in e.byId ==> e'.byId[u] == e.byId[u]
  {
    AddKeepsInv(e, wf);
    e.(running := e.running[wf.templateUid := Listed(e.running, wf.templateUid) + [wf]],
       byId := e.byId[wf.uid := wf.templateUid])
  }

  /** `_add_wflow` as written reads `wflow.template_id` first, and `Workflow`
      sets no such attribute: AttributeError, raised before either table is
      touched, so the workflow is never recorded as running. */
  function AddWflowAsWritten(e: Engine, wf: Instance): (r: (Engine, Option<EngineError>))
    ensures r.1 == Some(MissingAttribute("template_id"))
    ensures r.0.running == e.running && r.0.byId == e.byId
  {
    (e, Some(MissingAttribute("template_id")))
  }

  /** A workflow `AddWflowAsWritten` was given is not listed afterwards, so
      `cancel_all` and `cancel` never reach it, while `AddWflow` lists it. */
  lemma AddWflowAsWrittenLosesWorkflow(e: Engine, wf: Instance)
    requires Inv(e) && wf.uid !in e.byId
    ensures wf.uid !in AddWflowAsWritten(e, wf).0.byId && wf.uid in AddWflow(e, wf).byId
    ensures wf !in Listed(AddWflowAsWritten(e, wf).0.running, wf.templateUid)
    ensures wf in Listed(AddWflow(e, wf).running, wf.templateUid)
  {
    var l := Listed(e.running, wf.templateUid);
    if wf.templateUid in e.running {
      assert Group(wf.templateUid, l, e.byId);
    }
    assert (l + [wf])[|l|] == wf;
  }

  lemma UidsAppend(l: seq<Instance>, wf: Instance)
    ensures Uids(l + [wf]) == Uids(l) + {wf.uid}
  {
    var l' := l + [wf];
    assert l'[|l|] == wf;
    forall v | v in Uids(l) ensures v in Uids(l') {
      var i :| 0 <= i < |l| && l[i].uid == v;
      assert l'[i] == l[i];
    }
  }

  lemma AddKeepsInv(e: Engine, wf: Instance)
    requires Inv(e) && wf.uid !in e.byId
    ensures Inv(e.(running := e.running[wf.templateUid := Listed(e.running, wf.templateUid) + [wf]],
                   byId := e.byId[wf.uid := wf.templateUid]))
  {
    var k := wf.templateUid;
    var l0 := Listed(e.running, k);
    var l := l0 + [wf];
    var e' := e.(running := e.running[k := l], byId := e.byId[wf.uid := k]);
    UidsAppend(l0, wf);
    forall k' | k' in e'.running ensures Group(k', e'.running[k'], e'.byId) {
      if k' == k {
        if k in e.running {
          assert Group(k, l0, e.byId);
        }
        assert forall i :: 0 <= i < |l0| ==> l[i] == l0[i];
      } else {
        assert Group(k', e.running[k'], e.byId);
      }
    }
    forall u | u in e'.byId ensures e'.byId[u] in e'.running && u in Uids(e'.running[e'.byId[u]]) {
      if u != wf.uid && e.byId[u] == k {
        assert u in Uids(l0);
      }
    }
  }

  /** The position of the instance with execution uid `u` in `l`. */
  function Position(l: seq<Instance>, u: Uid): (r: Option<nat>)
    ensures r.None? <==> u !in Uids(l)
    ensures r.Some? ==> r.value < |l| && l[r.value].uid == u && forall j :: 0 <= j < r.value ==> l[j].uid != u
  {
    if l == [] then None
    else if l[0].uid == u then Some(0)
    else
      match Position(l[1..], u)
      case None =>
        assert Uids(l) == {l[0].uid} + Uids(l[1..]) by {
          forall i | 0 <= i < |l[1..]| ensures l[1..][i] == l[i + 1] { }
        }
        None
      case Some(i) => Some(i + 1)
  }

  /** What `_remove_wflow` leaves behind, and the exception it raises. */
  datatype Removal = Removal(engine: Engine, error: Option<EngineError>)

  /** `_remove_wflow`, the done callback of every started workflow: take it
      out of its template's list, dropping the list once empty, and out of
      the index; then, if a stop was requested and nothing runs any more, set
      the engine's result, which raises when it is already set. */
  function RemoveWflow(e: Engine, wf: Instance): (r: Removal)
    requires Inv(e)
    ensures r.error == Some(NotRunning(wf.uid)) <==> wf.uid !in Uids(Listed(e.running, wf.templateUid))
    ensures r.error == Some(NotRunning(wf.uid)) ==> r.engine == e
    ensures r.error != Some(NotRunning(wf.uid)) ==> RemovedFrom(e, r.engine, wf)
    ensures r.error != Some(NotRunning(wf.uid)) ==> (r.engine.resolved <==> e.resolved || (e.mustStop && r.engine.running == map[]))
    ensures r.error != Some(NotRunning(wf.uid)) ==> (r.error == Some(AlreadyResolved) <==> e.resolved && e.mustStop && r.engine.running == map[])
    ensures r.error != Some(NotRunning(wf.uid)) ==> Drained(r.engine)
  {
    var k := wf.templateUid;
    match Position(Listed(e.running, k), wf.uid)
    case None => Removal(e, Some(NotRunning(wf.uid)))
    case Some(i) =>
      var e1 := Unindex(e, k, i);
      if e1.mustStop && e1.running == map[] then
        if e1.resolved then Removal(e1, Some(AlreadyResolved)) else Removal(e1.(resolved := true), None)
      else Removal(e1, None)
  }

  /** `e'` is `e` without the running instance `wf`; the result flag aside,
      nothing else changed. */
  ghost predicate RemovedFrom(e: Engine, e': Engine, wf: Instance) {
    && Inv(e') && e' == e.(running := e'.running, byId := e'.byId, resolved := e'.resolved)
    && Uids(Listed(e'.running, wf.templateUid)) == Uids(Listed(e.running, wf.templateUid)) - {wf.uid}
    && |Listed(e'.running, wf.templateUid)| == |Listed(e.running, wf.templateUid)| - 1
    && (forall k :: k != wf.templateUid ==> Listed(e'.running, k) == Listed(e.running, k))
    && e'.byId == e.byId - {wf.uid}
  }

  /** The two deletions of `_remove_wflow`, for the instance at position
      `i` of the list of template `k`. */
  function Unindex(e: Engine, k: Uid, i: nat): (e': Engine)
    requires Inv(e) && k in e.running && i < |e.running[k]|
    ensures RemovedFrom(e, e', e.running[k][i]) && e'.resolved == e.resolved
  {
    var l := e.running[k];
    var l' := l[..i] + l[i + 1..];
    UnindexKeepsInv(e, k, i);
    e.(running := if l' == [] then e.running - {k} else e.running[k := l'], byId := e.byId - {l[i].uid})
  }

  lemma UidsRemove(l: seq<Instance>, i: nat)
    requires Distinct(l) && i < |l|
    ensures var l' := l[..i] + l[i + 1..]; Distinct(l') && Uids(l') == Uids(l) - {l[i].uid} && |l'| == |l| - 1
  {
    var l' := l[..i] + l[i + 1..];
    assert forall j :: 0 <= j < |l'| ==> l'[j] == if j < i then l[j] else l[j + 1];
    forall v | v in Uids(l) - {l[i].uid} ensures v in Uids(l') {
      var j :| 0 <= j < |l| && l[j].uid == v;
      assert l'[if j < i then j else j - 1].uid == v;
    }
  }

  lemma UnindexKeepsInv(e: Engine, k: Uid, i: nat)
    requires Inv(e) && k in e.running && i < |e.running[k]|
    ensures var l := e.running[k]; var l' := l[..i] + l[i + 1..];
      Uids(l') == Uids(l) - {l[i].uid} && |l'| == |l| - 1 &&
      Inv(e.(running := if l' == [] then e.running - {k} else e.running[k := l'], byId := e.byId - {l[i].uid}))
  {
    var l := e.running[k];
    var u := l[i].uid;
    var l' := l[..i] + l[i + 1..];
    assert Group(k, l, e.byId);
    UidsRemove(l, i);
    var e' := e.(running := if l' == [] then e.running - {k} else e.running[k := l'], byId := e.byId - {u});
    forall k' | k' in e'.running ensures Group(k', e'.running[k'], e'.byId) {
      if k' == k {
        forall j | 0 <= j < |l'| ensures l'[j].uid != u && l'[j].templateUid == k && e.byId[l'[j].uid] == k {
          assert l'[j] == if j < i then l[j] else l[j + 1];
        }
      } else {
        assert Group(k', e.running[k'], e.byId);
      }
    }
    forall v | v in e'.byId ensures e'.byId[v] in e'.running && v in Uids(e'.running[e'.byId[v]]) {
      if e.byId[v] == k {
        assert v in Uids(l');
      }
    }
  }

  /** Removing a workflow just added gives back the engine it was added to,
      but for the result a stop request may now set. */
  lemma AddThenRemove(e: Engine, wf: Instance)
    requires Inv(e) && wf.uid !in e.byId
    ensures RemoveWflow(AddWflow(e, wf), wf) ==
      Removal(e.(resolved := e.resolved || (e.mustStop && e.running == map[])),
              if e.resolved && e.mustStop && e.running == map[] then Some(AlreadyResolved) else None)
  {
    var k := wf.templateUid;
    var l := Listed(e.running, k);
    assert wf.uid !in Uids(l) by {
      if k in e.running {
        assert Group(k, l, e.byId);
      }
    }
    FoundLast(l, wf);
    UnindexLast(e, wf);
  }

  /** The removal half of `AddThenRemove`: the deletions of `Unindex`
      applied to the instance appended last give the tables of `e` back. */
  lemma UnindexLast(e: Engine, wf: Instance)
    requires Inv(e) && wf.uid !in e.byId
    ensures var k := wf.templateUid; var l := Listed(e.running, k);
      && (if l == [] then e.running[k := l + [wf]] - {k} else e.running[k := l + [wf]][k := l]) == e.running
      && e.byId[wf.uid := k] - {wf.uid} == e.byId
  {
    var k := wf.templateUid;
    var l := Listed(e.running, k);
    if l == [] {
      assert k !in e.running;
      assert e.running[k := l + [wf]] - {k} == e.running;
    } else {
      assert e.running[k := l + [wf]][k := l] == e.running;
    }
  }

  /** A uid appended last is found last, and removing it there gives the
      list back. */
  lemma FoundLast(l: seq<Instance>, wf: Instance)
    requires wf.uid !in Uids(l)
    ensures Position(l + [wf], wf.uid) == Some(|l|)
    ensures (l + [wf])[..|l|] + (l + [wf])[|l| + 1..] == l
  {
    var l1 := l + [wf];
    assert l1[|l|].uid == wf.uid;
    assert wf.uid in Uids(l1);
    forall j | 0 <= j < |l| ensures l1[j].uid != wf.uid {
      assert l[j].uid in Uids(l);
    }
    assert l1[..|l|] == l;
    assert l1[|l| + 1..] == [];
  }

  // ---------------------------------------------------------------------
  // Stopping

  /** `stop()` as written: raise the flag, and with `force` cancel every
      running workflow; `cancel_all` leaves the engine's tables alone, as the
      instances only leave them through `_remove_wflow`. Nothing sets the
      result here. */
  function StopAsWritten(e: Engine, force: bool): (e': Engine)
    ensures e'.mustStop && e' == e.(mustStop := true)
  {
    e.(mustStop := true)
  }

  /** With nothing running, `stop()` as written leaves the result unset:
      only `_remove_wflow` sets it, and it fails for every workflow, none
      being listed. The engine resolves only once a workflow started after the
      stop ends; `data_received` starts none then, `run()` still does. */
  lemma StopWithNothingRunning(e: Engine, force: bool, wf: Instance)
    requires Inv(e) && e.running == map[] && !e.resolved
    ensures var e' := StopAsWritten(e, force);
      !e'.resolved && !Drained(e') && RemoveWflow(e', wf) == Removal(e', Some(NotRunning(wf.uid)))
    ensures var e' := StopAsWritten(e, force);
      wf.uid !in e.byId && RemoveWflow(AddWflow(e', wf), wf).engine.resolved && RemoveWflow(AddWflow(e', wf), wf).error.None?
  {
    var e' := StopAsWritten(e, force);
    assert Inv(e');
    AddThenRemove(e', wf);
  }

  /** `stop()` with the drain rule applied at once when nothing runs. */
  function Stop(e: Engine, force: bool): (e': Engine)
    ensures Drained(e') && e'.mustStop
    ensures e' == e.(mustStop := true, resolved := e'.resolved)
    ensures e'.resolved <==> e.resolved || e.running == map[]
  {
    var e1 := StopAsWritten(e, force);
    if e1.running == map[] then e1.(resolved := true) else e1
  }

  // ---------------------------------------------------------------------
  // Counting

  /** The positions of the running lists of the templates in `keys`. */
  ghost function Slots(running: map<Uid, seq<Instance>>, keys: set<Uid>): set<(Uid, nat)> {
    set k, i | k in keys && k in running && 0 <= i < |running[k]| :: (k, i)
  }

  /** The positions `0 .. n - 1` of one list. */
  ghost function Row(k: Uid, n: nat): set<(Uid, nat)> {
    set i | 0 <= i < n :: (k, i)
  }

  lemma {:induction false} RowSize(k: Uid, n: nat)
    ensures |Row(k, n)| == n
  {
    if n > 0 {
      RowSize(k, n - 1);
      assert Row(k, n) == Row(k, n - 1) + {(k, n - 1)};
    }
  }

  lemma SlotsAddKey(running: map<Uid, seq<Instance>>, keys: set<Uid>, k: Uid)
    requires k in running && k !in keys
    ensures |Slots(running, keys + {k})| == |Slots(running, keys)| + |running[k]|
  {
    assert Slots(running, keys + {k}) == Slots(running, keys) + Row(k, |running[k]|);
    assert Slots(running, keys) !! Row(k, |running[k]|);
    RowSize(k, |running[k]|);
  }

  /** The execution uid at a position. */
  ghost function SlotUid(running: map<Uid, seq<Instance>>, p: (Uid, nat)): Uid {
    if p.0 in running && p.1 < |running[p.0]| then running[p.0][p.1].uid else ""
  }

  lemma {:induction false} InjectiveImage(running: map<Uid, seq<Instance>>, s: set<(Uid, nat)>)
    requires forall p, q :: p in s && q in s && SlotUid(running, p) == SlotUid(running, q) ==> p == q
    ensures |set p | p in s :: SlotUid(running, p)| == |s|
    decreases |s|
  {
    if s != {} {
      var p :| p in s;
      InjectiveImage(running, s - {p});
      assert (set q | q in s :: SlotUid(running, q)) == (set q | q in s - {p} :: SlotUid(running, q)) + {SlotUid(running, p)};
    }
  }

  /** Every running instance has one position and one index entry, so
      there are as many positions as indexed uids. */
  lemma SlotsAreIndexed(e: Engine)
    requires Inv(e)
    ensures |Slots(e.running, e.running.Keys)| == |e.byId|
  {
    var s := Slots(e.running, e.running.Keys);
    forall p, q | p in s && q in s && SlotUid(e.running, p) == SlotUid(e.running, q)
      ensures p == q
    {
      assert Group(p.0, e.running[p.0], e.byId) && Group(q.0, e.running[q.0], e.byId);
    }
    InjectiveImage(e.running, s);
    forall u | u in e.byId ensures u in (set p | p in s :: SlotUid(e.running, p)) {
      var k := e.byId[u];
      var i :| 0 <= i < |e.running[k]| && e.running[k][i].uid == u;
      assert SlotUid(e.running, (k, i)) == u;
    }
    forall p | p in s ensures SlotUid(e.running, p) in e.byId {
      assert Group(p.0, e.running[p.0], e.byId);
    }
    assert (set p | p in s :: SlotUid(e.running, p)) == e.byId.Keys;
  }

  /** `cancel_all`: call `cancel()` on every instance of every running list
      and count the calls that return True, which all do. */
  method CancelAll(e: Engine) returns (cancelled: nat)
    requires Inv(e)
    ensures cancelled == |e.byId|
  {
    cancelled := 0;
    var todo := e.running.Keys;
    while todo != {}
      invariant todo <= e.running.Keys
      invariant cancelled == |Slots(e.running, e.running.Keys - todo)|
      decreases todo
    {
      var k :| k in todo;
      var wfList := e.running[k];
      var i := 0;
      while i < |wfList|
        invariant 0 <= i <= |wfList|
        invariant cancelled == |Slots(e.running, e.running.Keys - todo)| + i
      {
        cancelled := cancelled + 1;
        i := i + 1;
      }
      SlotsAddKey(e.running, e.running.Keys - todo, k);
      assert (e.running.Keys - todo) + {k} == e.running.Keys - (todo - {k});
      todo := todo - {k};
    }
    assert e.running.Keys - todo == e.running.Keys;
    SlotsAreIndexed(e);
  }

  /** `cancel(exec_id)`: the running instance with that execution uid, whose
      `cancel()` is called, or None. */
  function Cancel(e: Engine, execId: Uid): (r: Option<Instance>)
    requires Inv(e)
    ensures r.Some? <==> execId in e.byId
    ensures r.Some? ==> r.value.uid == execId && r.value in e.running[e.byId[execId]]
  {
    if execId !in e.byId then None
    else
      var l := e.running[e.byId[execId]];
      match Position(l, execId)
      case Some(i) => Some(l[i])
      case None => None
  }

  /** A workflow's `_unlock`, as seen by the engine holding it: the
      instance with execution uid `execId` is no longer locked. */
  function ReleaseLock(e: Engine, execId: Uid): (e': Engine)
    requires Inv(e)
    ensures Inv(e') && UnlockedIn(e, e', execId)
  {
    if execId !in e.byId then
      NothingToUnlock(e, execId);
      e
    else
      var k := e.byId[execId];
      match Position(e.running[k], execId)
      case None => e
      case Some(i) =>
        UnlockKeepsInv(e, k, i);
        e.(running := e.running[k := e.running[k][i := e.running[k][i].(locked := false)]])
  }

  /** `e'` is `e` with the instance whose execution uid is `execId`
      unlocked, and nothing else changed. */
  ghost predicate UnlockedIn(e: Engine, e': Engine, execId: Uid) {
    && e' == e.(running := e'.running) && e'.running.Keys == e.running.Keys
    && (forall k :: k in e.running ==> |e'.running[k]| == |e.running[k]|)
    && (forall k, i :: k in e.running && 0 <= i < |e.running[k]| ==>
          e'.running[k][i] == e.running[k][i].(locked := e.running[k][i].locked && e.running[k][i].uid != execId))
  }

  lemma NothingToUnlock(e: Engine, execId: Uid)
    requires Inv(e) && execId !in e.byId
    ensures UnlockedIn(e, e, execId)
  {
    forall k, i | k in e.running && 0 <= i < |e.running[k]| ensures e.running[k][i].uid != execId {
      assert Group(k, e.running[k], e.byId);
    }
  }

  lemma UnlockKeepsInv(e: Engine, k: Uid, i: nat)
    requires Inv(e) && k in e.running && i < |e.running[k]|
    ensures var l := e.running[k]; var e' := e.(running := e.running[k := l[i := l[i].(locked := false)]]);
      Inv(e') && UnlockedIn(e, e', l[i].uid)
  {
    var l := e.running[k];
    var u := l[i].uid;
    var l' := l[i := l[i].(locked := false)];
    var e' := e.(running := e.running[k := l']);
    assert Group(k, l, e.byId);
    assert forall j :: 0 <= j < |l| ==> l'[j].uid == l[j].uid && l'[j].templateUid == l[j].templateUid;
    assert Uids(l') == Uids(l);
    forall k', j | k' in e.running && 0 <= j < |e.running[k']|
      ensures e'.running[k'][j] == e.running[k'][j].(locked := e.running[k'][j].locked && e.running[k'][j].uid != u)
    {
      assert Group(k', e.running[k'], e.byId);
    }
  }

  // ---------------------------------------------------------------------
  // Templates

  /** The duplicate rule of `_load`: a template is identified by its uid and
      version; a new version replaces the old one. */
  function Register(templates: map<Uid, WorkflowTemplate>, t: WorkflowTemplate): (r: Result<map<Uid, WorkflowTemplate>, EngineError>)
    ensures r.Failure? <==> t.uid in templates && templates[t.uid].version == t.version
    ensures r.Failure? ==> r.error == Duplicate
    ensures r.Success? ==> r.value.Keys == templates.Keys + {t.uid} && r.value[t.uid] == t
    ensures r.Success? ==> forall u :: u in templates && u != t.uid ==> r.value[u] == templates[u]
    ensures r.Success? && Loaded(templates) && Valid(t) && RootCount(t.dag) == 1 ==> Loaded(r.value)
  {
    if t.uid in templates && templates[t.uid].version == t.version then Failure(Duplicate)
    else Success(templates[t.uid := t])
  }

  /** `unload`: pop the template, or return None and leave the table. */
  function Unload(templates: map<Uid, WorkflowTemplate>, id: Uid): (r: (map<Uid, WorkflowTemplate>, Option<WorkflowTemplate>))
    ensures r.1.Some? <==> id in templates
    ensures r.1.Some? ==> r.1.value == templates[id]
    ensures r.0.Keys == templates.Keys - {id} && forall u :: u in r.0 ==> r.0[u] == templates[u]
    ensures Loaded(templates) ==> Loaded(r.0)
  {
    if id in templates then (templates - {id}, Some(templates[id])) else (templates, None)
  }

  /** Unloading a template just registered under a new uid gives the table
      back, and the template. */
  lemma UnloadUndoesRegister(templates: map<Uid, WorkflowTemplate>, t: WorkflowTemplate)
    requires t.uid !in templates
    ensures Register(templates, t).Success?
    ensures Unload(Register(templates, t).value, t.uid) == (templates, Some(t))
  {
    assert templates[t.uid := t] - {t.uid} == templates;
  }

  /** Loading the same template twice raises the second time. */
  lemma RegisterTwice(templates: map<Uid, WorkflowTemplate>, t: WorkflowTemplate)
    ensures Register(templates, t).Success? ==> Register(Register(templates, t).value, t) == Failure(Duplicate)
  {
  }

  /** The template `_load` builds: the one `from_dict` returns, with the
      version that code outside this model gives it. */
  ghost function Parsed(d: TemplateDict, freshUid: Uid, version: Option<string>): WorkflowTemplate
    requires Get(d.policy).Success?
  {
    WorkflowTemplate(ChosenUid(d.id, freshUid), Get(d.policy).value, d.topics, LinkGraph(d), version)
  }

  /** `from_dict` and `validate()` both accept the dictionary. */
  ghost predicate Loadable(d: TemplateDict, freshUid: Uid, registry: set<string>) {
    && Get(d.policy).Success? && AllKnown(d) && Acyclic(LinkGraph(d))
    && RootCount(LinkGraph(d)) == 1 && TaskNames(Parsed(d, freshUid, None)) <= registry
  }

  /** A template with the same uid and version is already loaded. */
  ghost predicate IsDuplicate(templates: map<Uid, WorkflowTemplate>, d: TemplateDict, freshUid: Uid, version: Option<string>) {
    ChosenUid(d.id, freshUid) in templates && templates[ChosenUid(d.id, freshUid)].version == version
  }

  /** The first two steps of `_load`: `from_dict`, then `validate()`. */
  method Build(d: TemplateDict, freshUid: Uid, version: Option<string>, registry: set<string>)
    returns (r: Result<WorkflowTemplate, TemplateError>)
    requires DistinctKeys(d.graph)
    ensures r.Success? <==> Loadable(d, freshUid, registry)
    ensures r.Success? ==> r.value == Parsed(d, freshUid, version) && Valid(r.value) && RootCount(r.value.dag) == 1
  {
    var built := TemplateDicts.FromDict(d, freshUid);
    if built.Failure? {
      return Failure(built.error);
    }
    var t := built.value.(version := version);
    assert TaskNames(t) == TaskNames(Parsed(d, freshUid, None));
    var invalid := Template.Validate(t, registry);
    if invalid.Some? {
      return Failure(invalid.value);
    }
    return Success(t);
  }

  /** `_load`: build the template, validate it and register it. */
  method Load(e: Engine, d: TemplateDict, freshUid: Uid, version: Option<string>, registry: set<string>)
    returns (e': Engine, r: Result<WorkflowTemplate, EngineError>)
    requires DistinctKeys(d.graph)
    ensures e' == e.(templates := e'.templates)
    ensures r.Failure? ==> e' == e
    ensures r.Success? <==> Loadable(d, freshUid, registry) && !IsDuplicate(e.templates, d, freshUid, version)
    ensures r == Failure(Duplicate) <==> Loadable(d, freshUid, registry) && IsDuplicate(e.templates, d, freshUid, version)
    ensures r.Success? ==> r.value == Parsed(d, freshUid, version) && Register(e.templates, r.value) == Success(e'.templates)
    ensures Loaded(e.templates) ==> Loaded(e'.templates)
    ensures r.Success? ==> r.value.uid == ChosenUid(d.id, freshUid) && e'.templates == e.templates[r.value.uid := r.value]
  {
    var built := Build(d, freshUid, version, registry);
    if built.Failure? {
      return e, Failure(LoadFailure(built.error));
    }
    var t := built.value;
    assert t.uid == ChosenUid(d.id, freshUid) && t.version == version;
    var table := Register(e.templates, t);
    if table.Failure? {
      assert IsDuplicate(e.templates, d, freshUid, version);
      return e, Failure(Duplicate);
    }
    assert !IsDuplicate(e.templates, d, freshUid, version);
    assert Loaded(e.templates) ==> Loaded(table.value);
    return e.(templates := table.value), Success(t);
  }

  /** `_load` as written. `WorkflowTemplate` sets neither `version` nor
      `title`. For a uid already loaded, `duplicate.version` raises
      AttributeError and the table is unchanged; a new uid is stored first,
      and then the log line's `wf_tmpl.title` raises. So every dictionary that
      gets through `from_dict` and `validate()` ends in AttributeError. */
  method LoadAsWritten(e: Engine, d: TemplateDict, freshUid: Uid, registry: set<string>)
    returns (e': Engine, r: Result<WorkflowTemplate, EngineError>)
    requires DistinctKeys(d.graph)
    ensures e' == e.(templates := e'.templates) && r.Failure?
    ensures !Loadable(d, freshUid, registry) ==> e' == e && r.error.LoadFailure?
    ensures Loadable(d, freshUid, registry) && ChosenUid(d.id, freshUid) in e.templates ==>
      e' == e && r.error == MissingAttribute("version")
    ensures Loadable(d, freshUid, registry) && ChosenUid(d.id, freshUid) !in e.templates ==>
      e'.templates == e.templates[ChosenUid(d.id, freshUid) := Parsed(d, freshUid, None)] && r.error == MissingAttribute("title")
  {
    var built := Build(d, freshUid, None, registry);
    if built.Failure? {
      return e, Failure(LoadFailure(built.error));
    }
    var t := built.value;
    if t.uid in e.templates {
      return e, Failure(MissingAttribute("version"));
    }
    return e.(templates := e.templates[t.uid := t]), Failure(MissingAttribute("title"));
  }

  /** `reload` as written: the table is cleared, and the loop's first
      `_load` raises whatever the first dictionary holds, which ends the
      loop. At most that one template is left loaded. */
  method ReloadAsWritten(e: Engine, dicts: seq<TemplateDict>, freshUids: seq<Uid>, registry: set<string>)
    returns (e': Engine, err: Option<EngineError>)
    requires |freshUids| == |dicts|
    requires forall i :: 0 <= i < |dicts| ==> DistinctKeys(dicts[i].graph)
    ensures e' == e.(templates := e'.templates)
    ensures err.None? <==> dicts == []
    ensures dicts == [] ==> e'.templates == map[]
    ensures dicts != [] && Loadable(dicts[0], freshUids[0], registry) ==> err == Some(MissingAttribute("title"))
    ensures dicts != [] && Loadable(dicts[0], freshUids[0], registry) ==>
      e'.templates == map[ChosenUid(dicts[0].id, freshUids[0]) := Parsed(dicts[0], freshUids[0], None)]
    ensures dicts != [] && !Loadable(dicts[0], freshUids[0], registry) ==> e'.templates == map[] && err.value.LoadFailure?
  {
    e' := e.(templates := map[]);
    err := None;
    if dicts != [] {
      var r;
      e', r := LoadAsWritten(e', dicts[0], freshUids[0], registry);
      err := Some(r.error);
    }
  }

  /** `t` is what loading item `i` of the list gives. */
  ghost predicate FromItem(t: WorkflowTemplate, dicts: seq<TemplateDict>, freshUids: seq<Uid>, versions: seq<Option<string>>,
                           registry: set<string>, i: int)
    requires |freshUids| == |dicts| && |versions| == |dicts|
  {
    0 <= i < |dicts| && Loadable(dicts[i], freshUids[i], registry) && t == Parsed(dicts[i], freshUids[i], versions[i])
  }

  /** Every loaded template is what loading the item `source` names gives. */
  ghost predicate Sourced(templates: map<Uid, WorkflowTemplate>, source: map<Uid, int>, dicts: seq<TemplateDict>,
                          freshUids: seq<Uid>, versions: seq<Option<string>>, registry: set<string>)
    requires |freshUids| == |dicts| && |versions| == |dicts|
  {
    forall u :: u in templates ==> u in source && FromItem(templates[u], dicts, freshUids, versions, registry, source[u])
  }

  /** The first `k` items were all accepted and are in the table. */
  ghost predicate PrefixLoaded(templates: map<Uid, WorkflowTemplate>, dicts: seq<TemplateDict>, freshUids: seq<Uid>,
                               registry: set<string>, k: nat)
    requires k <= |freshUids| == |dicts|
  {
    forall i :: 0 <= i < k ==> Loadable(dicts[i], freshUids[i], registry) && ChosenUid(dicts[i].id, freshUids[i]) in templates
  }

  lemma SourcedAfterLoad(templates: map<Uid, WorkflowTemplate>, source: map<Uid, int>, t: WorkflowTemplate,
                         dicts: seq<TemplateDict>, freshUids: seq<Uid>, versions: seq<Option<string>>, registry: set<string>, k: nat)
    requires k < |freshUids| == |dicts| && |versions| == |dicts|
    requires Sourced(templates, source, dicts, freshUids, versions, registry)
    requires FromItem(t, dicts, freshUids, versions, registry, k)
    ensures Sourced(templates[t.uid := t], source[t.uid := k], dicts, freshUids, versions, registry)
  {
  }

  lemma PrefixAfterLoad(templates: map<Uid, WorkflowTemplate>, t: WorkflowTemplate,
                        dicts: seq<TemplateDict>, freshUids: seq<Uid>, registry: set<string>, k: nat)
    requires k < |freshUids| == |dicts|
    requires PrefixLoaded(templates, dicts, freshUids, registry, k)
    requires Loadable(dicts[k], freshUids[k], registry) && t.uid == ChosenUid(dicts[k].id, freshUids[k])
    ensures PrefixLoaded(templates[t.uid := t], dicts, freshUids, registry, k + 1)
  {
  }

  /** Item `j` of the list has the uid of the latest earlier item sharing
      its uid, and the same version: `_load` finds that item's template in
      the table and raises DuplicateWorkflowError. */
  ghost predicate DupOfEarlier(dicts: seq<TemplateDict>, freshUids: seq<Uid>, versions: seq<Option<string>>, j: nat)
    requires j < |freshUids| == |dicts| && |versions| == |dicts|
  {
    exists i :: 0 <= i < j && ChosenUid(dicts[i].id, freshUids[i]) == ChosenUid(dicts[j].id, freshUids[j])
      && versions[i] == versions[j]
      && forall m :: i < m < j ==> ChosenUid(dicts[m].id, freshUids[m]) != ChosenUid(dicts[j].id, freshUids[j])
  }

  /** `reload` accepts item `j`, once every item before it was accepted. */
  ghost predicate Accepts(dicts: seq<TemplateDict>, freshUids: seq<Uid>, versions: seq<Option<string>>, registry: set<string>, j: nat)
    requires j < |freshUids| == |dicts| && |versions| == |dicts|
  {
    Loadable(dicts[j], freshUids[j], registry) && !DupOfEarlier(dicts, freshUids, versions, j)
  }

  /** `reload` accepts each of the first `k` items. */
  ghost predicate AllAccepted(dicts: seq<TemplateDict>, freshUids: seq<Uid>, versions: seq<Option<string>>, registry: set<string>, k: nat)
    requires k <= |freshUids| == |dicts| && |versions| == |dicts|
  {
    forall j :: 0 <= j < k ==> Accepts(dicts, freshUids, versions, registry, j)
  }

  /** `reload` stopped at item `k` with `err`: every item before it was
      accepted, and `err` is the exception `_load` raises for it. */
  ghost predicate RejectedAt(dicts: seq<TemplateDict>, freshUids: seq<Uid>, versions: seq<Option<string>>, registry: set<string>,
                             k: nat, err: EngineError)
    requires |freshUids| == |dicts| && |versions| == |dicts|
  {
    && k < |dicts| && AllAccepted(dicts, freshUids, versions, registry, k)
    && !Accepts(dicts, freshUids, versions, registry, k)
    && (err == Duplicate <==> Loadable(dicts[k], freshUids[k], registry))
  }

  /** The table holds, under each uid, the version of the latest of the
      first `k` items with that uid. */
  ghost predicate Latest(templates: map<Uid, WorkflowTemplate>, source: map<Uid, int>, dicts: seq<TemplateDict>,
                         freshUids: seq<Uid>, versions: seq<Option<string>>, k: nat)
    requires k <= |freshUids| == |dicts| && |versions| == |dicts|
  {
    forall u :: u in templates ==>
      && u in source && 0 <= source[u] < k && ChosenUid(dicts[source[u]].id, freshUids[source[u]]) == u
      && templates[u].version == versions[source[u]]
      && forall m :: source[u] < m < k ==> ChosenUid(dicts[m].id, freshUids[m]) != u
  }

  /** While reloading, the table holds a template of the same uid and version
      exactly when the latest earlier item with that uid has that version. */
  lemma DuplicateIsEarlier(templates: map<Uid, WorkflowTemplate>, source: map<Uid, int>, dicts: seq<TemplateDict>,
                           freshUids: seq<Uid>, versions: seq<Option<string>>, k: nat)
    requires k < |freshUids| == |dicts| && |versions| == |dicts|
    requires forall i :: 0 <= i < k ==> ChosenUid(dicts[i].id, freshUids[i]) in templates
    requires Latest(templates, source, dicts, freshUids, versions, k)
    ensures IsDuplicate(templates, dicts[k], freshUids[k], versions[k]) <==> DupOfEarlier(dicts, freshUids, versions, k)
  {
    var u := ChosenUid(dicts[k].id, freshUids[k]);
    if u in templates {
      var s := source[u];
      if DupOfEarlier(dicts, freshUids, versions, k) {
        var i :| 0 <= i < k && ChosenUid(dicts[i].id, freshUids[i]) == u && versions[i] == versions[k]
          && forall m :: i < m < k ==> ChosenUid(dicts[m].id, freshUids[m]) != u;
        assert i == s;
      }
      if IsDuplicate(templates, dicts[k], freshUids[k], versions[k]) {
        assert 0 <= s < k && ChosenUid(dicts[s].id, freshUids[s]) == u && versions[s] == versions[k];
      }
    } else {
      assert forall i :: 0 <= i < k ==> ChosenUid(dicts[i].id, freshUids[i]) != u;
    }
  }

  /** Loading item `k` under its uid keeps `Latest` for one more item. */
  lemma LatestAfterLoad(templates: map<Uid, WorkflowTemplate>, source: map<Uid, int>, t: WorkflowTemplate,
                        dicts: seq<TemplateDict>, freshUids: seq<Uid>, versions: seq<Option<string>>, k: nat)
    requires k < |freshUids| == |dicts| && |versions| == |dicts|
    requires Latest(templates, source, dicts, freshUids, versions, k)
    requires t.uid == ChosenUid(dicts[k].id, freshUids[k]) && t.version == versions[k]
    ensures Latest(templates[t.uid := t], source[t.uid := k], dicts, freshUids, versions, k + 1)
  {
  }

  /** The uid of every item already loaded is in the table. */
  lemma PrefixUids(templates: map<Uid, WorkflowTemplate>, dicts: seq<TemplateDict>, freshUids: seq<Uid>, registry: set<string>, k: nat)
    requires k <= |freshUids| == |dicts| && PrefixLoaded(templates, dicts, freshUids, registry, k)
    ensures forall i :: 0 <= i < k ==> ChosenUid(dicts[i].id, freshUids[i]) in templates
  {
  }

  /** The loop of `reload` after `k` items, all accepted. */
  ghost predicate Reloading(templates: map<Uid, WorkflowTemplate>, source: map<Uid, int>, dicts: seq<TemplateDict>,
                            freshUids: seq<Uid>, versions: seq<Option<string>>, registry: set<string>, k: nat)
    requires k <= |freshUids| == |dicts| && |versions| == |dicts|
  {
    && Loaded(templates) && Sourced(templates, source, dicts, freshUids, versions, registry)
    && PrefixLoaded(templates, dicts, freshUids, registry, k) && Latest(templates, source, dicts, freshUids, versions, k)
    && AllAccepted(dicts, freshUids, versions, registry, k)
  }

  /** One round of `reload`'s loop: load item `k`. */
  method LoadItem(e: Engine, dicts: seq<TemplateDict>, freshUids: seq<Uid>, versions: seq<Option<string>>, registry: set<string>,
                  k: nat, ghost source: map<Uid, int>)
    returns (e': Engine, err: Option<EngineError>, ghost source': map<Uid, int>)
    requires k < |freshUids| == |dicts| && |versions| == |dicts| && DistinctKeys(dicts[k].graph)
    requires Loaded(e.templates) && Sourced(e.templates, source, dicts, freshUids, versions, registry)
    requires PrefixLoaded(e.templates, dicts, freshUids, registry, k) && Latest(e.templates, source, dicts, freshUids, versions, k)
    ensures e' == e.(templates := e'.templates) && Loaded(e'.templates)
    ensures Sourced(e'.templates, source', dicts, freshUids, versions, registry)
    ensures err.None? ==> PrefixLoaded(e'.templates, dicts, freshUids, registry, k + 1)
    ensures err.None? ==> Accepts(dicts, freshUids, versions, registry, k) && Latest(e'.templates, source', dicts, freshUids, versions, k + 1)
    ensures err.Some? ==> !Accepts(dicts, freshUids, versions, registry, k)
    ensures err.Some? ==> (err.value == Duplicate <==> Loadable(dicts[k], freshUids[k], registry))
  {
    var r;
    PrefixUids(e.templates, dicts, freshUids, registry, k);
    DuplicateIsEarlier(e.templates, source, dicts, freshUids, versions, k);
    e', r := Load(e, dicts[k], freshUids[k], versions[k], registry);
    if r.Failure? {
      return e', Some(r.error), source;
    }
    source' := source[r.value.uid := k];
    SourcedAfterLoad(e.templates, source, r.value, dicts, freshUids, versions, registry, k);
    PrefixAfterLoad(e.templates, r.value, dicts, freshUids, registry, k);
    LatestAfterLoad(e.templates, source, r.value, dicts, freshUids, versions, k);
    return e', None, source';
  }

  /** `LoadItem` in terms of the loop's invariant. */
  method ReloadStep(e: Engine, dicts: seq<TemplateDict>, freshUids: seq<Uid>, versions: seq<Option<string>>, registry: set<string>,
                    k: nat, ghost source: map<Uid, int>)
    returns (e': Engine, err: Option<EngineError>, ghost source': map<Uid, int>)
    requires k < |freshUids| == |dicts| && |versions| == |dicts| && DistinctKeys(dicts[k].graph)
    requires Reloading(e.templates, source, dicts, freshUids, versions, registry, k)
    ensures e' == e.(templates := e'.templates)
    ensures err.None? ==> Reloading(e'.templates, source', dicts, freshUids, versions, registry, k + 1)
    ensures err.Some? ==> Loaded(e'.templates) && Sourced(e'.templates, source', dicts, freshUids, versions, registry)
    ensures err.Some? ==> RejectedAt(dicts, freshUids, versions, registry, k, err.value)
  {
    e', err, source' := LoadItem(e, dicts, freshUids, versions, registry, k, source);
  }

  /** The loop of `reload` over the dictionaries, from an emptied table. */
  method LoadAll(e: Engine, dicts: seq<TemplateDict>, freshUids: seq<Uid>, versions: seq<Option<string>>, registry: set<string>)
    returns (e': Engine, err: Option<EngineError>, ghost source: map<Uid, int>)
    requires |freshUids| == |dicts| && |versions| == |dicts| && e.templates == map[]
    requires forall i :: 0 <= i < |dicts| ==> DistinctKeys(dicts[i].graph)
    ensures e' == e.(templates := e'.templates) && Loaded(e'.templates)
    ensures Sourced(e'.templates, source, dicts, freshUids, versions, registry)
    ensures err.None? ==> PrefixLoaded(e'.templates, dicts, freshUids, registry, |dicts|)
    ensures err.None? ==> AllAccepted(dicts, freshUids, versions, registry, |dicts|)
    ensures err.Some? ==> exists k :: RejectedAt(dicts, freshUids, versions, registry, k, err.value)
  {
    e' := e;
    source := map[];
    err := None;
    var k := 0;
    while k < |dicts|
      invariant 0 <= k <= |dicts|
      invariant e' == e.(templates := e'.templates) && err.None?
      invariant Reloading(e'.templates, source, dicts, freshUids, versions, registry, k)
    {
      e', err, source := ReloadStep(e', dicts, freshUids, versions, registry, k, source);
      if err.Some? {
        return;
      }
      k := k + 1;
    }
  }

  /** `reload`: empty the table, then load every dictionary in turn; the
      first exception stops the loop and leaves what was loaded so far. */
  method Reload(e: Engine, dicts: seq<TemplateDict>, freshUids: seq<Uid>, versions: seq<Option<string>>, registry: set<string>)
    returns (e': Engine, err: Option<EngineError>)
    requires |freshUids| == |dicts| && |versions| == |dicts|
    requires forall i :: 0 <= i < |dicts| ==> DistinctKeys(dicts[i].graph)
    ensures e' == e.(templates := e'.templates) && Loaded(e'.templates)
    ensures forall u :: u in e'.templates ==> exists i :: FromItem(e'.templates[u], dicts, freshUids, versions, registry, i)
    ensures err.None? ==> forall i :: 0 <= i < |dicts| ==> Loadable(dicts[i], freshUids[i], registry) && ChosenUid(dicts[i].id, freshUids[i]) in e'.templates
    ensures err.None? <==> forall j :: 0 <= j < |dicts| ==> Accepts(dicts, freshUids, versions, registry, j)
    ensures err.Some? ==> exists k :: RejectedAt(dicts, freshUids, versions, registry, k, err.value)
  {
    ghost var source;
    e', err, source := LoadAll(e.(templates := map[]), dicts, freshUids, versions, registry);
    if err.Some? {
      ghost var k :| RejectedAt(dicts, freshUids, versions, registry, k, err.value);
      assert !Accepts(dicts, freshUids, versions, registry, k);
    }
    forall u | u in e'.templates ensures exists i :: FromItem(e'.templates[u], dicts, freshUids, versions, registry, i) {
      assert FromItem(e'.templates[u], dicts, freshUids, versions, registry, source[u]);
    }
  }


  // ---------------------------------------------------------------------
  // Starting workflows

  /** A workflow just built from template `t`: `Workflow.__init__` takes its
      lock under the skip-until-unlock policy. */
  function NewInstance(t: WorkflowTemplate, execId: Uid): (wf: Instance)
    ensures wf.uid == execId && wf.templateUid == t.uid
    ensures wf.locked <==> t.policy == SkipUntilUnlock
  {
    Instance(execId, t.uid, t.policy == SkipUntilUnlock)
  }

  /** `_try_run`: nothing for a template no longer loaded; otherwise ask the
      template's policy handler, given the running list of that template id,
      and add the workflow it returns. `execId` is the uid the new workflow
      draws. Under abort-running with instances already listed, `run` is
      called on the new workflow only once `_wait_abort` has seen the end of
      `awaited`, the instances listed before it (empty when `run` is called
      at once). */
  method TryRun(e: Engine, tmplId: Uid, execId: Uid) returns (e': Engine, started: bool, err: Option<EngineError>, awaited: seq<Instance>)
    requires Inv(e) && execId !in e.byId
    ensures Inv(e') && e' == e.(running := e'.running, byId := e'.byId)
    ensures awaited != [] <==> started && tmplId in e.templates && e.templates[tmplId].policy == AbortRunning && Listed(e.running, tmplId) != []
    ensures awaited != [] ==> awaited == Listed(e.running, tmplId)
    ensures forall i :: 0 <= i < |awaited| ==> awaited[i].uid != execId
    ensures tmplId !in e.templates ==> e' == e && !started && err.None?
    ensures started <==> (tmplId in e.templates &&
      Decide(e.templates[tmplId].policy, e.templates[tmplId].uid, Listed(e.running, tmplId)).outcome == Start)
    ensures started ==> err.None? && e' == AddWflow(e, NewInstance(e.templates[tmplId], execId))
    ensures !started ==> e' == e
    ensures err.Some? ==> err.value.WrongTemplate? && tmplId in e.templates && !Loaded(e.templates)
    ensures Loaded(e.templates) && tmplId in e.templates ==> StartRule(e.templates[tmplId].policy, Listed(e.running, tmplId), started)
  {
    awaited := [];
    if tmplId !in e.templates {
      return e, false, None, awaited;
    }
    var t := e.templates[tmplId];
    var running := Listed(e.running, tmplId);
    var d := Decide(t.policy, t.uid, running);
    if Loaded(e.templates) {
      assert SameTemplate(t.uid, running);
      PolicyRules(t.policy, t.uid, running);
    }
    match d.outcome
    case Mismatch(expected, found) =>
      return e, false, Some(WrongTemplate(expected, found)), awaited;
    case NoStart =>
      return e, false, None, awaited;
    case Start =>
      if t.policy == AbortRunning && running != [] {
        assert Group(tmplId, running, e.byId);
        awaited := running;
      }
      return AddWflow(e, NewInstance(t, execId)), true, None, awaited;
  }

  /** `_try_run` as written hands `_wait_abort` the live list
      `_running[tmpl_id]`, and `_add_wflow` appends the new workflow to that
      very list before `asyncio.wait` first reads it: the workflow awaits its
      own end, and `run` is never called on it. (This takes `_add_wflow`
      reading the template's uid; as written it raises first, see
      `AddWflowAsWritten`.) `TryRun` awaits the instances listed before. */
  lemma AbortWaitsOnItself(e: Engine, tmplId: Uid, execId: Uid)
    requires Inv(e) && execId !in e.byId && tmplId in e.templates && e.templates[tmplId].uid == tmplId
    requires e.templates[tmplId].policy == AbortRunning && Listed(e.running, tmplId) != []
    ensures var wf := NewInstance(e.templates[tmplId], execId);
      wf in Listed(AddWflow(e, wf).running, tmplId) && wf !in Listed(e.running, tmplId)
  {
    var wf := NewInstance(e.templates[tmplId], execId);
    var l := Listed(e.running, tmplId);
    assert Group(tmplId, l, e.byId);
    assert (l + [wf])[|l|] == wf;
  }

  /** The overrun rules in the engine's terms: skip starts iff the template
      has no running list, skip-until-unlock iff none of its running
      instances is locked, the other two always. */
  ghost predicate StartRule(policy: OverrunPolicy, running: seq<Instance>, started: bool) {
    match policy
    case Skip => started <==> running == []
    case StartNew => started
    case SkipUntilUnlock => started <==> forall i :: 0 <= i < |running| ==> !running[i].locked
    case AbortRunning => started
  }

  /** The overrun policy of the loaded template `id` lets a new workflow
      start beside the instances `e` runs. */
  predicate Starts(e: Engine, id: Uid)
    requires id in e.templates
  {
    Decide(e.templates[id].policy, e.templates[id].uid, Listed(e.running, id)).outcome == Start
  }

  /** The first `k` tries of `data_received`, which took `e` to `e'`, each
      went by its policy as `e` stood, and drew its uid for its own template;
      the templates after them still see the running lists of `e`. */
  ghost predicate TriedUpTo(e: Engine, e': Engine, ids: seq<Uid>, freshUids: seq<Uid>, k: nat)
    requires k <= |ids| == |freshUids| && forall i :: 0 <= i < |ids| ==> ids[i] in e.templates
  {
    && (forall i :: 0 <= i < k ==> (freshUids[i] in e'.byId <==> Starts(e, ids[i])))
    && (forall i :: 0 <= i < k && freshUids[i] in e'.byId ==> e'.byId[freshUids[i]] == ids[i])
    && (forall i :: k <= i < |ids| ==> Listed(e'.running, ids[i]) == Listed(e.running, ids[i]))
  }

  /** None of the uids drawn for the tries from `k` on names a workflow. */
  ghost predicate UntriedFrom(e: Engine, freshUids: seq<Uid>, k: nat) {
    forall i :: k <= i < |freshUids| ==> freshUids[i] !in e.byId
  }

  /** One try of that loop: `_try_run` for `ids[k]`. */
  method TryNext(e: Engine, e1: Engine, ids: seq<Uid>, freshUids: seq<Uid>, k: nat) returns (e2: Engine, err: Option<EngineError>)
    requires k < |ids| == |freshUids| && forall i :: 0 <= i < |ids| ==> ids[i] in e.templates
    requires (forall i, j :: 0 <= i < j < |ids| ==> ids[i] != ids[j]) && forall i, j :: 0 <= i < j < |freshUids| ==> freshUids[i] != freshUids[j]
    requires Inv(e1) && e1 == e.(running := e1.running, byId := e1.byId) && e.byId.Keys <= e1.byId.Keys
    requires forall u :: u in e1.byId && u !in e.byId ==> u in freshUids[..k] && (Loaded(e.templates) ==> e1.byId[u] in e.templates)
    requires UntriedFrom(e1, freshUids, k) && (Loaded(e.templates) ==> TriedUpTo(e, e1, ids, freshUids, k))
    ensures err.None? ==> Inv(e2) && e2 == e.(running := e2.running, byId := e2.byId) && e.byId.Keys <= e2.byId.Keys
    ensures err.None? ==> forall u :: u in e2.byId && u !in e.byId ==> u in freshUids[..k + 1] && (Loaded(e.templates) ==> e2.byId[u] in e.templates)
    ensures err.None? ==> UntriedFrom(e2, freshUids, k + 1) && (Loaded(e.templates) ==> TriedUpTo(e, e2, ids, freshUids, k + 1))
    ensures err.Some? ==> e2 == e1 && err.value.WrongTemplate? && !Loaded(e.templates) && UntriedFrom(e2, freshUids, k)
  {
    var started, awaited;
    e2, started, err, awaited := TryRun(e1, ids[k], freshUids[k]);
    if err.None? {
      if Loaded(e.templates) {
        assert e.templates[ids[k]].uid == ids[k];
        TriedStep(e, e1, e2, ids, freshUids, k, started);
      }
      DrawnStep(e, e1, e2, freshUids, k);
    }
  }

  /** The uid bookkeeping of one try, which adds at most its own uid. */
  lemma DrawnStep(e: Engine, e1: Engine, e2: Engine, freshUids: seq<Uid>, k: nat)
    requires k < |freshUids| && forall i, j :: 0 <= i < j < |freshUids| ==> freshUids[i] != freshUids[j]
    requires e.byId.Keys <= e1.byId.Keys <= e2.byId.Keys <= e1.byId.Keys + {freshUids[k]}
    requires forall u :: u in e1.byId && u !in e.byId ==> u in freshUids[..k]
    requires UntriedFrom(e1, freshUids, k)
    ensures forall u :: u in e2.byId && u !in e.byId ==> u in freshUids[..k + 1]
    ensures UntriedFrom(e2, freshUids, k + 1)
  {
    assert forall u :: u in freshUids[..k] ==> u in freshUids[..k + 1];
    assert freshUids[k] in freshUids[..k + 1];
    forall i | k + 1 <= i < |freshUids|
      ensures freshUids[i] !in e2.byId
    {
      assert freshUids[i] != freshUids[k];
    }
  }

  /** A try that raised nothing keeps `TriedUpTo` for one more template. */
  lemma TriedStep(e: Engine, e1: Engine, e2: Engine, ids: seq<Uid>, freshUids: seq<Uid>, k: nat, started: bool)
    requires k < |ids| == |freshUids| && forall i :: 0 <= i < |ids| ==> ids[i] in e.templates
    requires forall i, j :: 0 <= i < j < |ids| ==> ids[i] != ids[j]
    requires forall i, j :: 0 <= i < j < |freshUids| ==> freshUids[i] != freshUids[j]
    requires e.templates[ids[k]].uid == ids[k] && TriedUpTo(e, e1, ids, freshUids, k)
    requires Inv(e1) && freshUids[k] !in e1.byId
    requires started <==> Decide(e.templates[ids[k]].policy, e.templates[ids[k]].uid, Listed(e1.running, ids[k])).outcome == Start
    requires started ==> e2 == AddWflow(e1, NewInstance(e.templates[ids[k]], freshUids[k]))
    requires !started ==> e2 == e1
    ensures TriedUpTo(e, e2, ids, freshUids, k + 1)
  {
    assert Listed(e1.running, ids[k]) == Listed(e.running, ids[k]);
    forall i | 0 <= i < k
      ensures freshUids[i] in e2.byId <==> freshUids[i] in e1.byId
      ensures freshUids[i] in e1.byId ==> e2.byId[freshUids[i]] == e1.byId[freshUids[i]]
    {
      assert freshUids[i] != freshUids[k];
    }
    forall i | k < i < |ids|
      ensures Listed(e2.running, ids[i]) == Listed(e1.running, ids[i])
    {
      assert ids[i] != ids[k];
    }
  }

  /** `data_received`: after a stop nothing happens; otherwise try every
      loaded template, in the table's order `ids`, drawing the uid
      `freshUids[i]` for a workflow of `ids[i]`. Each try is awaited in turn,
      so an exception raised by one (a policy's ValueError) ends the loop and
      is raised by `data_received`: the templates after it are not tried. */
  method DataReceived(e: Engine, ids: seq<Uid>, freshUids: seq<Uid>) returns (e': Engine, err: Option<EngineError>)
    requires Inv(e) && |freshUids| == |ids|
    requires Elems(ids) == e.templates.Keys && forall i, j :: 0 <= i < j < |ids| ==> ids[i] != ids[j]
    requires forall i :: 0 <= i < |freshUids| ==> freshUids[i] !in e.byId
    requires forall i, j :: 0 <= i < j < |freshUids| ==> freshUids[i] != freshUids[j]
    ensures Inv(e') && e' == e.(running := e'.running, byId := e'.byId)
    ensures e.mustStop ==> e' == e && err.None?
    ensures e.byId.Keys <= e'.byId.Keys
    ensures forall u :: u in e'.byId && u !in e.byId ==> u in freshUids && (Loaded(e.templates) ==> e'.byId[u] in e.templates)
    ensures Loaded(e.templates) ==> err.None?
    ensures Loaded(e.templates) && !e.mustStop ==> forall i :: 0 <= i < |ids| ==>
      (freshUids[i] in e'.byId <==> Decide(e.templates[ids[i]].policy, e.templates[ids[i]].uid, Listed(e.running, ids[i])).outcome == Start)
    ensures Loaded(e.templates) ==> forall i :: 0 <= i < |ids| && freshUids[i] in e'.byId ==> e'.byId[freshUids[i]] == ids[i]
    ensures err.Some? ==> err.value.WrongTemplate? && !Loaded(e.templates)
    ensures err.Some? ==> exists k :: 0 <= k < |ids| && UntriedFrom(e', freshUids, k)
  {
    if e.mustStop {
      return e, None;
    }
    e' := e;
    var k := 0;
    while k < |ids|
      invariant 0 <= k <= |ids|
      invariant Inv(e') && e' == e.(running := e'.running, byId := e'.byId) && e.byId.Keys <= e'.byId.Keys
      invariant forall u :: u in e'.byId && u !in e.byId ==> u in freshUids[..k] && (Loaded(e.templates) ==> e'.byId[u] in e.templates)
      invariant UntriedFrom(e', freshUids, k) && (Loaded(e.templates) ==> TriedUpTo(e, e', ids, freshUids, k))
    {
      e', err := TryNext(e, e', ids, freshUids, k);
      if err.Some? {
        return;
      }
      k := k + 1;
    }
    assert freshUids[..k] == freshUids;
    err := None;
  }

  /** `run`: start a workflow of the template whatever its policy and
      whatever runs, even after a stop; KeyError for an unknown id. */
  method Run(e: Engine, tmplId: Uid, execId: Uid) returns (e': Engine, r: Result<Instance, EngineError>)
    requires Inv(e) && execId !in e.byId
    ensures Inv(e')
    ensures r.Failure? <==> tmplId !in e.templates
    ensures r.Failure? ==> e' == e && r.error == UnknownTemplate(tmplId)
    ensures r.Success? ==> r.value == NewInstance(e.templates[tmplId], execId) && e' == AddWflow(e, r.value)
  {
    if tmplId !in e.templates {
      return e, Failure(UnknownTemplate(tmplId));
    }
    var t := e.templates[tmplId];
    EmptyRunningStarts(t.policy, t.uid);
    var d := Decide(t.policy, t.uid, []);
    assert d.outcome == Start;
    var wf := NewInstance(t, execId);
    return AddWflow(e, wf), Success(wf);
  }
}

=== FILE: execution.dfy ===
/** `Workflow` of `tukio/workflow.py`: one execution of a workflow template.
    Tasks are started from the root task along the template's DAG; a task's
    done callback (`_run_next_tasks`) starts or joins its downstream tasks,
    and the workflow's own future is resolved once every started task has
    been through that callback.

    asyncio is not modelled: the event loop's scheduling becomes the order in
    which the operations below are called, a task execution is a number with
    a status, and a Python set iterated over becomes a `:|` choice. */
module Execution {
  import opened Wrappers
  import opened Dag
  import opened Policy
  import opened Template

  /** A task execution (an `asyncio.Task`), by identity. */
  type TaskId = nat

  /** The asyncio state of a task. `Running` and `Cancelling` are pending;
      the other three are done. */
  datatype TaskStatus =
    | Running
    | Cancelling     // `task.cancel()` was called; the task has not ended yet
    | Returned       // `task.result()` gives a value
    | Raised         // `task.result()` raises
    | CancelledTask  // the task ended on its cancellation

  /** `not task.done()`: the task has not ended. */
  predicate Pending(s: TaskStatus) {
    s.Running? || s.Cancelling?
  }

  /** The exceptions a workflow stores in `_internal_exc`. */
  datatype ExecError =
    | RootFailure(count: nat)       // WorkflowRootTaskError from `root()`
    | CreationFailure(name: string) // a task could not be created

  /** The state of the workflow's own future. */
  datatype FutureState =
    | Open
    | Finished(result: set<TaskId>) // `set_result(self.tasks)`
    | Failed(error: ExecError)      // `set_exception(self._internal_exc)`
    | Cancelled                     // `Future.cancel()`

  datatype Workflow = Workflow(
    template: WorkflowTemplate,
    tasks: set<TaskId>,              // `tasks`: every task started
    templateOf: map<TaskId, TaskTemplate>,
    status: map<TaskId, TaskStatus>,
    byId: map<Uid, TaskId>,          // `_tasks_by_id`
    updatedNext: map<TaskId, seq<Uid>>, // `_updated_next_tasks`
    done: set<TaskId>,               // `_done_tasks`
    internalExc: Option<ExecError>,  // `_internal_exc`
    mustCancel: bool,                // `_must_cancel`
    locked: bool,                    // `lock.locked()`
    future: FutureState,
    nextId: TaskId)                  // the identity the next task gets

  /** What every operation keeps: the template is a DAG, every started task
      runs a task of the template and is the one task `_tasks_by_id` holds
      for its template's uid, and only finished tasks have been through
      their done callback. */
  ghost predicate Inv(w: Workflow) {
    && Closed(w.template.dag)
    && w.templateOf.Keys == w.tasks && w.status.Keys == w.tasks
    && w.done <= w.tasks
    && w.updatedNext.Keys <= w.tasks
    && (forall t :: t in w.tasks ==> t < w.nextId)
    && (forall t :: t in w.done ==> !Pending(w.status[t]))
    && (forall t :: t in w.tasks ==> w.templateOf[t] in w.template.dag)
    && (forall t :: t in w.tasks ==> w.templateOf[t].uid in w.byId && w.byId[w.templateOf[t].uid] == t)
    && (forall u :: u in w.byId ==> w.byId[u] in w.tasks)
  }

  /** `Workflow.__init__`: nothing started; the lock is taken from the start
      under the skip-until-unlock policy. */
  function Init(template: WorkflowTemplate): (w: Workflow)
    requires Closed(template.dag)
    ensures Inv(w) && w.template == template
    ensures w.tasks == {} && w.future == Open && w.internalExc.None? && !w.mustCancel
    ensures w.locked <==> template.policy == SkipUntilUnlock
  {
    Workflow(template, {}, map[], map[], map[], map[], {}, None, false,
             template.policy == SkipUntilUnlock, Open, 0)
  }

  /** `_unlock`: release the lock if it is held. */
  function Unlock(w: Workflow): (w': Workflow)
    ensures !w'.locked && w' == w.(locked := false)
  {
    if w.locked then w.(locked := false) else w
  }

  /** `_all_tasks_done`: every started task has been through its done
      callback. */
  predicate AllTasksDone(w: Workflow) {
    w.tasks == w.done
  }

  /** `_try_mark_done`: resolve the future once all tasks are done, with the
      stored exception first, then cancellation, then the set of tasks. A
      future already resolved is left alone. */
  function TryMarkDone(w: Workflow): (w': Workflow)
    ensures w' == w.(future := w'.future)
    ensures w.future != Open ==> w'.future == w.future
    ensures w.future == Open ==> (w'.future != Open <==> AllTasksDone(w))
    ensures w.future == Open && w'.future.Failed? ==> w.internalExc == Some(w'.future.error)
    ensures w.future == Open && w'.future.Cancelled? ==> w.internalExc.None? && w.mustCancel
    ensures w.future == Open && w'.future.Finished? ==> w.internalExc.None? && !w.mustCancel && w'.future.result == w.tasks
  {
    if AllTasksDone(w) && w.future == Open then
      if w.internalExc.Some? then w.(future := Failed(w.internalExc.value))
      else if w.mustCancel then w.(future := Cancelled)
      else w.(future := Finished(w.tasks))
    else w
  }

  /** The started tasks that have not been through their done callback and
      have not ended: those `task.cancel()` returns True for, a second time
      as well as the first. */
  ghost function Cancellable(w: Workflow): set<TaskId>
    requires w.status.Keys == w.tasks
  {
    PendingAmong(w.tasks - w.done, w.status)
  }

  ghost function PendingAmong(pending: set<TaskId>, status: map<TaskId, TaskStatus>): set<TaskId>
    requires pending <= status.Keys
  {
    set t | t in pending && Pending(status[t])
  }

  /** The loop of `_cancel_all_tasks` over the pending tasks: `task.cancel()`
      on each, counting those it returns True for, the ones not ended. Such a
      task only learns of the request on its next step, so it stays pending.
      The calls on distinct tasks are independent, so their effect on the
      statuses is applied at once. */
  method CancelEach(pending: set<TaskId>, status: map<TaskId, TaskStatus>) returns (st: map<TaskId, TaskStatus>, cancelled: nat)
    requires pending <= status.Keys
    ensures cancelled == |PendingAmong(pending, status)|
    ensures st.Keys == status.Keys
    ensures forall t :: t in status ==> st[t] == if t in PendingAmong(pending, status) then Cancelling else status[t]
  {
    ghost var counted: set<TaskId> := {};
    cancelled := 0;
    var todo := pending;
    while todo != {}
      invariant todo <= pending
      invariant counted == PendingAmong(pending - todo, status)
      invariant cancelled == |counted|
      decreases todo
    {
      var t :| t in todo;
      assert PendingAmong(pending - (todo - {t}), status) == PendingAmong(pending - todo, status) + (if Pending(status[t]) then {t} else {});
      if Pending(status[t]) {
        counted := counted + {t};
        cancelled := cancelled + 1;
      }
      todo := todo - {t};
    }
    assert pending - todo == pending;
    st := map t | t in status :: if t in pending && Pending(status[t]) then Cancelling else status[t];
  }

  /** `_cancel_all_tasks`: cancel every task not yet through its callback and
      count those that have not ended. They stay pending until they end, so a
      second call counts them again. */
  method CancelAllTasks(w: Workflow) returns (w': Workflow, cancelled: nat)
    requires Inv(w)
    ensures Inv(w') && w'.mustCancel
    ensures cancelled == |Cancellable(w)|
    ensures w' == w.(mustCancel := true, status := w'.status)
    ensures forall t :: t in w.tasks ==> w'.status[t] == if t in Cancellable(w) then Cancelling else w.status[t]
    ensures Cancellable(w') == Cancellable(w)
  {
    var st;
    st, cancelled := CancelEach(w.tasks - w.done, w.status);
    w' := w.(mustCancel := true, status := st);
  }

  /** A pending task ends: its coroutine returns a value, raises, or stops on
      a CancelledError, as one sent by `cancel()` does. Only now is it done,
      and asyncio schedules its done callback, `_run_next_tasks`
      (`RunNextTasks`). */
  function EndTask(w: Workflow, task: TaskId, end: TaskStatus): (w': Workflow)
    requires Inv(w) && task in w.tasks && Pending(w.status[task]) && !Pending(end)
    ensures w' == w.(status := w'.status) && Inv(w')
    ensures w'.status[task] == end && forall t :: t in w.tasks && t != task ==> w'.status[t] == w.status[t]
    ensures Cancellable(w') == Cancellable(w) - {task}
  {
    EndKeepsInv(w, task, end);
    w.(status := w.status[task := end])
  }

  lemma EndKeepsInv(w: Workflow, task: TaskId, end: TaskStatus)
    requires Inv(w) && task in w.tasks && Pending(w.status[task]) && !Pending(end)
    ensures var w' := w.(status := w.status[task := end]);
      Inv(w') && Cancellable(w') == Cancellable(w) - {task}
  {
    assert task !in w.done;
    PendingAfterEnd(w.tasks - w.done, w.status, task, end);
  }

  lemma PendingAfterEnd(pending: set<TaskId>, status: map<TaskId, TaskStatus>, task: TaskId, end: TaskStatus)
    requires pending <= status.Keys && task in status && !Pending(end)
    ensures PendingAmong(pending, status[task := end]) == PendingAmong(pending, status) - {task}
  {
  }

  /** `_new_task`: start a task for `tmpl`, or, when its creation fails
      (`fails`: an unknown task name, a task that cannot take data, ...),
      store the exception and cancel every task. */
  method NewTask(w: Workflow, tmpl: TaskTemplate, fails: bool) returns (w': Workflow, task: Option<TaskId>)
    requires Inv(w) && tmpl in w.template.dag
    ensures task.Some? <==> !fails
    ensures fails ==> w' == w.(internalExc := Some(CreationFailure(tmpl.name)), mustCancel := true, status := w'.status)
    ensures fails ==> Inv(w') && Cancellable(w') == Cancellable(w)
    ensures fails ==> forall t :: t in Cancellable(w) ==> w'.status[t] == Cancelling
    ensures task.Some? ==> task.value !in w.tasks && w' == w.(tasks := w.tasks + {task.value},
      templateOf := w.templateOf[task.value := tmpl], status := w.status[task.value := Running],
      byId := w.byId[tmpl.uid := task.value], nextId := w'.nextId)
    ensures fails || tmpl.uid !in w.byId ==> Inv(w')
  {
    if fails {
      w' := w.(internalExc := Some(CreationFailure(tmpl.name)));
      var cancelled;
      w', cancelled := CancelAllTasks(w');
      return w', None;
    }
    var t := w.nextId;
    w' := w.(tasks := w.tasks + {t},
             templateOf := w.templateOf[t := tmpl],
             status := w.status[t := Running],
             byId := w.byId[tmpl.uid := t],
             nextId := t + 1);
    return w', Some(t);
  }

  // ---------------------------------------------------------------------
  // Downstream tasks

  /** `x` occurs in `succ` with no earlier element carrying its uid. */
  ghost predicate FirstOfUid(succ: seq<TaskTemplate>, x: TaskTemplate) {
    exists j :: 0 <= j < |succ| && succ[j] == x && forall i :: 0 <= i < j ==> succ[i].uid != x.uid
  }

  /** The first task of `succ` whose uid is `id`. */
  function FirstWithUid(succ: seq<TaskTemplate>, id: Uid): (r: Option<TaskTemplate>)
    ensures r.Some? ==> r.value in succ && r.value.uid == id && FirstOfUid(succ, r.value)
    ensures r.None? <==> forall x :: x in succ ==> x.uid != id
  {
    if succ == [] then None
    else if succ[0].uid == id then Some(succ[0])
    else
      var r := FirstWithUid(succ[1..], id);
      if r.Some? then
        var j :| 0 <= j < |succ[1..]| && succ[1..][j] == r.value && forall i :: 0 <= i < j ==> succ[1..][i].uid != id;
        assert succ[j + 1] == r.value && forall i :: 0 <= i < j + 1 ==> succ[i].uid != id;
        r
      else r
  }

  /** The loop of `_get_next_task_templates` over the ids a task set at
      runtime: for each id in turn, the first successor carrying it; ids
      matching no successor are logged and skipped. */
  function Filter(ids: seq<Uid>, succ: seq<TaskTemplate>): (r: seq<TaskTemplate>)
    ensures |r| <= |ids|
    ensures forall x :: x in r ==> x in succ && x.uid in ids && FirstOfUid(succ, x)
    ensures forall id :: id in ids && (exists x :: x in succ && x.uid == id) ==> FirstWithUid(succ, id).value in r
  {
    if ids == [] then []
    else
      var rest := Filter(ids[1..], succ);
      assert forall id :: id in ids[1..] ==> id in ids;
      match FirstWithUid(succ, ids[0])
      case Some(x) => [x] + rest
      case None => rest
  }

  /** When no two successors share a uid, the filtered list holds exactly the
      successors whose uid was asked for. */
  lemma {:induction false} FilterUnique(ids: seq<Uid>, succ: seq<TaskTemplate>)
    requires forall x, y :: x in succ && y in succ && x.uid == y.uid ==> x == y
    ensures forall x :: x in Filter(ids, succ) <==> x in succ && x.uid in ids
  {
    if ids != [] {
      FilterUnique(ids[1..], succ);
      forall x | x in succ && x.uid == ids[0]
        ensures x in Filter(ids, succ)
      {
        assert FirstWithUid(succ, ids[0]).value == x;
      }
    }
  }

  /** `_get_next_task_templates`: the template's successors of `tmpl`
      (listed by `succ`, the order `list(set)` gives), filtered by the ids
      the task set with `set_next_tasks`, if it did. */
  function NextTemplates(w: Workflow, task: TaskId, succ: seq<TaskTemplate>): (r: seq<TaskTemplate>)
    ensures task !in w.updatedNext ==> r == succ
    ensures task in w.updatedNext ==> |r| <= |w.updatedNext[task]|
    ensures task in w.updatedNext ==> forall x :: x in r ==> x in succ && x.uid in w.updatedNext[task] && FirstOfUid(succ, x)
    ensures task in w.updatedNext ==> forall id :: id in w.updatedNext[task] && (exists x :: x in succ && x.uid == id) ==>
      FirstWithUid(succ, id).value in r
  {
    if task in w.updatedNext then Filter(w.updatedNext[task], succ) else succ
  }

  /** `succ` is a listing of the successors of `tmpl`. */
  ghost predicate ListsSuccessors(w: Workflow, tmpl: TaskTemplate, succ: seq<TaskTemplate>) {
    tmpl in w.template.dag && Elems(succ) == w.template.dag[tmpl]
  }

  /** The downstream templates are successors of the task's template, hence
      templates of the workflow. */
  lemma NextAreSuccessors(w: Workflow, task: TaskId, succ: seq<TaskTemplate>)
    requires Inv(w) && task in w.tasks && ListsSuccessors(w, w.templateOf[task], succ)
    ensures forall x :: x in NextTemplates(w, task, succ) ==> x in w.template.dag[w.templateOf[task]] && x in w.template.dag
  {
    var tmpl := w.templateOf[task];
    forall x | x in NextTemplates(w, task, succ)
      ensures x in w.template.dag[tmpl] && x in w.template.dag
    {
      assert x in succ;
      assert x in Elems(succ);
    }
  }

  /** Every task of `w'` that `w` did not have runs one of `s`. */
  ghost predicate StartedFrom(w: Workflow, w': Workflow, s: seq<TaskTemplate>) {
    forall t :: t in w'.templateOf && t !in w.tasks ==> w'.templateOf[t] in s
  }

  /** What the loop of `StartDownstream` keeps of `w` in `w'` after `k`
      steps: only the task table grew, and every task added runs one of the
      first `k` templates of `next`. */
  ghost predicate Grown(w: Workflow, w': Workflow, next: seq<TaskTemplate>, k: nat)
    requires k <= |next|
  {
    && w' == w.(tasks := w'.tasks, templateOf := w'.templateOf, status := w'.status, byId := w'.byId, nextId := w'.nextId)
    && w.tasks <= w'.tasks && w.byId.Keys <= w'.byId.Keys
    && StartedFrom(w, w', next[..k])
  }

  /** The loop of `StartDownstream` after `k` steps from `w0`: nothing
      failed, and each of the first `k` templates of `next` has a task. */
  ghost predicate Progress(w0: Workflow, w: Workflow, next: seq<TaskTemplate>, k: nat)
    requires k <= |next|
  {
    && Inv(w) && !w.mustCancel && Grown(w0, w, next, k)
    && forall j :: 0 <= j < k ==> next[j].uid in w.byId
  }

  /** The loop over `next` stopped at `next[k]`, whose creation failed: the
      templates before it have a task, the ones after it got none. */
  ghost predicate StoppedAt(w: Workflow, w': Workflow, next: seq<TaskTemplate>, broken: set<TaskTemplate>, k: nat)
    requires k < |next|
  {
    && next[k] in broken && w'.internalExc == Some(CreationFailure(next[k].name))
    && (forall j :: 0 <= j < k ==> next[j].uid in w'.byId)
    && StartedFrom(w, w', next[..k])
  }

  /** One step of that loop: a template that has a task already is skipped
      when that task is finished and joined otherwise (the event pushed to it
      is not modelled); any other gets a new task, unless its creation fails,
      which ends the loop. */
  method StartOne(w0: Workflow, w: Workflow, next: seq<TaskTemplate>, k: nat, broken: set<TaskTemplate>) returns (w': Workflow, ok: bool)
    requires k < |next| && Progress(w0, w, next, k) && next[k] in w.template.dag
    ensures ok <==> next[k].uid in w.byId || next[k] !in broken
    ensures ok ==> Progress(w0, w', next, k + 1)
    ensures !ok ==> Inv(w') && w'.mustCancel && StoppedAt(w0, w', next, broken, k)
    ensures !ok ==> w0.tasks <= w'.tasks && w0.byId.Keys <= w'.byId.Keys
    ensures !ok ==> w' == w0.(tasks := w'.tasks, templateOf := w'.templateOf, status := w'.status, byId := w'.byId,
      nextId := w'.nextId, internalExc := w'.internalExc, mustCancel := w'.mustCancel)
  {
    if next[k].uid in w.byId {
      assert forall x :: x in next[..k] ==> x in next[..k + 1];
      return w, true;
    }
    var created;
    w', created := NewTask(w, next[k], next[k] in broken);
    ok := created.Some?;
    assert next[k] in next[..k + 1];
    assert forall x :: x in next[..k] ==> x in next[..k + 1];
  }

  /** The loop of `_run_next_tasks` over the downstream task templates:
      start each one that has no task yet, and stop at the first whose
      creation fails. */
  method StartDownstream(w: Workflow, next: seq<TaskTemplate>, broken: set<TaskTemplate>) returns (w': Workflow)
    requires Inv(w) && !w.mustCancel && forall x :: x in next ==> x in w.template.dag
    ensures Inv(w') && w.tasks <= w'.tasks && w.byId.Keys <= w'.byId.Keys
    ensures w' == w.(tasks := w'.tasks, templateOf := w'.templateOf, status := w'.status, byId := w'.byId,
      nextId := w'.nextId, internalExc := w'.internalExc, mustCancel := w'.mustCancel)
    ensures forall t :: t in w'.tasks - w.tasks ==> w'.templateOf[t] in next
    ensures w'.mustCancel ==> exists k :: 0 <= k < |next| && StoppedAt(w, w', next, broken, k)
    ensures !w'.mustCancel ==> w'.internalExc == w.internalExc && forall x :: x in next ==> x.uid in w'.byId
  {
    w' := w;
    var k := 0;
    while k < |next|
      invariant 0 <= k <= |next| && Progress(w, w', next, k)
    {
      var ok;
      w', ok := StartOne(w, w', next, k, broken);
      if !ok {
        assert forall x :: x in next[..k] ==> x in next;
        return;
      }
      k := k + 1;
    }
    assert next[..k] == next;
  }

  /** The downstream part of `_run_next_tasks` for a task that returned:
      start the tasks after it, stopping at the first that cannot be created. */
  method StartNextTasks(w: Workflow, task: TaskId, succ: seq<TaskTemplate>, broken: set<TaskTemplate>) returns (w': Workflow)
    requires Inv(w) && task in w.tasks && !w.mustCancel
    requires ListsSuccessors(w, w.templateOf[task], succ)
    ensures Inv(w') && w.tasks <= w'.tasks
    ensures w' == w.(tasks := w'.tasks, templateOf := w'.templateOf, status := w'.status, byId := w'.byId,
      nextId := w'.nextId, internalExc := w'.internalExc, mustCancel := w'.mustCancel)
    ensures forall t :: t in w'.tasks - w.tasks ==> w'.templateOf[t] in w.template.dag[w.templateOf[task]]
    ensures (forall x :: x in succ ==> x !in broken) ==>
      !w'.mustCancel && forall x :: x in NextTemplates(w, task, succ) ==> x.uid in w'.byId
    ensures w'.mustCancel ==> w'.internalExc.Some? && w'.internalExc.value.CreationFailure?
  {
    var next := NextTemplates(w, task, succ);
    NextAreSuccessors(w, task, succ);
    w' := StartDownstream(w, next, broken);
    if w'.mustCancel {
      ghost var k :| 0 <= k < |next| && StoppedAt(w, w', next, broken, k);
      assert next[k] in next;
      assert next[k] in succ;
    }
  }

  /** The body of `_run_next_tasks` before its final `_try_mark_done`: record
      `task` as done; then, unless the workflow is being cancelled or the task
      raised, start every downstream task not started yet (a running one is
      joined, a finished one skipped), stopping at the first that cannot be
      created (`broken` holds the task templates whose `new_task` or broker
      registration fails). */
  method FollowTask(w: Workflow, task: TaskId, succ: seq<TaskTemplate>, broken: set<TaskTemplate>) returns (w': Workflow)
    requires Inv(w) && task in w.tasks && task !in w.done && !Pending(w.status[task])
    requires ListsSuccessors(w, w.templateOf[task], succ)
    ensures Inv(w') && w'.done == w.done + {task}
    ensures w' == w.(done := w'.done, tasks := w'.tasks, templateOf := w'.templateOf, status := w'.status, byId := w'.byId,
      nextId := w'.nextId, internalExc := w'.internalExc, mustCancel := w'.mustCancel)
    ensures w.tasks <= w'.tasks
    ensures forall t :: t in w'.tasks - w.tasks ==> w'.templateOf[t] in w.template.dag[w.templateOf[task]]
    ensures w.mustCancel || w.status[task] != Returned ==> w' == w.(done := w.done + {task})
    ensures w.status[task] == Returned && !w.mustCancel && (forall x :: x in succ ==> x !in broken) ==>
      !w'.mustCancel && forall x :: x in NextTemplates(w, task, succ) ==> x.uid in w'.byId
    ensures w'.mustCancel && !w.mustCancel ==> w'.internalExc.Some? && w'.internalExc.value.CreationFailure?
  {
    w' := w.(done := w.done + {task});
    if !w.mustCancel && w.status[task] == Returned {
      assert NextTemplates(w', task, succ) == NextTemplates(w, task, succ);
      w' := StartNextTasks(w', task, succ, broken);
    }
  }

  /** `_run_next_tasks`, the done callback of `task`: `FollowTask`, then try
      to resolve the workflow. */
  method RunNextTasks(w: Workflow, task: TaskId, succ: seq<TaskTemplate>, broken: set<TaskTemplate>) returns (w': Workflow)
    requires Inv(w) && task in w.tasks && task !in w.done && !Pending(w.status[task])
    requires ListsSuccessors(w, w.templateOf[task], succ)
    ensures Inv(w') && w'.done == w.done + {task} && w'.template == w.template && w'.locked == w.locked
    ensures w.tasks <= w'.tasks
    ensures forall t :: t in w'.tasks - w.tasks ==> w'.templateOf[t] in w.template.dag[w.templateOf[task]]
    ensures w.mustCancel || w.status[task] != Returned ==> w'.tasks == w.tasks
    ensures w.status[task] == Returned && !w.mustCancel && (forall x :: x in succ ==> x !in broken) ==>
      !w'.mustCancel && forall x :: x in NextTemplates(w, task, succ) ==> x.uid in w'.byId
    ensures w'.mustCancel && !w.mustCancel ==> w'.internalExc.Some? && w'.internalExc.value.CreationFailure?
    ensures w.future != Open ==> w'.future == w.future
    ensures w.future == Open ==> (w'.future != Open <==> AllTasksDone(w'))
  {
    var w1 := FollowTask(w, task, succ, broken);
    w' := TryMarkDone(w1);
  }

  // ---------------------------------------------------------------------
  // Entry points

  /** The RuntimeErrors of `run` and `set_next_tasks`. */
  datatype RunError =
    | AlreadyRun  // a workflow runs only once
    | ForeignTask // the calling task was not started by this workflow
    | Escaped(error: TemplateError) // an exception `run` does not catch

  /** `run`: start the root task. Without a unique root the error is stored
      and the workflow resolved at once; a root task that cannot be created
      (in `broken`) resolves it too. `None` is returned then. */
  method Run(w: Workflow, broken: set<TaskTemplate>) returns (w': Workflow, r: Result<Option<TaskId>, RunError>)
    requires Inv(w)
    ensures Inv(w') && w'.template == w.template
    ensures r == Failure(AlreadyRun) <==> w.tasks != {}
    ensures r.Failure? ==> w' == w && r.error == AlreadyRun
    ensures r == Success(None) ==> w'.tasks == {} && (w.future == Open ==> w'.future.Failed?)
    ensures r.Success? && Root(w.template).Failure? ==> r == Success(None) && w'.internalExc == Some(RootFailure(RootCount(w.template.dag)))
    ensures r.Success? && r.value.Some? <==> w.tasks == {} && Root(w.template).Success? && Root(w.template).value !in broken
    ensures r.Success? && r.value.Some? ==> w'.tasks == {r.value.value} && w'.templateOf[r.value.value] == Root(w.template).value
    ensures r.Success? && r.value.Some? ==> w'.status[r.value.value] == Running && w'.future == w.future
    ensures w.future != Open ==> w'.future == w.future
  {
    if w.tasks != {} {
      return w, Failure(AlreadyRun);
    }
    var root := Root(w.template);
    if root.Failure? {
      w' := w.(internalExc := Some(RootFailure(root.error.count)));
      w' := TryMarkDone(w');
      return w', Success(None);
    }
    var task;
    w', task := StartRoot(w, root.value, broken);
    return w', Success(task);
  }
  /** `run()` on top of `root()` as written: with no task a root, `root()`
      raises the DAG's own exception, which the `except WorkflowRootTaskError`
      clause does not catch; it escapes `run` and the workflow is left as it
      was, never marked done. Otherwise this is `Run`. */
  method RunAsWritten(w: Workflow, broken: set<TaskTemplate>) returns (w': Workflow, r: Result<Option<TaskId>, RunError>)
    requires Inv(w)
    ensures Inv(w') && w'.template == w.template
    ensures r == Failure(AlreadyRun) <==> w.tasks != {}
    ensures r.Failure? ==> w' == w
    ensures (r.Failure? && r.error.Escaped?) <==> w.tasks == {} && RootCount(w.template.dag) == 0
    ensures r.Failure? && r.error.Escaped? ==> r.error.error == DagFailure(NoRootNode) && w'.future == w.future
    ensures r.Success? <==> w.tasks == {} && RootCount(w.template.dag) != 0
    ensures r.Success? && r.value.Some? <==> w.tasks == {} && RootCount(w.template.dag) == 1 && Root(w.template).value !in broken
  {
    if w.tasks != {} {
      return w, Failure(AlreadyRun);
    }
    var root := RootAsWritten(w.template);
    if root.Failure? && root.error.DagFailure? {
      return w, Failure(Escaped(root.error));
    }
    w', r := Run(w, broken);
  }


  /** The end of `run` once the root task is known: create its task, or
      resolve the workflow with the creation error. */
  method StartRoot(w: Workflow, root: TaskTemplate, broken: set<TaskTemplate>) returns (w': Workflow, task: Option<TaskId>)
    requires Inv(w) && w.tasks == {} && root in w.template.dag
    ensures Inv(w') && w'.template == w.template
    ensures task.Some? <==> root !in broken
    ensures task.Some? ==> w'.tasks == {task.value} && w'.templateOf[task.value] == root
    ensures task.Some? ==> w'.status[task.value] == Running && w'.future == w.future
    ensures task.None? ==> w'.tasks == {} && (w.future == Open ==> w'.future.Failed?)
    ensures w.future != Open ==> w'.future == w.future
  {
    w', task := NewTask(w, root, root in broken);
    if task.None? {
      w' := TryMarkDone(w');
    }
  }

  /** `set_next_tasks`, called by a running task of the workflow: the ids of
      the downstream tasks to run once it is done. */
  function SetNextTasks(w: Workflow, task: TaskId, ids: seq<Uid>): (r: Result<Workflow, RunError>)
    requires Inv(w)
    ensures r.Failure? <==> task !in w.tasks
    ensures r.Failure? ==> r.error == ForeignTask
    ensures r.Success? ==> Inv(r.value) && r.value == w.(updatedNext := w.updatedNext[task := ids])
  {
    if task !in w.tasks then Failure(ForeignTask) else Success(w.(updatedNext := w.updatedNext[task := ids]))
  }

  /** `Workflow.cancel`: cancel every pending task; when `task.cancel()`
      returned True for none, cancel the workflow's own future right away (a
      no-op on a resolved one). Otherwise the future waits for those tasks to
      end and go through their callbacks. It always returns True. */
  method Cancel(w: Workflow) returns (w': Workflow, ok: bool)
    requires Inv(w)
    ensures ok
    ensures Inv(w') && w'.mustCancel && Cancellable(w') == Cancellable(w) && w'.tasks == w.tasks && w'.done == w.done
    ensures w'.internalExc == w.internalExc
    ensures forall t :: t in Cancellable(w) ==> w'.status[t] == Cancelling
    ensures w.future != Open ==> w'.future == w.future
    ensures w.future == Open ==> (w'.future == Cancelled <==> Cancellable(w) == {}) && (w'.future == Open <==> Cancellable(w) != {})
  {
    var cancelled;
    w', cancelled := CancelAllTasks(w);
    if cancelled == 0 && w'.future == Open {
      w' := w'.(future := Cancelled);
    }
    return w', true;
  }
}

=== FILE: policy.dfy ===
/** `OverrunPolicy` and `OverrunPolicyHandler` of `tukio/workflow.py`: what to
    do when an event would trigger a workflow whose template already has
    running instances. A handler's decision is modelled as a value: start a new
    instance, start none, or raise ValueError because a running instance
    belongs to another template. */
module Policy {
  import opened Wrappers

  /** Identifiers (`uuid4` strings or ids read from a dict). */
  type Uid = string

  datatype OverrunPolicy =
    | Skip             // skip until all running instances are finished
    | StartNew         // start a new instance whatever is running
    | SkipUntilUnlock  // skip until all running instances have been unlocked
    | AbortRunning     // cancel all running instances, then start a new one

  /** The enum member's value. */
  function Value(p: OverrunPolicy): string {
    match p
    case Skip => "skip"
    case StartNew => "start-new"
    case SkipUntilUnlock => "skip-until-unlock"
    case AbortRunning => "abort-running"
  }

  /** `OverrunPolicy(value)`: lookup of a member by its value. */
  function FromValue(s: string): (r: Option<OverrunPolicy>)
    ensures r.Some? ==> Value(r.value) == s
    ensures r.None? <==> forall p :: Value(p) != s
  {
    if s == "skip" then Some(Skip)
    else if s == "start-new" then Some(StartNew)
    else if s == "skip-until-unlock" then Some(SkipUntilUnlock)
    else if s == "abort-running" then Some(AbortRunning)
    else None
  }

  /** Values are distinct, so every member is found again from its value. */
  lemma ValueRoundTrip(p: OverrunPolicy)
    ensures FromValue(Value(p)) == Some(p)
  {
  }

  /** What `OverrunPolicy.get` may be passed. */
  datatype PolicyArg =
    | Default                       // None
    | Member(policy: OverrunPolicy) // already an OverrunPolicy
    | ByValue(value: string)        // anything else, looked up by value

  /** The ValueError raised by an enum lookup with an unknown value. */
  datatype PolicyError = UnknownPolicy(value: string)

  /** `OverrunPolicy.get`. */
  function Get(arg: PolicyArg): (r: Result<OverrunPolicy, PolicyError>)
    ensures arg.Default? ==> r == Success(SkipUntilUnlock)
    ensures arg.Member? ==> r == Success(arg.policy)
    ensures arg.ByValue? ==> (r.Success? <==> exists p :: Value(p) == arg.value)
    ensures arg.ByValue? && r.Success? ==> Value(r.value) == arg.value
    ensures r.Failure? ==> arg.ByValue? && r.error == UnknownPolicy(arg.value)
  {
    match arg
    case Default => Success(SkipUntilUnlock)
    case Member(p) => Success(p)
    case ByValue(s) =>
      match FromValue(s)
      case Some(p) => Success(p)
      case None => Failure(UnknownPolicy(s))
  }

  // ---------------------------------------------------------------------
  // Handlers

  /** What a handler sees of a running workflow: its execution id, the uid of
      its template and whether its lock is held. */
  datatype Instance = Instance(uid: Uid, templateUid: Uid, locked: bool)

  datatype Outcome =
    | Start                               // a new Workflow is returned
    | NoStart                             // None is returned
    | Mismatch(expected: Uid, found: Uid) // `_check_wflow` raised ValueError

  /** A handler's outcome, and how many instances, from the front of the
      running list, it called `cancel()` on. */
  datatype Decision = Decision(outcome: Outcome, cancelled: nat)

  /** Every running instance belongs to template `uid`. */
  ghost predicate SameTemplate(uid: Uid, running: seq<Instance>) {
    forall i :: 0 <= i < |running| ==> running[i].templateUid == uid
  }

  /** The index at which a loop calling `_check_wflow` on each instance in
      turn raises, if it does. */
  function FirstMismatch(uid: Uid, running: seq<Instance>): (r: Option<nat>)
    ensures r.None? <==> SameTemplate(uid, running)
    ensures r.Some? ==> r.value < |running| && running[r.value].templateUid != uid
    ensures r.Some? ==> SameTemplate(uid, running[..r.value])
  {
    if running == [] then None
    else if running[0].templateUid != uid then Some(0)
    else
      match FirstMismatch(uid, running[1..])
      case None => None
      case Some(i) =>
        assert running[..i + 1] == [running[0]] + running[1..][..i];
        Some(i + 1)
  }

  /** `_skip`: start only when nothing is running; otherwise check every
      instance and start nothing. */
  function SkipHandler(uid: Uid, running: seq<Instance>): (d: Decision)
    ensures d.cancelled == 0
    ensures d.outcome == Start <==> running == []
    ensures d.outcome.Mismatch? <==> !SameTemplate(uid, running)
    ensures d.outcome.Mismatch? ==> d.outcome.expected == uid && d.outcome.found != uid
  {
    if running == [] then Decision(Start, 0)
    else
      match FirstMismatch(uid, running)
      case Some(i) => Decision(Mismatch(uid, running[i].templateUid), 0)
      case None => Decision(NoStart, 0)
  }

  /** `_start_new`: the running list is not even looked at. */
  function StartNewHandler(uid: Uid, running: seq<Instance>): (d: Decision)
    ensures d == Decision(Start, 0)
  {
    Decision(Start, 0)
  }

  /** Some instance of another template comes no later than the first locked
      one, so `_skip_until_unlock` checks it (before its lock) and raises. */
  ghost predicate ForeignBeforeLock(uid: Uid, running: seq<Instance>) {
    exists j :: 0 <= j < |running| && running[j].templateUid != uid && forall i :: 0 <= i < j ==> !running[i].locked
  }

  /** The loop of `_skip_until_unlock`: check each instance, and stop at the
      first locked one. */
  function UnlockScan(uid: Uid, running: seq<Instance>): (o: Outcome)
    ensures o == Start <==> SameTemplate(uid, running) && forall i :: 0 <= i < |running| ==> !running[i].locked
    ensures o == NoStart ==> exists i :: 0 <= i < |running| && running[i].locked
    ensures o.Mismatch? ==> o.expected == uid && !SameTemplate(uid, running)
    ensures (forall i :: 0 <= i < |running| ==> !running[i].locked) ==> (o.Mismatch? <==> !SameTemplate(uid, running))
    ensures o.Mismatch? <==> ForeignBeforeLock(uid, running)
  {
    if running == [] then Start
    else if running[0].templateUid != uid then Mismatch(uid, running[0].templateUid)
    else if running[0].locked then NoStart
    else
      var o := UnlockScan(uid, running[1..]);
      assert forall i :: 1 <= i < |running| ==> running[i] == running[1..][i - 1];
      ForeignBeforeLockTail(uid, running);
      o
  }

  /** Past an unlocked instance of the template, the question moves to the tail. */
  lemma ForeignBeforeLockTail(uid: Uid, running: seq<Instance>)
    requires running != [] && running[0].templateUid == uid && !running[0].locked
    ensures ForeignBeforeLock(uid, running) <==> ForeignBeforeLock(uid, running[1..])
  {
    var rest := running[1..];
    if ForeignBeforeLock(uid, running) {
      var j :| 0 <= j < |running| && running[j].templateUid != uid && forall i :: 0 <= i < j ==> !running[i].locked;
      assert rest[j - 1].templateUid != uid && forall i :: 0 <= i < j - 1 ==> !rest[i].locked;
    }
    if ForeignBeforeLock(uid, rest) {
      var j :| 0 <= j < |rest| && rest[j].templateUid != uid && forall i :: 0 <= i < j ==> !rest[i].locked;
      assert running[j + 1] == rest[j];
      assert forall i :: 1 <= i < j + 1 ==> running[i] == rest[i - 1];
    }
  }

  /** `_skip_until_unlock`. */
  function SkipUntilUnlockHandler(uid: Uid, running: seq<Instance>): (d: Decision)
    ensures d.cancelled == 0
    ensures d.outcome == Start <==> SameTemplate(uid, running) && forall i :: 0 <= i < |running| ==> !running[i].locked
    ensures d.outcome == NoStart ==> exists i :: 0 <= i < |running| && running[i].locked
    ensures d.outcome.Mismatch? ==> !SameTemplate(uid, running)
    ensures d.outcome.Mismatch? <==> ForeignBeforeLock(uid, running)
  {
    if running == [] then Decision(Start, 0) else Decision(UnlockScan(uid, running), 0)
  }

  /** `_abort_running`: check and cancel each instance in turn, then start.
      A mismatch raises after the instances before it were cancelled. */
  function AbortRunningHandler(uid: Uid, running: seq<Instance>): (d: Decision)
    ensures !d.outcome.NoStart?
    ensures d.outcome == Start <==> SameTemplate(uid, running)
    ensures d.outcome == Start ==> d.cancelled == |running|
    ensures d.outcome.Mismatch? ==> d.cancelled < |running| && running[d.cancelled].templateUid == d.outcome.found != uid
    ensures SameTemplate(uid, running[..d.cancelled])
  {
    match FirstMismatch(uid, running)
    case Some(i) => Decision(Mismatch(uid, running[i].templateUid), i)
    case None =>
      assert running[..|running|] == running;
      Decision(Start, |running|)
  }

  /** `new_workflow`/`OverrunPolicyHandler.new_workflow`: dispatch on the
      template's policy. A missing running list (None) is the empty one. */
  function Decide(policy: OverrunPolicy, uid: Uid, running: seq<Instance>): (d: Decision)
    ensures policy != AbortRunning ==> d.cancelled == 0
    ensures d.outcome == NoStart ==> running != [] && (policy == Skip || policy == SkipUntilUnlock)
    ensures d.outcome == NoStart && policy == SkipUntilUnlock ==> exists i :: 0 <= i < |running| && running[i].locked
    ensures d.outcome.Mismatch? ==> policy != StartNew && !SameTemplate(uid, running)
    ensures running == [] ==> d == Decision(Start, 0)
  {
    match policy
    case Skip => SkipHandler(uid, running)
    case StartNew => StartNewHandler(uid, running)
    case SkipUntilUnlock => SkipUntilUnlockHandler(uid, running)
    case AbortRunning => AbortRunningHandler(uid, running)
  }

  /** The four rules, for a running list that belongs to the template (the
      engine only ever passes such a list): skip starts iff nothing runs,
      start-new always starts, skip-until-unlock starts iff nothing running is
      locked, abort-running cancels everything and starts; nothing raises. */
  lemma PolicyRules(policy: OverrunPolicy, uid: Uid, running: seq<Instance>)
    requires SameTemplate(uid, running)
    ensures !Decide(policy, uid, running).outcome.Mismatch?
    ensures policy == Skip ==> (Decide(policy, uid, running).outcome == Start <==> running == [])
    ensures policy == StartNew ==> Decide(policy, uid, running).outcome == Start
    ensures policy == SkipUntilUnlock ==>
      (Decide(policy, uid, running).outcome == Start <==> forall i :: 0 <= i < |running| ==> !running[i].locked)
    ensures policy == AbortRunning ==> Decide(policy, uid, running) == Decision(Start, |running|)
    ensures policy != AbortRunning ==> Decide(policy, uid, running).cancelled == 0
  {
  }

  /** With nothing running every policy starts a new instance. */
  lemma EmptyRunningStarts(policy: OverrunPolicy, uid: Uid)
    ensures Decide(policy, uid, []) == Decision(Start, 0)
  {
  }

  /** skip and abort-running raise exactly when some running instance belongs
      to another template; skip-until-unlock raises exactly when such an
      instance comes no later than the first locked one, hence exactly then
      when nothing is locked; start-new never raises. */
  lemma MismatchRaises(policy: OverrunPolicy, uid: Uid, running: seq<Instance>)
    ensures policy in {Skip, AbortRunning} ==> (Decide(policy, uid, running).outcome.Mismatch? <==> !SameTemplate(uid, running))
    ensures policy == SkipUntilUnlock ==> (Decide(policy, uid, running).outcome.Mismatch? ==> !SameTemplate(uid, running))
    ensures policy == SkipUntilUnlock ==> (Decide(policy, uid, running).outcome.Mismatch? <==> ForeignBeforeLock(uid, running))
    ensures policy == SkipUntilUnlock && (forall i :: 0 <= i < |running| ==> !running[i].locked) ==>
      (Decide(policy, uid, running).outcome.Mismatch? <==> !SameTemplate(uid, running))
    ensures policy == StartNew ==> !Decide(policy, uid, running).outcome.Mismatch?
  {
  }

  /** skip-until-unlock stops checking at a locked instance: once every
      instance up to a locked one belongs to the template, no new run starts
      and nothing raises, whatever comes after it. */
  lemma {:induction false} SkipUntilUnlockStopsAtLock(uid: Uid, running: seq<Instance>, i: nat)
    requires i < |running| && running[i].locked && SameTemplate(uid, running[..i + 1])
    ensures UnlockScan(uid, running) == NoStart
    ensures SkipUntilUnlockHandler(uid, running) == Decision(NoStart, 0)
    decreases i
  {
    assert running[0] == running[..i + 1][0];
    if !running[0].locked {
      var rest := running[1..];
      forall j | 0 <= j < i
        ensures rest[..i][j].templateUid == uid
      {
        assert rest[..i][j] == running[..i + 1][j + 1];
      }
      SkipUntilUnlockStopsAtLock(uid, rest, i - 1);
    }
  }

  /** An instance of another template behind a locked one goes unnoticed by
      skip-until-unlock, where skip would raise. */
  lemma LockHidesForeignInstance()
    ensures var running := [Instance("w1", "t", true), Instance("w2", "other", false)];
      !SameTemplate("t", running) && SkipUntilUnlockHandler("t", running) == Decision(NoStart, 0)
      && SkipHandler("t", running).outcome.Mismatch?
  {
    var running := [Instance("w1", "t", true), Instance("w2", "other", false)];
    assert running[1].templateUid != "t";
  }
}

=== FILE: template.dfy ===
/** `WorkflowTemplate` of `tukio/workflow.py`: a DAG of task templates plus
    the workflow's uid, overrun policy and topics, and the conversion from and
    to the dictionary form that describes the graph by task ids. */
module Template {
  import opened Wrappers
  import opened Dag
  import opened DagEdit
  import opened Policy

  /** A task template, a node of the workflow's DAG. Python compares task
      templates by identity, not by uid: `ref` stands for that identity (the
      position of the task in the dictionary it was read from). */
  datatype TaskTemplate = TaskTemplate(ref: nat, uid: Uid, name: string)

  /** `version` is read by the engine but set by code that is not part of this
      model; it is carried as an opaque value. */
  datatype WorkflowTemplate = WorkflowTemplate(
    uid: Uid,
    policy: OverrunPolicy,
    topics: Option<seq<string>>,
    dag: Graph<TaskTemplate>,
    version: Option<string>)

  /** The exceptions the template operations raise or let through. */
  datatype TemplateError =
    | DagFailure(dagError: DagError)          // from tukio/dag.py
    | RootTaskError(count: nat)               // WorkflowRootTaskError
    | GraphError(key: Uid)                    // TemplateGraphError
    | PolicyFailure(policyError: PolicyError) // ValueError from OverrunPolicy.get
    | UnknownTaskName(name: string)           // from the task registry

  /** The template's DAG is well formed; every template built through this
      API keeps it so. */
  ghost predicate Valid(t: WorkflowTemplate) {
    Closed(t.dag) && Acyclic(t.dag)
  }

  /** `WorkflowTemplate.__init__`: an absent or empty uid is replaced by a
      freshly generated one (`freshUid`); the policy goes through
      `OverrunPolicy.get`. */
  function New(uid: Option<Uid>, policy: PolicyArg, topics: Option<seq<string>>, freshUid: Uid): (r: Result<WorkflowTemplate, TemplateError>)
    ensures r.Success? <==> Get(policy).Success?
    ensures r.Failure? ==> r.error == PolicyFailure(Get(policy).error)
    ensures r.Success? ==> r.value.policy == Get(policy).value && r.value.topics == topics && r.value.dag == map[]
    ensures r.Success? ==> (r.value.uid == freshUid <==> uid.None? || uid.value == "" || uid.value == freshUid)
    ensures r.Success? && uid.Some? && uid.value != "" ==> r.value.uid == uid.value
    ensures r.Success? ==> Valid(r.value)
  {
    match Get(policy)
    case Failure(e) => Failure(PolicyFailure(e))
    case Success(p) =>
      var u := if uid.None? || uid.value == "" then freshUid else uid.value;
      Success(WorkflowTemplate(u, p, topics, map[], None))
  }

  /** `add`: a new orphan task; ValueError if that very task is already in. */
  function Add(t: WorkflowTemplate, task: TaskTemplate): (r: Result<WorkflowTemplate, TemplateError>)
    ensures r.Failure? <==> task in t.dag
    ensures r.Failure? ==> r.error == DagFailure(DuplicateNode)
    ensures r.Success? ==> r.value.dag.Keys == t.dag.Keys + {task} && r.value.dag[task] == {}
    ensures r.Success? ==> Edges(r.value.dag) == Edges(t.dag) && r.value.(dag := t.dag) == t
    ensures r.Success? && Valid(t) ==> Valid(r.value)
  {
    match AddNode(t.dag, task)
    case Failure(e) => Failure(DagFailure(e))
    case Success(g) =>
      MutationsPreserveValidity(t.dag, task, task, task);
      Success(t.(dag := g))
  }

  /** `delete`: the task and every link to or from it go away. */
  function Delete(t: WorkflowTemplate, task: TaskTemplate): (r: Result<WorkflowTemplate, TemplateError>)
    ensures r.Failure? <==> task !in t.dag
    ensures r.Failure? ==> r.error == DagFailure(UnknownNode)
    ensures r.Success? ==> r.value.dag.Keys == t.dag.Keys - {task} && r.value.(dag := t.dag) == t
    ensures r.Success? ==> forall a, b :: (a, b) in Edges(r.value.dag) <==> (a, b) in Edges(t.dag) && a != task && b != task
    ensures r.Success? && Valid(t) ==> Valid(r.value)
  {
    match DeleteNode(t.dag, task)
    case Failure(e) => Failure(DagFailure(e))
    case Success(g) =>
      MutationsPreserveValidity(t.dag, task, task, task);
      Success(t.(dag := g))
  }

  /** The number of tasks nothing links to. */
  ghost function RootCount(g: Graph<TaskTemplate>): nat {
    |set n | n in g && NoPredecessor(g, n)|
  }

  /** `root()` as written: `root_nodes()` raises DAGValidationError when there
      is no root, before the count is ever compared with one. */
  function RootAsWritten(t: WorkflowTemplate): (r: Result<TaskTemplate, TemplateError>)
    ensures RootCount(t.dag) == 0 ==> r == Failure(DagFailure(NoRootNode))
    ensures RootCount(t.dag) != 0 ==> r == Root(t)
  {
    match RootNodes(t.dag)
    case Failure(e) =>
      assert (set n | n in t.dag && NoPredecessor(t.dag, n)) == {};
      Failure(DagFailure(e))
    case Success(roots) =>
      assert roots == set n | n in t.dag && NoPredecessor(t.dag, n);
      Root(t)
  }

  /** An empty template has no root, and `root()` raises the DAG's exception
      rather than WorkflowRootTaskError(0), which `Workflow.run` would catch. */
  lemma RootOfEmptyTemplate(t: WorkflowTemplate)
    requires t.dag == map[]
    ensures RootAsWritten(t) == Failure(DagFailure(NoRootNode))
    ensures Root(t) == Failure(RootTaskError(0))
  {
    assert (set n | n in t.dag && NoPredecessor(t.dag, n)) == {};
  }

  /** `root()` as intended: the unique task nothing links to, or
      WorkflowRootTaskError carrying the number of such tasks. */
  function Root(t: WorkflowTemplate): (r: Result<TaskTemplate, TemplateError>)
    ensures r.Success? <==> RootCount(t.dag) == 1
    ensures r.Failure? ==> r.error == RootTaskError(RootCount(t.dag))
    ensures r.Success? ==> forall n :: n in t.dag && NoPredecessor(t.dag, n) <==> n == r.value
  {
    match RootNodes(t.dag)
    case Failure(_) =>
      assert (set n | n in t.dag && NoPredecessor(t.dag, n)) == {};
      Failure(RootTaskError(0))
    case Success(roots) =>
      assert roots == set n | n in t.dag && NoPredecessor(t.dag, n);
      if |roots| == 1 then
        var x :| x in roots;
        SingletonHasOneElement(roots, x);
        assert forall n {:trigger NoPredecessor(t.dag, n)} :: n in t.dag && NoPredecessor(t.dag, n) <==> n in roots;
        Success(x)
      else Failure(RootTaskError(|roots|))
  }

  lemma SingletonHasOneElement<T>(s: set<T>, x: T)
    requires |s| == 1 && x in s
    ensures s == {x}
  {
    assert |s - {x}| == 0;
  }

  /** `link`: `add_edge` between two tasks, rolled back if it breaks the DAG. */
  method Link(t: WorkflowTemplate, up: TaskTemplate, down: TaskTemplate) returns (t': WorkflowTemplate, err: Option<TemplateError>)
    requires Valid(t)
    ensures Valid(t') && t'.(dag := t.dag) == t
    ensures err == Some(DagFailure(UnknownNode)) <==> up !in t.dag || down !in t.dag
    ensures err.None? ==> t'.dag.Keys == t.dag.Keys && Edges(t'.dag) == Edges(t.dag) + {(up, down)}
    ensures err.None? ==> t'.dag == t.dag[up := t.dag[up] + {down}]
    ensures err.Some? ==> t' == t && err.value.DagFailure?
    ensures err.Some? ==> err.value.dagError == UnknownNode || IsValidationError(err.value.dagError)
    ensures err.Some? && IsValidationError(err.value.dagError) ==> !Acyclic(t.dag[up := t.dag[up] + {down}])
  {
    var g, e := AddEdge(t.dag, up, down);
    AddEdgePreservesAcyclic(t.dag, up, down);
    if e.Some? {
      if up in t.dag && down in t.dag {
        AddEdgeRollbackRestores(t.dag, up, down);
      }
      return t, Some(DagFailure(e.value));
    }
    return t.(dag := g), None;
  }

  /** `unlink`: delete the edge `a -> b`, or failing that `b -> a`; KeyError
      when there is neither. */
  function Unlink(t: WorkflowTemplate, a: TaskTemplate, b: TaskTemplate): (r: Result<WorkflowTemplate, TemplateError>)
    ensures r.Failure? <==> (a, b) !in Edges(t.dag) && (b, a) !in Edges(t.dag)
    ensures r.Failure? ==> r.error == DagFailure(UnknownEdge)
    ensures r.Success? ==> r.value.(dag := t.dag) == t && r.value.dag.Keys == t.dag.Keys
    ensures r.Success? && (a, b) in Edges(t.dag) ==> Edges(r.value.dag) == Edges(t.dag) - {(a, b)}
    ensures r.Success? && (a, b) !in Edges(t.dag) ==> Edges(r.value.dag) == Edges(t.dag) - {(b, a)}
    ensures r.Success? && Valid(t) ==> Valid(r.value)
  {
    match DeleteEdge(t.dag, a, b)
    case Success(g) =>
      MutationsPreserveValidity(t.dag, a, a, b);
      Success(t.(dag := g))
    case Failure(_) =>
      match DeleteEdge(t.dag, b, a)
      case Success(g) =>
        MutationsPreserveValidity(t.dag, b, b, a);
        Success(t.(dag := g))
      case Failure(e) => Failure(DagFailure(e))
  }

  /** The names of the template's tasks. */
  ghost function TaskNames(t: WorkflowTemplate): set<string> {
    set n | n in t.dag :: n.name
  }

  /** `validate()`: exactly one root task, and every task's name known to the
      task registry (`registry`). With no root at all, `root_nodes()` raises the
      DAG's exception first. Which unknown name is reported depends on the
      order the tasks are visited in. */
  method Validate(t: WorkflowTemplate, registry: set<string>) returns (r: Option<TemplateError>)
    ensures r.None? <==> RootCount(t.dag) == 1 && TaskNames(t) <= registry
    ensures RootCount(t.dag) == 0 ==> r == Some(DagFailure(NoRootNode))
    ensures RootCount(t.dag) > 1 ==> r == Some(RootTaskError(RootCount(t.dag)))
    ensures RootCount(t.dag) == 1 && r.Some? ==> r.value.UnknownTaskName? && r.value.name in TaskNames(t) - registry
  {
    var root := RootAsWritten(t);
    if root.Failure? {
      return Some(root.error);
    }
    var todo := t.dag.Keys;
    while todo != {}
      invariant todo <= t.dag.Keys
      invariant forall n :: n in t.dag && n !in todo ==> n.name in registry
      decreases todo
    {
      var task :| task in todo;
      if task.name !in registry {
        return Some(UnknownTaskName(task.name));
      }
      todo := todo - {task};
    }
    return None;
  }
}

=== FILE: template_dict.dfy ===
/** `WorkflowTemplate.from_dict` and `as_dict` of `tukio/workflow.py`: the
    dictionary form names tasks by id and gives the graph as
    `{task-id: [successor-ids]}`; the template's DAG links the task templates
    themselves. */
module TemplateDicts {
  import opened Wrappers
  import opened Dag
  import opened DagEdit
  import opened Policy
  import opened Template

  /** The part of a task's dictionary this model reads: its id and name. */
  datatype TaskDict = TaskDict(id: Uid, name: string)

  /** A workflow dictionary. A missing "id" is `None`; missing "tasks" and
      "graph" are empty; "graph" is given as its items in iteration order. */
  datatype TemplateDict = TemplateDict(
    id: Option<Uid>,
    policy: PolicyArg,
    topics: Option<seq<string>>,
    tasks: seq<TaskDict>,
    graph: seq<(Uid, seq<Uid>)>)

  /** The task template built from the `i`-th task dictionary. */
  function TaskNode(tasks: seq<TaskDict>, i: nat): (n: TaskTemplate)
    requires i < |tasks|
    ensures n.ref == i && n.uid == tasks[i].id && n.name == tasks[i].name
  {
    TaskTemplate(i, tasks[i].id, tasks[i].name)
  }

  /** The task templates of the first `k` task dictionaries. */
  ghost function TaskNodes(tasks: seq<TaskDict>, k: nat): set<TaskTemplate>
    requires k <= |tasks|
  {
    set i | 0 <= i < k :: TaskNode(tasks, i)
  }

  /** The ids of the task dictionaries. */
  ghost function TaskIds(tasks: seq<TaskDict>): set<Uid> {
    set i | 0 <= i < |tasks| :: tasks[i].id
  }

  lemma TaskIdsOfPrefix(tasks: seq<TaskDict>, k: nat)
    requires k < |tasks|
    ensures TaskIds(tasks[..k + 1]) == TaskIds(tasks[..k]) + {tasks[k].id}
  {
    var p := tasks[..k + 1];
    assert forall i :: 0 <= i < k ==> p[i] == tasks[..k][i];
    forall u | u in TaskIds(p)
      ensures u in TaskIds(tasks[..k]) + {tasks[k].id}
    {
      var i :| 0 <= i < |p| && p[i].id == u;
      if i < k {
        assert tasks[..k][i].id == u;
      }
    }
  }

  /** `task_ids` in `from_dict`: every task id to the task template built from
      the last task dictionary carrying it. */
  function TaskIndex(tasks: seq<TaskDict>): (m: map<Uid, TaskTemplate>)
    ensures m.Keys == TaskIds(tasks)
    ensures forall u :: u in m ==> m[u].ref < |tasks| && m[u] == TaskNode(tasks, m[u].ref) && m[u].uid == u
  {
    if tasks == [] then map[]
    else
      var k := |tasks| - 1;
      var m := TaskIndex(tasks[..k]);
      assert tasks[..k + 1] == tasks;
      TaskIdsOfPrefix(tasks, k);
      assert forall u :: u in m ==> m[u] == TaskNode(tasks, m[u].ref);
      m[tasks[k].id := TaskNode(tasks, k)]
  }

  /** A later task dictionary with the same id wins. */
  lemma {:induction false} TaskIndexKeepsLast(tasks: seq<TaskDict>, u: Uid, j: nat)
    requires u in TaskIndex(tasks) && TaskIndex(tasks)[u].ref < j < |tasks|
    ensures tasks[j].id != u
  {
    var k := |tasks| - 1;
    assert tasks[..k + 1] == tasks;
    if j < k {
      assert tasks[k].id != u;
      assert TaskIndex(tasks)[u] == TaskIndex(tasks[..k])[u];
      TaskIndexKeepsLast(tasks[..k], u, j);
      assert tasks[..k][j] == tasks[j];
    }
  }

  /** The task templates that a list of ids resolves to; unknown ids are
      dropped. */
  ghost function Resolve(idx: map<Uid, TaskTemplate>, ids: seq<Uid>): set<TaskTemplate> {
    set x | x in ids && x in idx :: idx[x]
  }

  /** Every id the graph mentions, as a key or as a successor, is a task id. */
  ghost predicate AllKnown(d: TemplateDict) {
    forall i :: 0 <= i < |d.graph| ==> d.graph[i].0 in TaskIds(d.tasks) && Elems(d.graph[i].1) <= TaskIds(d.tasks)
  }

  /** `u` appears in the graph, as a key or as a successor. */
  ghost predicate Mentioned(d: TemplateDict, u: Uid) {
    exists i :: 0 <= i < |d.graph| && (d.graph[i].0 == u || u in d.graph[i].1)
  }

  /** `idx` maps ids into `nodes`, each id to a task carrying it. */
  ghost predicate IndexInto(idx: map<Uid, TaskTemplate>, nodes: set<TaskTemplate>) {
    forall u :: u in idx ==> idx[u] in nodes && idx[u].uid == u
  }

  lemma TaskIndexInto(tasks: seq<TaskDict>)
    ensures IndexInto(TaskIndex(tasks), TaskNodes(tasks, |tasks|))
  {
    forall u | u in TaskIndex(tasks)
      ensures TaskIndex(tasks)[u] in TaskNodes(tasks, |tasks|)
    {
      var n := TaskIndex(tasks)[u];
      assert n == TaskNode(tasks, n.ref);
    }
  }

  /** The successors of task `n` in the DAG that `graph` describes: what the
      list of `n`'s id resolves to, provided the id resolves to `n` itself. */
  ghost function Row(idx: map<Uid, TaskTemplate>, graph: seq<(Uid, seq<Uid>)>, n: TaskTemplate): set<TaskTemplate> {
    if n.uid in DictKeys(graph) && n.uid in idx && idx[n.uid] == n
    then Resolve(idx, DictValue(graph, n.uid))
    else {}
  }

  /** The DAG that `graph` describes over the tasks `nodes`. */
  ghost function Described(idx: map<Uid, TaskTemplate>, nodes: set<TaskTemplate>, graph: seq<(Uid, seq<Uid>)>): Graph<TaskTemplate> {
    map n | n in nodes :: Row(idx, graph, n)
  }

  /** The DAG a dictionary describes: every task is a node, and the task an
      id resolves to links to the tasks its listed successor ids resolve to. */
  ghost function LinkGraph(d: TemplateDict): Graph<TaskTemplate> {
    Described(TaskIndex(d.tasks), TaskNodes(d.tasks, |d.tasks|), d.graph)
  }

  /** The uid `__init__` settles on. */
  function ChosenUid(id: Option<Uid>, freshUid: Uid): Uid {
    if id.None? || id.value == "" then freshUid else id.value
  }

  // ---------------------------------------------------------------------
  // The graph part of from_dict, one dictionary item at a time

  ghost predicate KeysKnown(idx: map<Uid, TaskTemplate>, graph: seq<(Uid, seq<Uid>)>, i: nat) {
    i <= |graph| && forall j :: 0 <= j < i ==> graph[j].0 in idx
  }

  /** The task templates that the first `i` graph keys resolve to. */
  ghost function Heads(idx: map<Uid, TaskTemplate>, graph: seq<(Uid, seq<Uid>)>, i: nat): set<TaskTemplate>
    requires KeysKnown(idx, graph, i)
  {
    if i == 0 then {} else Heads(idx, graph, i - 1) + {idx[graph[i - 1].0]}
  }

  lemma {:induction false} HeadsHold(idx: map<Uid, TaskTemplate>, graph: seq<(Uid, seq<Uid>)>, i: nat, j: nat)
    requires KeysKnown(idx, graph, i) && j < i
    ensures idx[graph[j].0] in Heads(idx, graph, i)
  {
    if j < i - 1 {
      HeadsHold(idx, graph, i - 1, j);
    }
  }

  /** The DAG once the first `i` graph items have been linked. */
  ghost function Linked(idx: map<Uid, TaskTemplate>, nodes: set<TaskTemplate>, graph: seq<(Uid, seq<Uid>)>, i: nat): Graph<TaskTemplate>
    requires KeysKnown(idx, graph, i)
  {
    if i == 0 then map n | n in nodes :: {}
    else Linked(idx, nodes, graph, i - 1)[idx[graph[i - 1].0] := Resolve(idx, graph[i - 1].1)]
  }

  /** In the described DAG, the task a graph key resolves to links to what
      the key's list resolves to. */
  lemma HeadRow(idx: map<Uid, TaskTemplate>, nodes: set<TaskTemplate>, graph: seq<(Uid, seq<Uid>)>, i: nat, h: TaskTemplate)
    requires DistinctKeys(graph) && IndexInto(idx, nodes) && i < |graph| && graph[i].0 in idx && h == idx[graph[i].0]
    ensures Row(idx, graph, h) == Resolve(idx, graph[i].1)
  {
    DictValueAt(graph, i);
  }

  /** Linking never adds or removes a task. */
  lemma {:induction false} LinkedKeys(idx: map<Uid, TaskTemplate>, nodes: set<TaskTemplate>, graph: seq<(Uid, seq<Uid>)>, i: nat)
    requires IndexInto(idx, nodes) && KeysKnown(idx, graph, i)
    ensures Linked(idx, nodes, graph, i).Keys == nodes
  {
    if i > 0 {
      LinkedKeys(idx, nodes, graph, i - 1);
    }
  }

  /** After `i` items, the tasks the first `i` keys resolve to carry their
      final successor sets and every other task has none yet. */
  lemma {:induction false} LinkedAt(idx: map<Uid, TaskTemplate>, nodes: set<TaskTemplate>, graph: seq<(Uid, seq<Uid>)>, i: nat, n: TaskTemplate)
    requires DistinctKeys(graph) && IndexInto(idx, nodes) && KeysKnown(idx, graph, i) && n in nodes
    ensures n in Linked(idx, nodes, graph, i)
    ensures n in Heads(idx, graph, i) ==> Linked(idx, nodes, graph, i)[n] == Row(idx, graph, n)
    ensures n !in Heads(idx, graph, i) ==> Linked(idx, nodes, graph, i)[n] == {}
  {
    LinkedKeys(idx, nodes, graph, i);
    if i > 0 {
      LinkedAt(idx, nodes, graph, i - 1, n);
      if n == idx[graph[i - 1].0] {
        HeadRow(idx, nodes, graph, i - 1, n);
      }
    }
  }

  /** The key of item `i` resolves to a task no earlier key resolved to. */
  lemma {:induction false} FreshHead(idx: map<Uid, TaskTemplate>, nodes: set<TaskTemplate>, graph: seq<(Uid, seq<Uid>)>, i: nat, k: nat)
    requires DistinctKeys(graph) && IndexInto(idx, nodes) && KeysKnown(idx, graph, i + 1) && k <= i
    ensures idx[graph[i].0] !in Heads(idx, graph, k)
  {
    if k > 0 {
      FreshHead(idx, nodes, graph, i, k - 1);
      assert idx[graph[k - 1].0].uid != idx[graph[i].0].uid;
    }
  }

  /** Once every key has been linked, the DAG is the described DAG. */
  lemma LinkedAll(idx: map<Uid, TaskTemplate>, nodes: set<TaskTemplate>, graph: seq<(Uid, seq<Uid>)>)
    requires DistinctKeys(graph) && IndexInto(idx, nodes) && KeysKnown(idx, graph, |graph|)
    ensures Linked(idx, nodes, graph, |graph|) == Described(idx, nodes, graph)
  {
    var last := |graph|;
    LinkedKeys(idx, nodes, graph, last);
    forall n | n in nodes
      ensures Linked(idx, nodes, graph, last)[n] == Row(idx, graph, n)
    {
      LinkedAt(idx, nodes, graph, last, n);
      if n.uid in DictKeys(graph) && n.uid in idx && idx[n.uid] == n {
        var j :| 0 <= j < last && graph[j].0 == n.uid;
        HeadsHold(idx, graph, last, j);
      }
    }
  }

  /** A cycle met while linking item `i` is a cycle of the described DAG. */
  lemma PartialCycle(idx: map<Uid, TaskTemplate>, nodes: set<TaskTemplate>, graph: seq<(Uid, seq<Uid>)>, i: nat, k: nat)
    requires DistinctKeys(graph) && IndexInto(idx, nodes) && KeysKnown(idx, graph, i + 1) && k <= |graph[i].1|
    requires !Acyclic(Linked(idx, nodes, graph, i)[idx[graph[i].0] := Resolve(idx, graph[i].1[..k])])
    ensures !Acyclic(Described(idx, nodes, graph))
  {
    var up := idx[graph[i].0];
    var h := Linked(idx, nodes, graph, i)[up := Resolve(idx, graph[i].1[..k])];
    HeadRow(idx, nodes, graph, i, up);
    LinkedKeys(idx, nodes, graph, i);
    forall n | n in h
      ensures n in Described(idx, nodes, graph) && h[n] <= Described(idx, nodes, graph)[n]
    {
      LinkedAt(idx, nodes, graph, i, n);
    }
    if Acyclic(Described(idx, nodes, graph)) {
      SubgraphOfAcyclic(h, Described(idx, nodes, graph));
    }
  }

  /** Progress of the graph loop of `from_dict` after `i` items. */
  ghost predicate ItemsLinked(idx: map<Uid, TaskTemplate>, nodes: set<TaskTemplate>, graph: seq<(Uid, seq<Uid>)>, t: WorkflowTemplate, i: nat) {
    && DistinctKeys(graph)
    && IndexInto(idx, nodes)
    && KeysKnown(idx, graph, i)
    && (forall j :: 0 <= j < i ==> Elems(graph[j].1) <= idx.Keys)
    && t.dag == Linked(idx, nodes, graph, i)
    && Valid(t)
  }

  /** One item of the graph loop: resolve the key, then for each listed id
      resolve it and `link`. An unknown id raises TemplateGraphError carrying
      it; a `link` that breaks the DAG lets the DAG's exception through. */
  method LinkItem(idx: map<Uid, TaskTemplate>, ghost nodes: set<TaskTemplate>, graph: seq<(Uid, seq<Uid>)>, t: WorkflowTemplate, i: nat)
    returns (r: Result<WorkflowTemplate, TemplateError>)
    requires ItemsLinked(idx, nodes, graph, t, i) && i < |graph|
    ensures r.Success? ==> ItemsLinked(idx, nodes, graph, r.value, i + 1) && r.value.(dag := t.dag) == t
    ensures r.Failure? ==> r.error.GraphError? || r.error.DagFailure?
    ensures r.Failure? && r.error.GraphError? ==> (r.error.key == graph[i].0 || r.error.key in graph[i].1) && r.error.key !in idx
    ensures r.Failure? && r.error.DagFailure? ==> IsValidationError(r.error.dagError) && !Acyclic(Described(idx, nodes, graph))
  {
    var upId := graph[i].0;
    var downIds := graph[i].1;
    if upId !in idx {
      return Failure(GraphError(upId));
    }
    var up := idx[upId];
    ghost var before := Linked(idx, nodes, graph, i);
    assert up in before && before[up] == {} by {
      LinkedAt(idx, nodes, graph, i, up);
      FreshHead(idx, nodes, graph, i, i);
    }
    var cur := t;
    var k := 0;
    assert Resolve(idx, downIds[..0]) == {};
    assert before[up := Resolve(idx, downIds[..0])] == before;
    while k < |downIds|
      invariant 0 <= k <= |downIds|
      invariant cur.dag == before[up := Resolve(idx, downIds[..k])]
      invariant Valid(cur) && cur.(dag := t.dag) == t
      invariant Elems(downIds[..k]) <= idx.Keys
    {
      var downId := downIds[k];
      if downId !in idx {
        return Failure(GraphError(downId));
      }
      var down := idx[downId];
      assert Resolve(idx, downIds[..k + 1]) == Resolve(idx, downIds[..k]) + {down} by {
        assert downIds[..k + 1] == downIds[..k] + [downId];
      }
      assert Elems(downIds[..k + 1]) == Elems(downIds[..k]) + {downId} by {
        assert downIds[..k + 1] == downIds[..k] + [downId];
      }
      var next, err := Link(cur, up, down);
      assert cur.dag[up := cur.dag[up] + {down}] == before[up := Resolve(idx, downIds[..k + 1])];
      if err.Some? {
        assert down in before by {
          LinkedKeys(idx, nodes, graph, i);
        }
        PartialCycle(idx, nodes, graph, i, k + 1);
        return Failure(err.value);
      }
      cur := next;
      k := k + 1;
    }
    assert downIds[..|downIds|] == downIds;
    return Success(cur);
  }

  /** The task loop of `from_dict`: one orphan task per task dictionary. */
  method AddTasks(t: WorkflowTemplate, tasks: seq<TaskDict>) returns (t': WorkflowTemplate)
    requires t.dag == map[]
    ensures t' == t.(dag := map n | n in TaskNodes(tasks, |tasks|) :: {})
  {
    t' := t;
    var i := 0;
    while i < |tasks|
      invariant 0 <= i <= |tasks|
      invariant t' == t.(dag := map n | n in TaskNodes(tasks, i) :: {})
    {
      var node := TaskNode(tasks, i);
      assert node !in t'.dag;
      assert TaskNodes(tasks, i + 1) == TaskNodes(tasks, i) + {node};
      t' := Add(t', node).value;
      i := i + 1;
    }
  }

  /** `WorkflowTemplate.from_dict`. It succeeds exactly when the policy is
      known, every id in the graph is a task id, and the described DAG is
      acyclic; the template then holds exactly that DAG. */
  method FromDict(d: TemplateDict, freshUid: Uid) returns (r: Result<WorkflowTemplate, TemplateError>)
    requires DistinctKeys(d.graph)
    ensures r.Success? <==> Get(d.policy).Success? && AllKnown(d) && Acyclic(LinkGraph(d))
    ensures r.Success? ==> r.value == WorkflowTemplate(ChosenUid(d.id, freshUid), Get(d.policy).value, d.topics, LinkGraph(d), None)
    ensures r.Success? ==> Valid(r.value)
    ensures r.Failure? && r.error.PolicyFailure? ==> Get(d.policy).Failure?
    ensures r.Failure? && r.error.GraphError? ==> Mentioned(d, r.error.key) && r.error.key !in TaskIds(d.tasks)
    ensures r.Failure? && r.error.DagFailure? ==> IsValidationError(r.error.dagError) && !Acyclic(LinkGraph(d))
    ensures r.Failure? ==> r.error.PolicyFailure? || r.error.GraphError? || r.error.DagFailure?
  {
    var made := New(d.id, d.policy, d.topics, freshUid);
    if made.Failure? {
      return Failure(made.error);
    }
    var t := AddTasks(made.value, d.tasks);
    var idx := TaskIndex(d.tasks);
    TaskIndexInto(d.tasks);
    assert t.dag == Linked(idx, TaskNodes(d.tasks, |d.tasks|), d.graph, 0);
    EdgelessIsAcyclic(t.dag);
    r := LinkAll(idx, TaskNodes(d.tasks, |d.tasks|), d.graph, t);
    if r.Failure? && r.error.GraphError? {
      var j :| 0 <= j < |d.graph| && (d.graph[j].0 == r.error.key || r.error.key in d.graph[j].1);
      assert Mentioned(d, r.error.key);
    }
  }

  /** The graph loop of `from_dict`: link every item in turn, stopping at
      the first exception. */
  method LinkAll(idx: map<Uid, TaskTemplate>, ghost nodes: set<TaskTemplate>, graph: seq<(Uid, seq<Uid>)>, t0: WorkflowTemplate)
    returns (r: Result<WorkflowTemplate, TemplateError>)
    requires ItemsLinked(idx, nodes, graph, t0, 0)
    ensures r.Success? ==> r.value == t0.(dag := Described(idx, nodes, graph)) && Valid(r.value)
    ensures r.Success? ==> forall j :: 0 <= j < |graph| ==> graph[j].0 in idx && Elems(graph[j].1) <= idx.Keys
    ensures r.Failure? ==> r.error.GraphError? || r.error.DagFailure?
    ensures r.Failure? && r.error.GraphError? ==> r.error.key !in idx
    ensures r.Failure? && r.error.GraphError? ==> exists j :: 0 <= j < |graph| && (graph[j].0 == r.error.key || r.error.key in graph[j].1)
    ensures r.Failure? && r.error.DagFailure? ==> IsValidationError(r.error.dagError) && !Acyclic(Described(idx, nodes, graph))
  {
    var t := t0;
    var i := 0;
    while i < |graph|
      invariant i <= |graph|
      invariant ItemsLinked(idx, nodes, graph, t, i) && t.(dag := t0.dag) == t0
    {
      var item := LinkItem(idx, nodes, graph, t, i);
      if item.Failure? {
        return Failure(item.error);
      }
      t := item.value;
      i := i + 1;
    }
    LinkedAll(idx, nodes, graph);
    return Success(t);
  }

  // ---------------------------------------------------------------------
  // as_dict

  /** The dictionary `as_dict` builds. Its "graph" maps each task's id to
      the ids of the task's successors, in the set's iteration order. */
  datatype WorkflowDict = WorkflowDict(
    id: Uid,
    policy: string,
    topics: Option<seq<string>>,
    tasks: seq<TaskDict>,
    graph: map<Uid, seq<Uid>>)

  /** The ids of a set of tasks. */
  ghost function UidsOf(s: set<TaskTemplate>): set<Uid> {
    set n | n in s :: n.uid
  }

  /** The task dictionaries of a set of tasks. */
  ghost function DictsOf(s: set<TaskTemplate>): set<TaskDict> {
    set n | n in s :: TaskDict(n.uid, n.name)
  }

  /** `list(map(lambda x: x.uid, down_tmpls))`: one id per task of the set. */
  method UidList(s: set<TaskTemplate>) returns (l: seq<Uid>)
    ensures |l| == |s| && Elems(l) == UidsOf(s)
  {
    l := [];
    var todo := s;
    while todo != {}
      invariant todo <= s
      invariant |l| + |todo| == |s|
      invariant Elems(l) == UidsOf(s - todo)
      decreases todo
    {
      var n :| n in todo;
      assert UidsOf(s - (todo - {n})) == UidsOf(s - todo) + {n.uid};
      l := l + [n.uid];
      todo := todo - {n};
    }
  }

  /** The "tasks" list: one task dictionary per task of the DAG. */
  method TaskList(g: Graph<TaskTemplate>) returns (l: seq<TaskDict>)
    ensures |l| == |g| && Elems(l) == DictsOf(g.Keys)
  {
    l := [];
    var todo := g.Keys;
    while todo != {}
      invariant todo <= g.Keys
      invariant |l| + |todo| == |g|
      invariant Elems(l) == DictsOf(g.Keys - todo)
      decreases todo
    {
      var n :| n in todo;
      assert DictsOf(g.Keys - (todo - {n})) == DictsOf(g.Keys - todo) + {TaskDict(n.uid, n.name)};
      l := l + [TaskDict(n.uid, n.name)];
      todo := todo - {n};
    }
  }

  /** `l` lists the successors' ids of some task with id `u`. */
  ghost predicate ListsRow(g: Graph<TaskTemplate>, u: Uid, l: seq<Uid>) {
    exists n :: n in g && n.uid == u && |l| == |g[n]| && Elems(l) == UidsOf(g[n])
  }

  /** The "graph" dictionary: every task's id maps to its successors' ids.
      Tasks sharing an id overwrite each other's entry; which one is kept
      depends on the iteration order. */
  method GraphDict(g: Graph<TaskTemplate>) returns (m: map<Uid, seq<Uid>>)
    ensures m.Keys == UidsOf(g.Keys)
    ensures forall u :: u in m ==> ListsRow(g, u, m[u])
  {
    m := map[];
    var todo := g.Keys;
    while todo != {}
      invariant todo <= g.Keys
      invariant m.Keys == UidsOf(g.Keys - todo)
      invariant forall u :: u in m ==> ListsRow(g, u, m[u])
      decreases todo
    {
      var n :| n in todo;
      var l := UidList(g[n]);
      assert ListsRow(g, n.uid, l);
      assert UidsOf(g.Keys - (todo - {n})) == UidsOf(g.Keys - todo) + {n.uid};
      m := m[n.uid := l];
      todo := todo - {n};
    }
  }

  /** `WorkflowTemplate.as_dict`. */
  method AsDict(t: WorkflowTemplate) returns (w: WorkflowDict)
    ensures w.id == t.uid && w.policy == Value(t.policy) && w.topics == t.topics
    ensures |w.tasks| == |t.dag| && Elems(w.tasks) == DictsOf(t.dag.Keys)
    ensures w.graph.Keys == UidsOf(t.dag.Keys)
    ensures forall u :: u in w.graph ==> ListsRow(t.dag, u, w.graph[u])
  {
    var tasks := TaskList(t.dag);
    var graph := GraphDict(t.dag);
    w := WorkflowDict(t.uid, Value(t.policy), t.topics, tasks, graph);
  }

  /** When no two tasks share an id, the entry of a task's id lists exactly
      that task's successors. */
  lemma ListsRowOfUnique(g: Graph<TaskTemplate>, n: TaskTemplate, l: seq<Uid>)
    requires n in g && ListsRow(g, n.uid, l)
    requires forall x :: x in g && x.uid == n.uid ==> x == n
    ensures |l| == |g[n]| && Elems(l) == UidsOf(g[n])
  {
  }

  // ---------------------------------------------------------------------
  // Round trip

  /** No two task dictionaries share an id. */
  ghost predicate DistinctIds(tasks: seq<TaskDict>) {
    forall i, j :: 0 <= i < j < |tasks| ==> tasks[i].id != tasks[j].id
  }

  /** One task per task dictionary, whatever the ids. */
  lemma {:induction false} TaskNodesCount(tasks: seq<TaskDict>, k: nat)
    requires k <= |tasks|
    ensures |TaskNodes(tasks, k)| == k
    ensures UidsOf(TaskNodes(tasks, k)) == TaskIds(tasks[..k])
    ensures DictsOf(TaskNodes(tasks, k)) == Elems(tasks[..k])
  {
    if k > 0 {
      TaskNodesCount(tasks, k - 1);
      var n := TaskNode(tasks, k - 1);
      assert TaskNodes(tasks, k) == TaskNodes(tasks, k - 1) + {n};
      assert n !in TaskNodes(tasks, k - 1);
      TaskIdsOfPrefix(tasks, k - 1);
      assert tasks[..k] == tasks[..k - 1] + [tasks[k - 1]];
    }
  }

  /** With distinct ids, the index resolves an id to the one task carrying
      it. */
  lemma UniqueTask(tasks: seq<TaskDict>, n: TaskTemplate, x: TaskTemplate)
    requires DistinctIds(tasks) && n in TaskNodes(tasks, |tasks|) && x in TaskNodes(tasks, |tasks|) && x.uid == n.uid
    ensures n.uid in TaskIndex(tasks) && TaskIndex(tasks)[n.uid] == n && x == n
  {
    TaskIndexInto(tasks);
    assert n == TaskNode(tasks, n.ref);
    assert x == TaskNode(tasks, x.ref);
    assert n.uid in TaskIds(tasks);
  }

  /** The ids of what a list of known ids resolves to are the list's ids. */
  lemma ResolveUids(idx: map<Uid, TaskTemplate>, nodes: set<TaskTemplate>, ids: seq<Uid>)
    requires IndexInto(idx, nodes) && Elems(ids) <= idx.Keys
    ensures UidsOf(Resolve(idx, ids)) == Elems(ids)
  {
    forall u | u in Elems(ids)
      ensures u in UidsOf(Resolve(idx, ids))
    {
      assert idx[u] in Resolve(idx, ids);
    }
  }

  /** The successors a dictionary gives a task id, as a set of ids. */
  ghost function DictRow(d: TemplateDict, u: Uid): set<Uid> {
    if u in DictKeys(d.graph) then Elems(DictValue(d.graph, u)) else {}
  }

  /** `from_dict` followed by `as_dict` gives back the dictionary: the same
      uid (or the generated one), policy, topics and task dictionaries, and a
      graph entry for every task id listing exactly the successors the
      dictionary gave it (none for a task it gave no entry). */
  method DictRoundTrip(d: TemplateDict, freshUid: Uid) returns (w: WorkflowDict)
    requires DistinctKeys(d.graph) && DistinctIds(d.tasks)
    requires Get(d.policy).Success? && AllKnown(d) && Acyclic(LinkGraph(d))
    ensures w.id == ChosenUid(d.id, freshUid) && w.policy == Value(Get(d.policy).value) && w.topics == d.topics
    ensures |w.tasks| == |d.tasks| && Elems(w.tasks) == Elems(d.tasks)
    ensures w.graph.Keys == TaskIds(d.tasks)
    ensures forall u :: u in w.graph ==> Elems(w.graph[u]) == DictRow(d, u)
  {
    var r := FromDict(d, freshUid);
    w := AsDict(r.value);
    LinkGraphNodes(d);
    forall u | u in w.graph
      ensures Elems(w.graph[u]) == DictRow(d, u)
    {
      RowRoundTrip(d, u, w.graph[u]);
    }
  }

  /** The graph `from_dict` builds has one task per task dictionary. */
  lemma LinkGraphNodes(d: TemplateDict)
    requires DistinctKeys(d.graph) && AllKnown(d)
    ensures |LinkGraph(d)| == |d.tasks|
    ensures DictsOf(LinkGraph(d).Keys) == Elems(d.tasks) && UidsOf(LinkGraph(d).Keys) == TaskIds(d.tasks)
  {
    TaskNodesCount(d.tasks, |d.tasks|);
    assert d.tasks[..|d.tasks|] == d.tasks;
    assert LinkGraph(d).Keys == TaskNodes(d.tasks, |d.tasks|);
    assert |LinkGraph(d)| == |LinkGraph(d).Keys|;
  }

  /** The ids `as_dict` lists for a task id of a dictionary read by
      `from_dict` are the ones the dictionary listed. */
  lemma RowRoundTrip(d: TemplateDict, u: Uid, l: seq<Uid>)
    requires DistinctKeys(d.graph) && DistinctIds(d.tasks) && AllKnown(d)
    requires ListsRow(LinkGraph(d), u, l)
    ensures Elems(l) == DictRow(d, u)
  {
    var g := LinkGraph(d);
    var idx := TaskIndex(d.tasks);
    var nodes := TaskNodes(d.tasks, |d.tasks|);
    TaskIndexInto(d.tasks);
    var n :| n in g && n.uid == u && |l| == |g[n]| && Elems(l) == UidsOf(g[n]);
    UniqueTask(d.tasks, n, n);
    if u in DictKeys(d.graph) {
      var j :| 0 <= j < |d.graph| && d.graph[j].0 == u;
      DictValueAt(d.graph, j);
      ResolveUids(idx, nodes, d.graph[j].1);
    }
  }
}

=== FILE: toposort.dfy ===
/** `DAG._toposort` of `tukio/dag.py`: Kahn's algorithm, which either lists
    every node with each edge pointing forward or finds edges left over, and
    the facts linking its two outcomes to acyclicity. */
module Toposort {
  import opened Wrappers
  import opened Dag

  ghost predicate Distinct<T>(s: seq<T>) {
    forall i, j :: 0 <= i < j < |s| ==> s[i] != s[j]
  }

  /** `s` lists every node of `g` exactly once, and every edge goes from an
      earlier to a later position. */
  ghost predicate IsTopologicalOrder<N(!new)>(g: Graph<N>, s: seq<N>) {
    && Distinct(s)
    && (forall x :: x in s <==> x in g)
    && (forall i, j :: 0 <= i < |s| && 0 <= j < |s| && s[i] in g && s[j] in g[s[i]] ==> i < j)
  }

  ghost function IndexOf<T>(s: seq<T>, x: T): (i: nat)
    requires x in s
    ensures i < |s| && s[i] == x
  {
    var i :| 0 <= i < |s| && s[i] == x; i
  }

  /** Along a path, positions in a topological order strictly increase. */
  lemma {:induction false} PathClimbs<N(!new)>(g: Graph<N>, s: seq<N>, p: seq<N>, k: nat)
    requires IsTopologicalOrder(g, s) && IsPath(g, p)
    requires forall i :: 0 <= i < |p| ==> p[i] in g
    requires 1 <= k < |p|
    ensures IndexOf(s, p[0]) < IndexOf(s, p[k])
  {
    var a, b := IndexOf(s, p[k - 1]), IndexOf(s, p[k]);
    assert s[a] in g && s[b] in g[s[a]];
    if k > 1 {
      PathClimbs(g, s, p, k - 1);
    }
  }

  /** A graph that has a topological order has no cycle. */
  lemma TopologicalOrderIsAcyclic<N(!new)>(g: Graph<N>, s: seq<N>)
    requires IsTopologicalOrder(g, s)
    ensures Acyclic(g)
  {
    forall p | IsCycle(g, p)
      ensures false
    {
      assert forall i :: 0 <= i < |p| ==> p[i] in g by {
        forall i | 0 <= i < |p|
          ensures p[i] in g
        {
          if i == |p| - 1 {
            assert p[i] == p[0];
          }
        }
      }
      PathClimbs(g, s, p, |p| - 1);
    }
  }

  /** A sequence longer than the set its elements come from repeats one. */
  lemma {:induction false} Pigeonhole<T>(w: seq<T>, S: set<T>) returns (i: nat, j: nat)
    requires forall k :: 0 <= k < |w| ==> w[k] in S
    requires |w| > |S|
    ensures i < j < |w| && w[i] == w[j]
    decreases |w|
  {
    if w[0] in w[1..] {
      var k :| 0 <= k < |w[1..]| && w[1..][k] == w[0];
      i, j := 0, k + 1;
    } else {
      var i', j' := Pigeonhole(w[1..], S - {w[0]});
      i, j := i' + 1, j' + 1;
    }
  }

  /** `x` has a predecessor inside `S`. */
  ghost predicate HasPredecessorIn<N(!new)>(g: Graph<N>, S: set<N>, x: N) {
    exists u :: u in S && u in g && x in g[u]
  }

  /** Every node of `S` has a predecessor inside `S`. */
  ghost predicate Stuck<N(!new)>(g: Graph<N>, S: set<N>) {
    forall x :: x in S ==> HasPredecessorIn(g, S, x)
  }

  /** Walking `n` steps backwards inside a set where every node has a
      predecessor in the set. `w[i]` is a successor of `w[i + 1]`. */
  lemma {:induction false} BackwardWalk<N(!new)>(g: Graph<N>, S: set<N>, v: N, n: nat) returns (w: seq<N>)
    requires S <= g.Keys && v in S
    requires Stuck(g, S)
    ensures |w| == n + 1 && w[0] == v
    ensures forall i :: 0 <= i < |w| ==> w[i] in S
    ensures forall i :: 0 <= i < n ==> w[i] in g[w[i + 1]]
  {
    if n == 0 {
      w := [v];
    } else {
      var w' := BackwardWalk(g, S, v, n - 1);
      var last := w'[n - 1];
      assert HasPredecessorIn(g, S, last);
      var u :| u in S && u in g && last in g[u];
      w := w' + [u];
    }
  }

  /** A non-empty set of nodes in which every node has a predecessor inside the
      set contains a cycle: this is what Kahn's algorithm gets stuck on. */
  lemma StuckSetHasCycle<N(!new)>(g: Graph<N>, S: set<N>)
    requires S != {} && S <= g.Keys
    requires Stuck(g, S)
    ensures !Acyclic(g)
  {
    var v :| v in S;
    var w := BackwardWalk(g, S, v, |S|);
    var i, j := Pigeonhole(w, S);
    // Read w[i..j+1] backwards: it follows edges and returns to its start.
    var p := seq(j - i + 1, k requires 0 <= k <= j - i => w[j - k]);
    assert IsPath(g, p) by {
      forall k | 0 <= k < |p| - 1
        ensures p[k] in g && p[k + 1] in g[p[k]]
      {
        assert p[k] == w[j - k] && p[k + 1] == w[j - k - 1];
      }
    }
    assert IsCycle(g, p);
  }

  /** A non-empty graph in which every node has a predecessor is cyclic: an
      acyclic non-empty graph has a root. */
  lemma NoRootMeansCycle<N(!new)>(g: Graph<N>)
    requires g != map[] && Closed(g)
    requires RootNodes(g).Failure?
    ensures !Acyclic(g)
  {
    forall y | y in g.Keys
      ensures HasPredecessorIn(g, g.Keys, y)
    {
      assert !NoPredecessor(g, y);
    }
    StuckSetHasCycle(g, g.Keys);
  }

  /** Cutting the edge `root -> node` changes who has a predecessor only for
      `node`, and `node` then has none exactly when `predecessors` is empty. */
  lemma CutEdgeRoots<N(!new)>(graph: Graph<N>, root: N, node: N)
    requires root in graph && node in graph[root] && node in graph
    ensures var h := DeleteEdge(graph, root, node).value;
      && (forall n {:trigger NoPredecessor(h, n)} :: n != node ==> (NoPredecessor(h, n) <==> NoPredecessor(graph, n)))
      && (NoPredecessor(h, node) <==> Predecessors(h, node).value == {})
      && !NoPredecessor(graph, node)
  {
    var h := graph[root := graph[root] - {node}];
    forall n | n != node
      ensures NoPredecessor(h, n) <==> NoPredecessor(graph, n)
    {
      assert forall k :: k in h ==> (n in h[k] <==> n in graph[k]);
    }
    if !NoPredecessor(h, node) {
      var k :| k in h && node in h[k];
      assert k in Predecessors(h, node).value;
    }
  }

  /** The inner loop of `_toposort`: delete every outgoing edge of `root` from
      the working copy, one `delete_edge` at a time, and add to `roots` each
      successor that `predecessors` then finds without predecessor. */
  method CutOutgoing<N(!new)>(graph: Graph<N>, root: N, roots: set<N>) returns (graph': Graph<N>, roots': set<N>)
    requires root in graph && graph[root] <= graph.Keys
    ensures graph' == graph[root := {}]
    ensures forall n {:trigger n in roots'} :: n in roots' <==> n in roots || (n in graph[root] && NoPredecessor(graph', n))
  {
    graph', roots' := graph, roots;
    var succs := graph[root];
    while succs != {}
      invariant succs <= graph[root]
      invariant graph' == graph[root := succs]
      invariant forall n {:trigger n in roots'} :: n in roots' <==>
        n in roots || (n in graph[root] && n !in succs && NoPredecessor(graph', n))
      decreases succs
    {
      var node :| node in succs;
      ghost var before, rootsBefore := graph', roots';
      CutEdgeRoots(graph', root, node);
      var cut := DeleteEdge(graph', root, node);
      graph' := cut.value;
      succs := succs - {node};
      var preds := Predecessors(graph', node);
      if preds.value == {} {
        roots' := roots' + {node};
      }
      forall n {:trigger n in roots'}
        ensures n in roots' <==> n in roots || (n in graph[root] && n !in succs && NoPredecessor(graph', n))
      {
        if n != node {
          assert n in roots' <==> n in rootsBefore;
          assert NoPredecessor(graph', n) <==> NoPredecessor(before, n);
        }
      }
    }
  }

  /** Emptying the successor set of `root` leaves every node outside that set
      with the predecessors it had. */
  lemma CutAllKeepsOthers<N(!new)>(graph: Graph<N>, root: N, n: N)
    requires root in graph && n !in graph[root]
    ensures NoPredecessor(graph[root := {}], n) <==> NoPredecessor(graph, n)
  {
    var h := graph[root := {}];
    assert forall k :: k in h ==> (n in h[k] <==> n in graph[k]);
  }

  /** The state of the outer loop of `_toposort`: `graph` is `g` with the
      outgoing edges of the emitted nodes removed, every predecessor of an
      emitted node was emitted before it, and `roots` holds exactly the
      unemitted nodes left without predecessor. */
  ghost predicate KahnState<N(!new)>(g: Graph<N>, graph: Graph<N>, sorted: seq<N>, emitted: set<N>, roots: set<N>) {
    && graph.Keys == g.Keys
    && emitted <= g.Keys
    && (forall x :: x in sorted <==> x in emitted)
    && Distinct(sorted)
    && (forall k :: k in graph ==> graph[k] == if k in emitted then {} else g[k])
    && (forall k, n :: k in g && n in g[k] && n in emitted ==> k in emitted)
    && (forall n {:trigger n in roots} :: n in roots <==> n in g && n !in emitted && NoPredecessor(graph, n))
    && (forall i, j :: 0 <= i < |sorted| && 0 <= j < |sorted| && sorted[i] in g && sorted[j] in g[sorted[i]] ==> i < j)
  }

  /** A root of the outer loop is an unemitted node whose successors are
      all still in the working copy. */
  lemma RootIsFresh<N(!new)>(g: Graph<N>, graph: Graph<N>, sorted: seq<N>, emitted: set<N>, roots: set<N>, root: N)
    requires Closed(g) && KahnState(g, graph, sorted, emitted, roots) && root in roots
    ensures root in graph && root !in emitted && graph[root] == g[root] && graph[root] <= graph.Keys
  {
  }

  /** One turn of the outer loop keeps its state: `roots'` is what the inner
      loop leaves once `root` is taken out. */
  lemma EmitRoot<N(!new)>(g: Graph<N>, graph: Graph<N>, sorted: seq<N>, emitted: set<N>, roots: set<N>, root: N, roots': set<N>)
    requires Closed(g) && KahnState(g, graph, sorted, emitted, roots) && root in roots
    requires forall n {:trigger n in roots'} :: n in roots' <==>
      n in roots - {root} || (n in graph[root] && NoPredecessor(graph[root := {}], n))
    ensures KahnState(g, graph[root := {}], sorted + [root], emitted + {root}, roots')
  {
    assert NoPredecessor(graph, root);
    assert root !in g[root];
    assert forall k :: k in g && root in g[k] ==> k in emitted;
    var graph' := graph[root := {}];
    var sorted', emitted' := sorted + [root], emitted + {root};
    forall n {:trigger n in roots'}
      ensures n in roots' <==> n in g && n !in emitted' && NoPredecessor(graph', n)
    {
      if n !in g[root] {
        CutAllKeepsOthers(graph, root, n);
      } else {
        assert !NoPredecessor(graph, n);
      }
    }
  }

  /** The nodes never emitted once no root is left. */
  lemma LeftoverIsStuck<N(!new)>(g: Graph<N>, graph: Graph<N>, sorted: seq<N>, emitted: set<N>, roots: set<N>)
    requires KahnState(g, graph, sorted, emitted, roots) && roots == {}
    ensures Stuck(g, g.Keys - emitted)
  {
    var S := g.Keys - emitted;
    forall x | x in S
      ensures HasPredecessorIn(g, S, x)
    {
      assert x !in roots;
      assert !NoPredecessor(graph, x);
      var u :| u in graph && x in graph[u];
    }
  }

  /** When no root is left and edges remain, the graph has a cycle. */
  lemma KahnExitCyclic<N(!new)>(g: Graph<N>, graph: Graph<N>, sorted: seq<N>, emitted: set<N>)
    requires KahnState(g, graph, sorted, emitted, {}) && Edges(graph) != {}
    ensures !Acyclic(g)
  {
    LeftoverIsStuck(g, graph, sorted, emitted, {});
    var e :| e in Edges(graph);
    EdgeSourceUnemitted(g, graph, emitted, e.0, e.1);
    StuckSetHasCycle(g, g.Keys - emitted);
  }

  /** Only unemitted nodes keep outgoing edges in the working copy. */
  lemma EdgeSourceUnemitted<N(!new)>(g: Graph<N>, graph: Graph<N>, emitted: set<N>, a: N, b: N)
    requires graph.Keys == g.Keys
    requires forall k :: k in graph ==> graph[k] == if k in emitted then {} else g[k]
    requires (a, b) in Edges(graph)
    ensures a in g.Keys - emitted
  {
    assert a in graph && b in graph[a];
  }

  lemma EdgeOf<N(!new)>(g: Graph<N>, a: N, b: N)
    requires a in g && b in g[a]
    ensures (a, b) in Edges(g) && Edges(g) != {}
  {
  }

  /** A node never emitted still has an incoming edge in the working copy. */
  lemma LeftoverHasEdge<N(!new)>(g: Graph<N>, graph: Graph<N>, emitted: set<N>)
    requires graph.Keys == g.Keys
    requires forall k :: k in graph ==> graph[k] == if k in emitted then {} else g[k]
    requires Stuck(g, g.Keys - emitted) && g.Keys - emitted != {}
    ensures Edges(graph) != {}
  {
    var S := g.Keys - emitted;
    var x :| x in S;
    assert HasPredecessorIn(g, S, x);
    var u :| u in S && u in g && x in g[u];
    assert u in graph && u !in emitted;
    assert graph[u] == g[u];
    EdgeOf(graph, u, x);
  }

  /** When no root is left and no edge remains, every node was emitted in
      topological order. */
  lemma KahnExitSorted<N(!new)>(g: Graph<N>, graph: Graph<N>, sorted: seq<N>, emitted: set<N>)
    requires KahnState(g, graph, sorted, emitted, {}) && Edges(graph) == {}
    ensures IsTopologicalOrder(g, sorted) && Acyclic(g)
  {
    LeftoverIsStuck(g, graph, sorted, emitted, {});
    var S := g.Keys - emitted;
    if S != {} {
      LeftoverHasEdge(g, graph, emitted);
    }
    assert g.Keys <= emitted by {
      assert S == {};
      forall x | x in g.Keys
        ensures x in emitted
      {
        assert x !in S;
      }
    }
    TopologicalOrderIsAcyclic(g, sorted);
  }

  /** `_toposort`: Kahn's algorithm on a copy of the graph. DAGValidationError
      "no root node found" when `root_nodes` fails, "graph is not acyclic" when
      edges remain once no root is left; otherwise the sorted node list. */
  method Kahn<N(!new)>(g: Graph<N>) returns (r: Result<seq<N>, DagError>)
    requires Closed(g)
    ensures r == Failure(NoRootNode) <==> RootNodes(g).Failure?
    ensures r.Success? <==> RootNodes(g).Success? && Acyclic(g)
    ensures r.Failure? ==> IsValidationError(r.error)
    ensures r.Success? ==> IsTopologicalOrder(g, r.value)
  {
    var graph := g;
    var sorted: seq<N> := [];
    var rootNodes := RootNodes(g);
    if rootNodes.Failure? {
      return Failure(rootNodes.error);
    }
    var roots := rootNodes.value;
    ghost var emitted: set<N> := {};
    while roots != {}
      invariant KahnState(g, graph, sorted, emitted, roots)
      decreases g.Keys - emitted
    {
      var root :| root in roots;
      RootIsFresh(g, graph, sorted, emitted, roots, root);
      var graph', roots' := CutOutgoing(graph, root, roots - {root});
      EmitRoot(g, graph, sorted, emitted, roots, root, roots');
      graph, roots := graph', roots';
      sorted := sorted + [root];
      emitted := emitted + {root};
    }
    if Edges(graph) != {} {
      KahnExitCyclic(g, graph, sorted, emitted);
      return Failure(NotAcyclic);
    }
    KahnExitSorted(g, graph, sorted, emitted);
    return Success(sorted);
  }
}

=== FILE: wrappers.dfy ===
/** Failure-carrying datatypes used to model Python's `None` returns and raised
    exceptions as values. */
module Wrappers {

  /** A value that may be absent (Python's `None`). */
  datatype Option<+T> = None | Some(value: T)

  /** Either a successful value or the exception an operation raised. */
  datatype Result<+T, +E> = Success(value: T) | Failure(error: E)
  {
    predicate IsFailure() {
      Failure?
    }

    function PropagateFailure<U>(): Result<U, E>
      requires Failure?
    {
      Failure(error)
    }

    function Extract(): T
      requires Success?
    {
      value
    }
  }
}
